=== FILE: README.md ===
# badascii diagram analysis, modelled in Dafny

badascii turns ASCII-art circuit diagrams into drawings. A diagram lives in
a text buffer: a grid of cells, each empty or holding one character. The
analysis engine scans the grid for straight runs of line characters. It
merges runs that lie on one line, groups touching segments into wires, and
finds boxes drawn with `+`, `-` and `|`. The repository carries several
generations of this engine:

- the library's four-direction analyzer (`badascii/src/analyze.rs`). It scans
  rows, columns and both diagonals, merges colinear segments of one kind and
  sorts them by identifier;
- the editor's analyzer (`badascii-egui/src/analyze.rs`) and the backend's
  (`badascii-backend/src/analyze.rs`). They scan rows and columns, merge by
  axis and grow wires from shared endpoints. The editor's also detects
  rectangles;
- two older corner analyzers (`src/analyze.rs`, `src/lib/analyze.rs`). They
  scan with a three-state scanner and detect rectangles with weaker checks.

Around the engine sit the text buffer (`badascii/src/text_buffer.rs` and
its older copy `src/text_buffer.rs`) and the coordinate and rectangle
helpers (`src/tc.rs`, `src/lib/rect.rs`). The editor's pure geometry
helpers in `src/main.rs` are modelled too: perpendicular snapping,
poly-line editing and rectangle corners.

The model is functional. A buffer is an immutable value with a grid of
rows. Operations that mutate in the source return a new buffer. Scanners
are folds over the classified cells. The hash-map and hash-set iteration
orders the source depends on are parameters or nondeterministic choices,
so every property holds for every order. The modules follow the program:

| module | file | models |
|---|---|---|
| `Tc` | tc.dfy | text coordinates and their saturating moves |
| `Rect` | rect.dfy | rectangles: normal form, containment, size, corners |
| `PolyLines` | polyline.dfy | the editor's poly-lines and perpendicular snapping |
| `TextBuffers` | textbuffer.dfy | the buffer: get, set, clear, window, resize, paste |
| `BufferIteration` | iteration.dfy | the four traversal orders and the word iterator |
| `Render` | render.dfy | rendering a buffer to text |
| `Glyphs` | glyph.dfy | the character classifiers of every analyzer |
| `Segments` | segment.dfy | line segments: identifier, kind, length, points, colinearity |
| `Scanner` | scanner.dfy | the two-state straight-line scanner and its length filter |
| `CornerScanner` | cornerscan.dfy | the older three-state scanner |
| `Finders` | finders.dfy | the per-direction segment getters |
| `Merge` | merge.dfy | colinear merging |
| `Sorting` | sorting.dfy | the sort by key used on segments and wires |
| `Wires` | wires.dfy | wire assembly and sorting |
| `Rectangles` | rectangles.dfy | the three rectangle detectors |
| `Analyzers` | analyzers.dfy | the analyzers end to end |
| `Fixtures` | fixtures.dfy | the repository's test diagrams |

Where the repository's tests and its code disagree, the model follows the
code:

- The backend's `test_extract_wires` (badascii-backend/src/analyze.rs:289-301)
  expects two wires for the cup with an arrow. The backend's classifier does
  not read `o` as a terminal, so the arrow is never a segment. The model
  gives one wire (`Fixtures.BackendCupWires`).
- The four-direction analyzer's `test_extract_wires`
  (badascii/src/analyze.rs:307-319) expects two wires for the same diagram.
  That analyzer never groups segments into wires, and its classifiers also
  ignore `o`. The model gives three separate segments (`Fixtures.FourWayCup`).
- The oldest corner analyzer only checks that the opposite corner ends some
  line. It therefore reports the open cup as a rectangle
  (`Fixtures.CupReportedByOldest`). The editor's detector and the first
  corner analyzer report nothing for it (`Fixtures.CupRejected`), as their
  tests expect.

## Model

| member | source | states |
|---|---|---|
| Tc.RightDownStep | src/tc.rs:8-31 | moving right or down advances exactly one coordinate by one and keeps the other |
| Tc.LeftUpSaturate | src/tc.rs:14-25 | left on column 0 and up on row 0 stay put; elsewhere, right undoes left and down undoes up |
| Tc.MovesRoundTrip | src/tc.rs:8-31 | left after right, and up after down, return to the start |
| Tc.ShiftedByNothing | src/tc.rs:33-40 | shifting by a move that ends where it began leaves the coordinate unchanged |
| Tc.ShiftedRoundTrip | src/tc.rs:33-40 | when no coordinate saturates, shifting back from the move's end to its origin undoes a shift |
| Tc.ShiftedSaturates | src/tc.rs:33-40 | a shift that would go left of column 0 or above row 0 stops at 0; otherwise it moves by the drag's offset |
| Rect.Normalize | src/lib/rect.rs:54-63 | the normal form has its first corner top-left and contains exactly the same cells; a normal rectangle is its own normal form |
| Rect.NormalizeIdempotent | src/lib/rect.rs:54-63 | normalizing twice is normalizing once |
| Rect.ContainsSymmetric | src/lib/rect.rs:13-19 | containment does not depend on which corner is given first |
| Rect.Left | src/lib/rect.rs:47-49 | the left edge is the normal form's left column and no contained cell lies left of it |
| Rect.Top | src/lib/rect.rs:51-53 | the top edge is the normal form's top row and no contained cell lies above it |
| Rect.Width | src/lib/rect.rs:41-45 | the width counts the cells of the top row: the last one is contained, the one after is not |
| Rect.Height | src/lib/rect.rs:36-40 | the height counts the cells of the left column: the last one is contained, the one below is not |
| Rect.LeftTop | badascii-egui/src/analyze.rs:281-310 | the top-left corner is a contained cell with no contained cell left of it or above it |
| Rect.RightTop | badascii-egui/src/analyze.rs:281-315 | the top-right corner is a contained cell with no contained cell right of it or above it |
| Rect.LeftBottom | badascii-egui/src/analyze.rs:287-316 | the bottom-left corner is a contained cell with no contained cell left of it or below it |
| Rect.RightBottom | badascii-egui/src/analyze.rs:283-313 | the bottom-right corner is a contained cell with no contained cell right of it or below it |
| Rect.ShiftedKeepsSize | src/lib/rect.rs:21-26 | a drag that does not saturate keeps width and height and moves the top-left corner by the drag |
| Rect.IterInterior | src/lib/rect.rs:28-34 | the interior iterator visits exactly the contained cells, row by row, width times height of them |
| Rect.IsEmptyIffThin | src/main.rs:161-163 | a rectangle is empty exactly when it is one cell wide or one cell high |
| Rect.BoundaryFacts | src/main.rs:204-212 | the four corners are on the boundary, every boundary cell is contained, and no strictly inner cell is on it |
| Rect.IterCorners | src/main.rs:190-202 | the corner iterator yields four cells, starting top-left, and these are exactly the rectangle's corners |
| Rect.ControlledBy | src/main.rs:214-243 | only a corner controls a rectangle; the result is the same rectangle re-anchored so that the grabbed corner is the second, moving one |
| PolyLines.PerpAlign | src/main.rs:98-112 | the snapped point shares a row or a column with the last anchor and keeps one of the cursor's coordinates |
| PolyLines.PerpAlignNearest | src/main.rs:98-112 | no point aligned with the last anchor is closer to the cursor than the snapped point |
| PolyLines.PerpAlignIdempotent | src/main.rs:98-112 | snapping an already snapped point changes nothing |
| PolyLines.Extend | src/main.rs:398-403 | extending appends one anchor and keeps the earlier ones; after the first, the new anchor is the point snapped to the previous anchor: on a horizontal or vertical line through it, keeping one of the point's coordinates, and no cell on those lines is nearer to the point |
| PolyLines.ExtendKeepsLegsAligned | src/main.rs:398-403 | a poly-line whose legs are all horizontal or vertical keeps that property when extended |
| PolyLines.Edges | src/main.rs:410-416 | there is one edge per pair of consecutive anchors, numbered in order |
| PolyLines.EdgesChain | src/main.rs:410-416 | each edge starts where the previous one stops, from the first anchor to the last |
| PolyLines.EdgeAt | src/main.rs:417-419 | the edge at an index exists exactly when anchors exist at that index and the next, and joins those two |
| PolyLines.EdgeOnBoundaryIsOnLeg | src/main.rs:460-467 | on a horizontal or vertical leg, a cell is on the edge exactly when it lies on that leg between its ends |
| PolyLines.AnchoredBy | src/main.rs:420-429 | a poly-line is anchored by a cell exactly when it starts or ends there; the result is the other anchors, ordered so that they end next to that cell |
| PolyLines.Shifted | src/main.rs:430-452 | dragging an edge moves only that edge's two anchors |
| PolyLines.ShiftedKeepsLegAligned | src/main.rs:430-452 | a dragged horizontal edge stays horizontal and a dragged vertical edge stays vertical |
| TextBuffers.Get | badascii/src/text_buffer.rs:162-168 | outside the grid nothing is read, and no cell ever reads as a space |
| TextBuffers.New | badascii/src/text_buffer.rs:29-35 | a new buffer has the requested size and every cell empty |
| TextBuffers.ClearAll | badascii/src/text_buffer.rs:170-172 | clearing keeps the size and empties every cell |
| TextBuffers.SetText | badascii/src/text_buffer.rs:49-54 | writing changes only the addressed cell, stores a space as empty, and ignores a position outside the grid |
| TextBuffers.MergeText | badascii/src/text_buffer.rs:55-59 | merging nothing leaves the buffer as it is; merging a character writes it |
| TextBuffers.GetAfterSet | badascii/src/text_buffer.rs:49-54 | reading back a written cell gives what was written (space as empty), and other cells are unaffected |
| TextBuffers.Window | badascii/src/text_buffer.rs:190-207 | the window is the rectangle's size and each of its cells reads the matching cell of the source buffer |
| TextBuffers.Resize | badascii/src/text_buffer.rs:224-233 | resizing keeps every cell that fits in the new size and leaves the new cells empty |
| TextBuffers.ClearRectangle | badascii/src/text_buffer.rs:156-160 | exactly the cells inside the selection become empty |
| TextBuffers.Paste | badascii/src/text_buffer.rs:174-189 | each pasted character lands at its line and column offset from the position, other cells keep their contents, and the returned rectangle is the tightest one from the position around the pasted cells |
| BufferIteration.Iter | badascii/src/text_buffer.rs:60-70 | the row iterator yields exactly the non-empty cells, row by row, left to right |
| BufferIteration.IterVert | badascii/src/text_buffer.rs:71-82 | the column iterator yields exactly the non-empty cells, column by column, top to bottom |
| BufferIteration.IterDiagDownRight | badascii/src/text_buffer.rs:83-97 | the down-right iterator yields exactly the non-empty cells, one down-right diagonal at a time: the main diagonal first, then the diagonals starting lower in the first column, top to bottom, then those starting in the first row, left to right |
| BufferIteration.IterDiagUpRight | badascii/src/text_buffer.rs:98-115 | the up-right iterator yields exactly the non-empty cells, one up-right diagonal at a time from the top-left one |
| BufferIteration.ScanIsGroup | badascii/src/text_buffer.rs:119-155 | the word iterator's state machine equals grouping the cells into maximal runs of horizontally adjacent cells |
| BufferIteration.Words | badascii/src/text_buffer.rs:119-155 | the words of a buffer are the row-order cells grouped into maximal adjacent runs |
| BufferIteration.GroupFacts | badascii/src/text_buffer.rs:119-155 | the words' texts concatenate to all characters in order, no word is empty, each word starts at a cell, and there is one word more than there are breaks |
| BufferIteration.GroupSplit | badascii/src/text_buffer.rs:119-155 | cells split where two neighbours are not adjacent group as the two halves grouped separately |
| BufferIteration.WordsExample | badascii/src/text_buffer.rs:285-333 | the words test's layout yields the words "a", "bad", "ay", "at_the" and "office" at their starting cells |
| Render.RowText | badascii/src/text_buffer.rs:15-26 | a rendered row has one character per column: the cell's character, or a space for an empty cell |
| Render.RenderPadded | src/text_buffer.rs:96-104 | the padded rendering has every row at full width followed by a newline |
| Render.SplitJoin | badascii/src/text_buffer.rs:208-222 | splitting a text at newlines and joining the parts with newlines gives the text back |
| Render.JoinSplit | badascii/src/text_buffer.rs:208-222 | joining newline-free lines and splitting the result gives the lines back |
| Render.TrimEnd | badascii/src/text_buffer.rs:208-222 | trimming keeps a prefix, removes only trailing ASCII whitespace, and leaves none at the end |
| Render.TrimEndUnique | badascii/src/text_buffer.rs:208-222 | any prefix that removes only trailing whitespace and ends in a non-space is the trimmed text |
| Render.TrimEndIdempotent | badascii/src/text_buffer.rs:208-222 | trimming twice is trimming once |
| Render.RenderRows | badascii/src/text_buffer.rs:208-222 | for a buffer in which no cell holds a newline, the padded text splits into the rows plus an empty tail, and the rendering joins the trimmed non-blank rows with newlines |
| Render.RenderLines | badascii/src/text_buffer.rs:208-222 | for every buffer, whatever its cells hold, every line of the rendering is non-empty and ends in a non-whitespace character, unless the rendering is empty |
| Glyphs.ClassifiersAgree | badascii-backend/src/analyze.rs:115-122 | the backend reads characters as the editor does except `o`; the corner analyzers' readings agree with the backend's; a per-direction terminal is a terminal for the editor; a per-direction edge is an edge of its own direction |
| Glyphs.PlusIsTheOnlyCommonTerminal | badascii/src/analyze.rs:142-172 | `+` is the one character all four direction classifiers read as a terminal |
| Segments.Id | badascii/src/analyze.rs:18-24 | the identifier fits in 32 bits |
| Segments.DecodeIdRoundTrip | badascii/src/analyze.rs:18-24 | with coordinates below 256, the identifier determines the segment |
| Segments.IdDecodeRoundTrip | badascii/src/analyze.rs:18-24 | every 32-bit identifier is the identifier of some segment |
| Segments.IdInjective | badascii/src/analyze.rs:18-24 | with coordinates below 256, two segments share an identifier exactly when they are equal |
| Segments.KindOfReversed | badascii/src/analyze.rs:25-37 | a segment is horizontal when its ends share a row, vertical when they share only a column, and a down-slant when its end is below-right; reversing swaps the two slants and keeps the other kinds |
| Segments.Len | badascii/src/analyze.rs:71-75 | the length is the larger of the horizontal and vertical extents, zero exactly for a point |
| Segments.PointsFrom | badascii/src/analyze.rs:42-70 | the four-direction iterator yields one point per step, each the start moved that many steps along the segment's kind |
| Segments.PointsThrough | badascii-egui/src/analyze.rs:19-40 | the editor's iterator yields one point per cell of the row span, or of the column span |
| Segments.PointsAgree | badascii-egui/src/analyze.rs:19-40 | on a forward horizontal or vertical segment, the editor's points are the four-direction points plus the end, length plus one of them |
| Segments.ColinearByKindSymmetric | badascii/src/analyze.rs:76-82 | colinearity by kind does not depend on the order of the two segments |
| Segments.ColinearByAxisSymmetric | badascii-egui/src/analyze.rs:46-64 | colinearity by axis does not depend on the order of the two segments |
| Segments.ColinearRulesAgreeOnColumns | badascii-egui/src/analyze.rs:46-64 | on downward column segments, the editor's colinearity implies the four-direction one |
| Segments.ExtendByKind | badascii/src/analyze.rs:83-126 | the extension keeps the kind, covers both segments, and spans exactly their combined bounding box |
| Segments.ExtendByAxis | badascii-egui/src/analyze.rs:65-98 | the extension covers both segments, runs forward, and stays on their row or column |
| Segments.SpanIsSmallest | badascii-egui/src/analyze.rs:65-98 | any segment covering both inputs covers their span |
| Scanner.Retain | badascii-egui/src/analyze.rs:396 | the filter keeps exactly the segments of at least the minimum length |
| Scanner.RunState | badascii/src/analyze.rs:214-268 | after any prefix the scanner is tracking exactly when a run is open at the end, and then it holds that run's start |
| Scanner.RunOutput | badascii/src/analyze.rs:214-268 | the scanner reports exactly the runs that close inside the input |
| Scanner.WithSentinel | badascii/src/analyze.rs:206-212 | the end-of-input sentinel neither closes nor breaks a real run |
| Scanner.FinderSpec | badascii/src/analyze.rs:214-268 | a segment is found exactly when a terminal, a run of edges of the axis and a terminal follow on cell by cell, and it is long enough |
| Scanner.ClosedShape | badascii/src/analyze.rs:214-268 | a closed run gives a segment of the axis's kind whose length is its number of steps, with terminals at both ends and edges between |
| Scanner.FinderShape | badascii/src/analyze.rs:214-268 | every found segment has the axis's kind and length at least one |
| Scanner.LengthOneFilterIsRedundant | badascii/src/analyze.rs:266 | the filter "at least 1" removes nothing |
| Scanner.ShortColumn | badascii/src/analyze.rs:352-375 | two stacked terminals give a length-one segment that the filter "at least 1" keeps and "at least 2" drops |
| Scanner.CrossingEdgeBreaks | badascii-egui/src/analyze.rs:374-381 | an edge of the other axis between two terminals breaks the run |
| Scanner.RunAndRestart | badascii/src/analyze.rs:253-260 | a run closes at its terminal, and a terminal that does not follow on starts a new run |
| CornerScanner.RunExplained | src/lib/analyze.rs:156-214 | every state of the three-state scanner and every segment it pushes is explained by a run of the input |
| CornerScanner.ReportsAreRuns | src/lib/analyze.rs:156-214 | every segment the three-state scanner pushes is also found by the two-state scanner |
| CornerScanner.RunExtends | src/lib/analyze.rs:158-212 | the segments are only ever appended: what is pushed while reading a prefix stays at the front of the result |
| CornerScanner.TrackedRun | src/lib/analyze.rs:178-185 | a run tracked from a corner keeps being tracked, on its row or column, while its edges follow on |
| CornerScanner.TrackStep | src/lib/analyze.rs:178-185 | a tracked run takes in an edge of its axis that follows on |
| CornerScanner.ClosedWaits | src/lib/analyze.rs:186-193 | a tracked run closed by a following corner waits for its blank check |
| CornerScanner.CheckPushes | src/lib/analyze.rs:194-197 | a run waiting for its check is pushed by any item that does not touch its end |
| CornerScanner.PushedStays | src/lib/analyze.rs:158-212 | a segment pushed while reading a prefix is in the final output |
| CornerScanner.RunComplete | src/lib/analyze.rs:156-213 | completeness: a run tracked from its first corner, closed by a corner and not touched by the next item is pushed |
| CornerScanner.FoundComplete | src/lib/analyze.rs:156-213 | the finder pushes such a run, the sentinel standing for the item after the last one |
| CornerScanner.SentinelFlushes | src/lib/analyze.rs:194-205 | the sentinel always leaves the scanner blank, and pushes a run waiting for its blank check exactly when the run's end is not the cell right before the sentinel's position along the axis |
| CornerScanner.ColumnsAreFlippedRows | src/lib/analyze.rs:97-154 | scanning columns equals scanning the transposed rows and transposing back |
| CornerScanner.TouchingCornerDropsRun | src/lib/analyze.rs:156-214 | a corner right after a closed run discards that run, where the two-state scanner keeps both segments |
| CornerScanner.DetachedCornerIsDropped | src/lib/analyze.rs:156-214 | a corner that does not follow on from the open run is dropped, where the two-state scanner restarts from it |
| CornerScanner.SeparatedRunsBothPushed | src/lib/analyze.rs:156-214 | two runs separated by a gap are both pushed |
| Finders.Traverse | badascii/src/text_buffer.rs:60-115 | each traversal yields exactly the non-empty cells |
| Finders.FinderDrawn | badascii/src/analyze.rs:270-300 | every segment found along a direction is drawn on the grid: a terminal at each end, edges of the direction between, and at least the minimum length |
| Finders.ClassifiedOrdered | badascii/src/analyze.rs:278-284 | dropping the cells the classifier does not recognise keeps the traversal's strict order |
| Finders.ItemsOrdered | badascii/src/text_buffer.rs:60-78 | the row and column scans read their classified cells in strict row-major and column-major order |
| Finders.ItemsCover | badascii/src/analyze.rs:270-284 | every cell the classifier recognises is read by the scan, with its class |
| Finders.HeadFirst | badascii/src/analyze.rs:278-284 | the first cell of an ordered traversal comes before every item classified from the rest |
| Finders.ConsOrdered | badascii/src/analyze.rs:278-284 | an item before every item of an ordered scan extends it in front, still ordered |
| Finders.NothingBetween | badascii/src/analyze.rs:274-282 | no cell comes, in scan order, strictly between a cell and the next one along the axis, and the next one does not come first |
| Finders.NextIsNext | badascii/src/analyze.rs:270-284 | in an ordered scan, the item whose cell follows on from another's along the axis is the very next item |
| Finders.NextItem | badascii/src/analyze.rs:270-284 | a recognised cell that follows on from an item's cell is the next item, with its class |
| Finders.OpenGrows | badascii/src/analyze.rs:245-249 | a run being tracked takes in an edge of its axis that follows on |
| Finders.DrawnCell | badascii/src/analyze.rs:225-249 | the cells of a drawn segment are recognised: edges of the axis inside, a terminal at its end |
| Finders.DrawnRun | badascii/src/analyze.rs:223-249 | a drawn segment is read as consecutive items from its starting terminal: a tracked run of edges, then its end |
| Finders.DrawnRunStep | badascii/src/analyze.rs:245-249 | the next cell of a drawn segment is read as the next item and extends the tracked run |
| Finders.DrawnCloses | badascii/src/analyze.rs:231-238 | the run from a drawn segment's starting terminal is closed by its end terminal and stands for that segment |
| Finders.DrawnIsReported | badascii/src/analyze.rs:214-267 | a scan that reads every recognised cell in scan order reports every drawn segment long enough for the filter |
| Finders.DrawnIsScanned | badascii/src/analyze.rs:214-284 | completeness along rows and columns: every drawn segment long enough for the filter is reported |
| Finders.DrawnIsFound | badascii-egui/src/analyze.rs:400-416 | along rows and columns an analyzer finds exactly the drawn segments that pass its length filter |
| Finders.LineSegments | badascii-egui/src/analyze.rs:400-416 | each analyzer's row and column segments are drawn on the grid and long enough for its filter |
| Finders.CornerSegments | src/lib/analyze.rs:97-214 | the corner analyzers' segments are drawn on the grid and are among the two-state scanner's segments |
| Merge.MergeInto | badascii-egui/src/analyze.rs:163-171 | merging one segment adds it exactly when nothing colinear is present, else replaces one segment |
| Merge.MergeIntoSpec | badascii-egui/src/analyze.rs:163-171 | the first colinear segment is replaced by the extension and the rest stay in place; with none, the segment is appended |
| Merge.MergeIntoCovers | badascii-egui/src/analyze.rs:163-171 | after merging, the new segment and everything covered before are covered by some segment |
| Merge.MergeColinearFacts | badascii-egui/src/analyze.rs:173-183 | merging never grows the list, keeps it non-empty exactly when the input is, and covers every input segment |
| Merge.MergeColinearKinds | badascii/src/analyze.rs:184-194 | every merged segment has the kind of some input segment |
| Merge.MergeColinearUnmergeable | badascii/src/analyze.rs:184-194 | when no two inputs are colinear, merging only moves the last segment to the front |
| Merge.CrossingMerges | badascii-egui/src/analyze.rs:513-525 | the four arms of a `+` crossing merge into the full row and the full column, under either rule |
| Sorting.SortBy | badascii/src/analyze.rs:202 | the sort returns a permutation of its input ordered by key |
| Wires.Grow | badascii-egui/src/analyze.rs:196-229 | a wire grows from its seed through raw segments that touch its ends, takes nothing used before, and stops only when no unused raw segment touches it |
| Wires.Assemble | badascii-egui/src/analyze.rs:185-232 | the wires are disjoint, each grown from an unused merged seed, and every raw segment touching a wire belongs to one |
| Wires.WireCount | badascii-egui/src/analyze.rs:185-232 | there are at most as many wires as merged segments, at least one if any, and one per merged segment when no merged segment is raw |
| Wires.SharedEndpointSameWire | badascii-egui/src/analyze.rs:196-229 | two raw segments sharing an endpoint are in the same wire |
| Wires.SortWires | badascii-egui/src/analyze.rs:227-231 | the wires are reordered by their first identifier, each with its segments sorted, nothing lost or added |
| Wires.SortWiresKeeps | badascii-egui/src/analyze.rs:227-231 | sorting keeps wires disjoint and non-empty and places exactly the segments that were assembled |
| Wires.SortedClosed | badascii-egui/src/analyze.rs:185-232 | every placed segment is merged or raw, and the wires are closed under touching raw segments |
| Wires.SortedSeparated | badascii-egui/src/analyze.rs:185-232 | a set of segments that touches nothing outside itself never shares a wire with the rest |
| Wires.GetWires | badascii-backend/src/analyze.rs:151-198 | the wires are sorted and disjoint, place every merged segment, hold only merged or scanned segments, are closed under shared endpoints, and are empty exactly when nothing was scanned |
| Wires.FourWayWires | badascii/src/analyze.rs:196-204 | the result is sorted by identifier, covers every scanned segment with one of the same kind, and is empty exactly when nothing was scanned |
| Rectangles.MkHoriz | badascii-egui/src/analyze.rs:136-145 | a horizontal line is stored left end first, with the same two ends |
| Rectangles.MkVert | badascii-egui/src/analyze.rs:147-156 | a vertical line is stored top end first, with the same two ends |
| Rectangles.MkIdempotent | badascii-egui/src/analyze.rs:136-156 | orienting an oriented line changes nothing |
| Rectangles.EntriesSpec | badascii-egui/src/analyze.rs:237-248 | the corner map's entries are exactly each segment's two ends paired with the stored line |
| Rectangles.CornerMap | badascii-egui/src/analyze.rs:237-248 | the map holds exactly the corners that appear, each with exactly the lines entered there |
| Rectangles.SidesCanonical | badascii-egui/src/analyze.rs:281-291 | a normal rectangle's sides are already in the stored orientation |
| Rectangles.HorizontalSide | badascii-egui/src/analyze.rs:264-277 | the picked horizontal line is the top side of the candidate built from its far end |
| Rectangles.VerticalSide | badascii-egui/src/analyze.rs:264-277 | the picked vertical line is the left side of the candidate built from its far end |
| Rectangles.AwayFromBorder | badascii-egui/src/analyze.rs:304-323 | a rectangle that passes the empty-surroundings and `+` checks lies at least one cell from the top and left border |
| Rectangles.KeyEndsLine | src/lib/analyze.rs:43-59 | every corner the map knows is an end of a scanned segment |
| Rectangles.OldestSides | src/lib/analyze.rs:62-88 | the rectangle built at a corner from the lines found there has a scanned horizontal and a scanned vertical side |
| Rectangles.OldestOpposite | src/lib/analyze.rs:62-93 | the rectangle kept at a corner has its far corner at the end of a scanned segment, and the lines found at the first corner run along two of its sides |
| Rectangles.OppositeShape | src/lib/analyze.rs:76-90 | a horizontal and a vertical segment ending at a corner run along two sides of the rectangle they span, whose far corner is read off their other ends |
| Rectangles.DetectSound | badascii-egui/src/analyze.rs:234-331 | every reported rectangle is normal; with the edge checks all four sides are scanned segments; the editor's also has `+` corners and empty surroundings; the oldest has one horizontal and one vertical side scanned, leaving one corner, and the diagonally opposite corner ends a scanned segment |
| Rectangles.Reported | badascii-egui/src/analyze.rs:250-331 | a junction whose candidate passes the checks is reported; this is the membership rule of the detector's set comprehension |
| Rectangles.TwoCorners | badascii-egui/src/analyze.rs:250-331 | completeness partner of DetectSound: for any variant but the oldest, a normal rectangle whose top-left corner holds exactly its top and left sides and whose bottom-right corner holds exactly its bottom and right sides (with `+` corners and empty surroundings for the editor) is reported |
| Analyzers.FourWayAnalyzerWires | badascii/src/analyze.rs:196-204 | the library's wires are sorted, cover every scanned segment, and keep the kinds of the scanned segments |
| Analyzers.ScannedWires | badascii-backend/src/analyze.rs:151-198 | the editor's and the backend's wires cover every scanned segment and hold only scanned or merged segments |
| Analyzers.AllSidesDrawn | badascii-egui/src/analyze.rs:234-331 | a rectangle whose four sides are scanned segments has all four sides drawn on the grid and is at least the filter's length on each axis |
| Analyzers.EditorRectangles | badascii-egui/src/analyze.rs:234-331 | every rectangle the editor reports has all four sides drawn, at least two cells on each axis, `+` corners, empty surroundings, and no edge on the border |
| Analyzers.CornerRectangles | src/analyze.rs:68-140 | every rectangle the corner analyzer reports has all four sides drawn and spans more than one cell on each axis |
| Analyzers.OldestRectangles | src/lib/analyze.rs:40-95 | every rectangle the oldest analyzer reports has a horizontal and a vertical side drawn, meeting at one corner, and its diagonally opposite corner is an end of a scanned line |
| Fixtures.ClosedBoxFound | badascii-egui/src/analyze.rs:234-331 | a lone closed box with `+` corners and empty surroundings is found by the editor, and it is the only rectangle found |
| Fixtures.ClosedBoxReported | badascii-egui/src/analyze.rs:281-326 | such a box is reported from its top-left corner |
| Fixtures.BoxFound | badascii-egui/src/analyze.rs:423-433 | the basic box is the only rectangle found |
| Fixtures.BorderedBoxFound | badascii-egui/src/analyze.rs:478-495 | the initial diagram's box, with labels inside and port marks beside its sides, is the only rectangle found |
| Fixtures.StrayDashRejected | badascii-egui/src/analyze.rs:466-476 | a box with a stray character left of its corner is rejected |
| Fixtures.CupRejected | badascii-egui/src/analyze.rs:436-448 | the open cup gives no rectangle to the editor or to the first corner analyzer |
| Fixtures.CupReportedByOldest | src/lib/analyze.rs:40-95 | the oldest analyzer reports the open cup as a rectangle |
| Fixtures.CrossingWires | badascii-egui/src/analyze.rs:513-525 | the four-armed crossing gives two wires |
| Fixtures.VerticalArrowWires | badascii-egui/src/analyze.rs:498-510 | the vertical arrow gives one wire |
| Fixtures.EditorCupWires | badascii-egui/src/analyze.rs:451-463 | the cup with an arrow gives two wires in the editor |
| Fixtures.BackendCupWires | badascii-backend/src/analyze.rs:289-301 | the cup with an arrow gives one wire in the backend |
| Fixtures.FourWayCrossing | badascii/src/analyze.rs:337-349 | the four-direction analyzer merges the crossing into the full row and the full column |
| Fixtures.FourWayShortLine | badascii/src/analyze.rs:352-375 | the four-direction analyzer keeps the length-one column segment |
| Fixtures.FourWayCup | badascii/src/analyze.rs:307-319 | the four-direction analyzer leaves the cup as three separate segments |

## Left out

- Integer widths: coordinates are unbounded naturals. The u32 overflow of moving right or down, and the i32 casts in `shifted`, are not modelled.
- `TextBuffer::with_text` (badascii/src/text_buffer.rs:36-42) and the trivial accessors `size`, `last`, `is_empty` and `anchors` are not modelled.
- `Paste` takes the pasted text already split into lines; Rust's `str::lines` splitting is not modelled.
- The GUI, the command-line tool, SVG rendering, the bitmap font and the mdbook plug-in are outside the analysis engine.
- Hash-map and hash-set order: rectangle detection takes the pick from each set as a parameter, and wire assembly chooses seeds and attachments nondeterministically.
- Fixtures start from the segments each scan finds on the test diagram, not from the characters of the grid.
- The diagonal iterator tests (badascii/src/text_buffer.rs:261-282) are covered by the ordering contracts of the diagonal iterators, not by a fixture.
- Sorting.SortBy: the sort is stable in the source; stability is not stated.
- Render.RenderPadded: requires at least one column, because `chunks(0)` panics.
- Segments.PointsFrom: for an up-slant, requires that the segment does not run above row 0, where the source's u32 arithmetic would underflow.
- Rect.LeftTop, Rect.RightTop, Rect.LeftBottom, Rect.RightBottom: the library's rectangle type, which defines `left_top` and the other corner accessors, is not part of this model; they are modelled from their names and from how the editor's detector uses them.
- `iter_diag_up_right` computes `num_rows - 1` (badascii/src/text_buffer.rs:100-101), which underflows u32 on a buffer with no rows and at least two columns: a panic in a debug build, and in a release build a wrapped row on which no cell lies. The model's up-right traversal of a buffer with no rows is empty (BufferIteration.UpRightPositions), as the release build's is.
- PolyLines.Shifted: requires that the dragged edge exists, because the source indexes the anchors without a check.

=== FILE: analyzers.dfy ===
/** The analyzers end to end: the segment getters feed the wire builders and
    the rectangle detectors.

      - the four-direction analyzer: all four directions, merged by kind,
        sorted by identifier;
      - the editor's and the backend's analyzers: rows and columns, merged
        by axis, assembled into wires; the editor's also finds rectangles
        with the fully checked detector;
      - the corner analyzer and the oldest one: rows and columns read by
        the three-state scanner, rectangles with the edge-checking and the
        opposite-corner-only detector. */
module Analyzers {
  import opened Tc
  import opened Wrappers
  import opened TextBuffers
  import opened Segments
  import opened Glyphs
  import opened Finders
  import opened Rectangles
  import opened Wires
  import opened Sorting
  import Merge
  import Rect
  import Scanner
  import CornerScanner

  // ---- Wires.

  /** Everything the four-direction analyzer scans, in the order it
      concatenates the directions. */
  function AllScans(tb: Buffer): seq<LineSegment> {
    LineSegments(FourWay, tb, Horizontal) + LineSegments(FourWay, tb, Vertical)
    + LineSegments(FourWay, tb, UpRight) + LineSegments(FourWay, tb, DownRight)
  }

  /** Every scanned segment is drawn in its direction with that
      direction's classifier. */
  lemma AllScansDrawn(tb: Buffer)
    ensures forall s :: s in AllScans(tb) ==> exists axis :: Drawn(tb, ClassifierFor(axis), axis, s)
  {
    forall s | s in AllScans(tb) ensures exists axis :: Drawn(tb, ClassifierFor(axis), axis, s) {
      if s in LineSegments(FourWay, tb, Horizontal) {
        assert Drawn(tb, ClassifierFor(Horizontal), Horizontal, s);
      } else if s in LineSegments(FourWay, tb, Vertical) {
        assert Drawn(tb, ClassifierFor(Vertical), Vertical, s);
      } else if s in LineSegments(FourWay, tb, UpRight) {
        assert Drawn(tb, ClassifierFor(UpRight), UpRight, s);
      } else {
        assert s in LineSegments(FourWay, tb, DownRight);
        assert Drawn(tb, ClassifierFor(DownRight), DownRight, s);
      }
    }
  }

  /** The four-direction analyzer's wires: every scanned segment lies within
      one of them, each of them is a line of a kind some scanned segment
      has, and there are none exactly when nothing is scanned. */
  function FourWayAnalyzerWires(tb: Buffer): (r: seq<LineSegment>)
    ensures SortedBy(r, Id)
    ensures forall s :: s in AllScans(tb) ==> exists m :: m in r && Within(s, m)
    ensures forall m :: m in r ==> exists s :: s in AllScans(tb) && KindOf(s) == KindOf(m)
    ensures |r| == 0 <==> |AllScans(tb)| == 0
  {
    FourWayWires(LineSegments(FourWay, tb, Horizontal), LineSegments(FourWay, tb, Vertical),
                 LineSegments(FourWay, tb, UpRight), LineSegments(FourWay, tb, DownRight))
  }

  /** Segments the editor's or the backend's analyzer reads in rows and
      columns. */
  function Scanned(an: Analyzer, tb: Buffer): seq<LineSegment>
    requires an != FourWay
  {
    LineSegments(an, tb, Horizontal) + LineSegments(an, tb, Vertical)
  }

  /** The editor's and the backend's wires: every segment drawn in a row or
      a column lies within a line placed in some wire, every raw segment
      placed in a wire is drawn on the grid, and there are no wires exactly
      when nothing is drawn. */
  method ScannedWires(an: Analyzer, tb: Buffer) returns (wires: seq<Wire>)
    requires an != FourWay
    ensures forall w :: w in wires ==> |w.segments| > 0 && SortedBy(w.segments, Id)
    ensures DistinctWires(wires)
    ensures forall s :: s in Scanned(an, tb) ==> exists m :: Placed(m, wires) && Within(s, m)
    ensures forall s :: Placed(s, wires) && s in Scanned(an, tb) ==>
      Drawn(tb, Classifier(an, Horizontal), Horizontal, s) || Drawn(tb, Classifier(an, Vertical), Vertical, s)
    ensures forall s :: Placed(s, wires) ==> s in Scanned(an, tb) || s in Merge.MergeColinear(Merge.ByAxis, Scanned(an, tb))
    ensures |wires| == 0 <==> |Scanned(an, tb)| == 0
  {
    var h, v := LineSegments(an, tb, Horizontal), LineSegments(an, tb, Vertical);
    wires := GetWires(h, v);
    Merge.MergeColinearFacts(Merge.ByAxis, h + v);
    CoveredByPlaced(h + v, Merge.MergeColinear(Merge.ByAxis, h + v), wires);
  }

  /** Segments covered by merged lines that are all placed lie within
      placed lines. */
  lemma CoveredByPlaced(raw: seq<LineSegment>, merged: seq<LineSegment>, wires: seq<Wire>)
    requires forall k :: 0 <= k < |raw| ==> Merge.Covered(raw[k], merged)
    requires forall m :: m in merged ==> Placed(m, wires)
    ensures forall s :: s in raw ==> exists m :: Placed(m, wires) && Within(s, m)
  {
    forall s | s in raw
      ensures exists m :: Placed(m, wires) && Within(s, m)
    {
      var k :| 0 <= k < |raw| && raw[k] == s;
      var j :| 0 <= j < |merged| && Within(s, merged[j]);
      assert Placed(merged[j], wires);
    }
  }

  // ---- Rectangles.

  /** All four sides of `r` are drawn on the grid. */
  ghost predicate SidesDrawn(tb: Buffer, classify: char -> Option<Class>, r: Rect.Rectangle) {
    Drawn(tb, classify, Horizontal, TopSide(r)) && Drawn(tb, classify, Horizontal, BottomSide(r))
    && Drawn(tb, classify, Vertical, LeftSide(r)) && Drawn(tb, classify, Vertical, RightSide(r))
  }

  /** A horizontal and a vertical side of `r` are drawn on the grid. */
  ghost predicate TwoSidesDrawn(tb: Buffer, classify: char -> Option<Class>, r: Rect.Rectangle) {
    (Drawn(tb, classify, Horizontal, TopSide(r)) || Drawn(tb, classify, Horizontal, BottomSide(r)))
    && (Drawn(tb, classify, Vertical, LeftSide(r)) || Drawn(tb, classify, Vertical, RightSide(r)))
  }

  /** The scans report segments from their top or left end. */
  predicate Forward(s: LineSegment) {
    s.start.x + s.start.y < s.end.x + s.end.y
  }

  /** A segment and a rectangle side with the same ends, both running
      forward, are the same. */
  lemma SameForward(s: LineSegment, t: LineSegment)
    requires SameEnds(s, t) && Forward(s) && t.start.x + t.start.y <= t.end.x + t.end.y
    ensures s == t
  {
    assert s.start in {t.start, t.end};
  }

  lemma DrawnForward(tb: Buffer, classify: char -> Option<Class>, axis: Axis, s: LineSegment)
    requires axis == Horizontal || axis == Vertical
    requires Drawn(tb, classify, axis, s)
    ensures Forward(s)
    ensures axis == Horizontal ==> s.start.y == s.end.y
    ensures axis == Vertical ==> s.start.x == s.end.x
  {
  }

  /** Scanned rows and columns are horizontal and vertical. */
  lemma Aligned(tb: Buffer, classify: char -> Option<Class>, h: seq<LineSegment>, v: seq<LineSegment>)
    requires forall s :: s in h ==> Drawn(tb, classify, Horizontal, s)
    requires forall s :: s in v ==> Drawn(tb, classify, Vertical, s)
    ensures AllHoriz(h) && AllVert(v)
  {
    forall s | s in h ensures s.start.y == s.end.y { DrawnForward(tb, classify, Horizontal, s); }
    forall s | s in v ensures s.start.x == s.end.x { DrawnForward(tb, classify, Vertical, s); }
  }

  /** A side among drawn segments is itself drawn. */
  lemma SideDrawn(tb: Buffer, classify: char -> Option<Class>, axis: Axis, segs: seq<LineSegment>, side: LineSegment, minLen: nat)
    requires axis == Horizontal || axis == Vertical
    requires forall s :: s in segs ==> Drawn(tb, classify, axis, s) && Len(s) >= minLen
    requires SideIn(segs, side) && side.start.x + side.start.y <= side.end.x + side.end.y
    ensures Drawn(tb, classify, axis, side) && Len(side) >= minLen
  {
    var s :| s in segs && SameEnds(s, side);
    DrawnForward(tb, classify, axis, s);
    SameForward(s, side);
  }

  /** A rectangle whose four sides are among drawn segments of length at
      least `minLen` has its sides drawn and spans at least `minLen` cells
      past its first row and column. */
  lemma AllSidesDrawn(tb: Buffer, classify: char -> Option<Class>, h: seq<LineSegment>, v: seq<LineSegment>,
                      r: Rect.Rectangle, minLen: nat)
    requires forall s :: s in h ==> Drawn(tb, classify, Horizontal, s) && Len(s) >= minLen
    requires forall s :: s in v ==> Drawn(tb, classify, Vertical, s) && Len(s) >= minLen
    requires AllSidesIn(h, v, r)
    ensures SidesDrawn(tb, classify, r)
    ensures Rect.MaxX(r) >= Rect.MinX(r) + minLen && Rect.MaxY(r) >= Rect.MinY(r) + minLen
  {
    SideDrawn(tb, classify, Horizontal, h, TopSide(r), minLen);
    SideDrawn(tb, classify, Horizontal, h, BottomSide(r), minLen);
    SideDrawn(tb, classify, Vertical, v, LeftSide(r), minLen);
    SideDrawn(tb, classify, Vertical, v, RightSide(r), minLen);
  }

  /** The editor's rectangles: all four sides drawn with at least one edge
      character between the corners, `+` on every corner, the eight cells
      one step out from each corner along its two sides empty, and never on
      the top row or the leftmost column. */
  function EditorRectangles(tb: Buffer, pick: (TextCoordinate, set<LineSegment>) -> LineSegment): (rs: set<Rect.Rectangle>)
    requires Picks(pick)
    ensures forall r :: r in rs ==> Rect.IsNormal(r) && SidesDrawn(tb, ClassifyEditor, r)
    ensures forall r :: r in rs ==> Rect.MaxX(r) >= Rect.MinX(r) + 2 && Rect.MaxY(r) >= Rect.MinY(r) + 2
    ensures forall r :: r in rs ==> PlusCorners(tb, r) && SurroundingsEmpty(tb, r)
    ensures forall r :: r in rs ==> Rect.MinX(r) >= 1 && Rect.MinY(r) >= 1
  {
    var h, v := LineSegments(Editor, tb, Horizontal), LineSegments(Editor, tb, Vertical);
    Aligned(tb, ClassifyEditor, h, v);
    EditorDetected(tb, h, v, pick);
    Detect(Checked, tb, h, v, pick)
  }

  lemma EditorDetected(tb: Buffer, h: seq<LineSegment>, v: seq<LineSegment>,
                       pick: (TextCoordinate, set<LineSegment>) -> LineSegment)
    requires h == LineSegments(Editor, tb, Horizontal) && v == LineSegments(Editor, tb, Vertical)
    requires AllHoriz(h) && AllVert(v) && Picks(pick)
    ensures forall r :: r in Detect(Checked, tb, h, v, pick) ==> Rect.IsNormal(r) && SidesDrawn(tb, ClassifyEditor, r)
    ensures forall r :: r in Detect(Checked, tb, h, v, pick) ==> Rect.MaxX(r) >= Rect.MinX(r) + 2 && Rect.MaxY(r) >= Rect.MinY(r) + 2
    ensures forall r :: r in Detect(Checked, tb, h, v, pick) ==> PlusCorners(tb, r) && SurroundingsEmpty(tb, r)
    ensures forall r :: r in Detect(Checked, tb, h, v, pick) ==> Rect.MinX(r) >= 1 && Rect.MinY(r) >= 1
  {
    forall r | r in Detect(Checked, tb, h, v, pick)
      ensures Rect.IsNormal(r) && SidesDrawn(tb, ClassifyEditor, r)
      ensures Rect.MaxX(r) >= Rect.MinX(r) + 2 && Rect.MaxY(r) >= Rect.MinY(r) + 2
      ensures PlusCorners(tb, r) && SurroundingsEmpty(tb, r) && Rect.MinX(r) >= 1 && Rect.MinY(r) >= 1
    {
      DetectSound(Checked, tb, h, v, pick, r);
      AllSidesDrawn(tb, ClassifyEditor, h, v, r, 2);
    }
  }

  /** The first corner analyzer's rectangles: all four sides drawn from `+`
      corners with `-` and `|` edges. */
  function CornerRectangles(tb: Buffer, pick: (TextCoordinate, set<LineSegment>) -> LineSegment): (rs: set<Rect.Rectangle>)
    requires Picks(pick)
    ensures forall r :: r in rs ==> Rect.IsNormal(r) && SidesDrawn(tb, ClassifyCorners, r)
    ensures forall r :: r in rs ==> Rect.MaxX(r) > Rect.MinX(r) && Rect.MaxY(r) > Rect.MinY(r)
  {
    var h, v := CornerSegments(tb, CornerScanner.Rows), CornerSegments(tb, CornerScanner.Columns);
    Aligned(tb, ClassifyCorners, h, v);
    var rs := Detect(EdgesOnly, tb, h, v, pick);
    assert forall r :: r in rs ==> (Rect.IsNormal(r) && SidesDrawn(tb, ClassifyCorners, r)
      && Rect.MaxX(r) > Rect.MinX(r) && Rect.MaxY(r) > Rect.MinY(r)) by {
      forall r | r in rs
        ensures Rect.IsNormal(r) && SidesDrawn(tb, ClassifyCorners, r)
        ensures Rect.MaxX(r) > Rect.MinX(r) && Rect.MaxY(r) > Rect.MinY(r)
      {
        DetectSound(EdgesOnly, tb, h, v, pick, r);
        AllSidesDrawn(tb, ClassifyCorners, h, v, r, 1);
      }
    }
    rs
  }

  /** The oldest analyzer's rectangles: only a horizontal and a vertical
      side are known to be drawn, and the corner opposite the one where
      they meet ends some scanned line. */
  function OldestRectangles(tb: Buffer, pick: (TextCoordinate, set<LineSegment>) -> LineSegment): (rs: set<Rect.Rectangle>)
    requires Picks(pick)
    ensures forall r :: r in rs ==> Rect.IsNormal(r) && TwoSidesDrawn(tb, ClassifyCorners, r)
    ensures forall r :: r in rs ==>
      OppositeEnded(CornerSegments(tb, CornerScanner.Rows), CornerSegments(tb, CornerScanner.Columns), r)
  {
    var h, v := CornerSegments(tb, CornerScanner.Rows), CornerSegments(tb, CornerScanner.Columns);
    Aligned(tb, ClassifyCorners, h, v);
    var rs := Detect(OppositeOnly, tb, h, v, pick);
    assert forall r :: r in rs ==> Rect.IsNormal(r) && TwoSidesDrawn(tb, ClassifyCorners, r) && OppositeEnded(h, v, r) by {
      forall r | r in rs ensures Rect.IsNormal(r) && TwoSidesDrawn(tb, ClassifyCorners, r) && OppositeEnded(h, v, r) {
        DetectSound(OppositeOnly, tb, h, v, pick, r);
        TwoDrawn(tb, h, v, r);
      }
    }
    rs
  }

  lemma TwoDrawn(tb: Buffer, h: seq<LineSegment>, v: seq<LineSegment>, r: Rect.Rectangle)
    requires forall s :: s in h ==> Drawn(tb, ClassifyCorners, Horizontal, s)
    requires forall s :: s in v ==> Drawn(tb, ClassifyCorners, Vertical, s)
    requires TwoSidesIn(h, v, r)
    ensures TwoSidesDrawn(tb, ClassifyCorners, r)
  {
    if SideIn(h, TopSide(r)) {
      SideDrawn(tb, ClassifyCorners, Horizontal, h, TopSide(r), 0);
    } else {
      SideDrawn(tb, ClassifyCorners, Horizontal, h, BottomSide(r), 0);
    }
    if SideIn(v, LeftSide(r)) {
      SideDrawn(tb, ClassifyCorners, Vertical, v, LeftSide(r), 0);
    } else {
      SideDrawn(tb, ClassifyCorners, Vertical, v, RightSide(r), 0);
    }
  }
}

=== FILE: cornerscan.dfy ===
/** The three-state segment scanner of the oldest analyzers, which only know
    `+` corners and `-`/`|` edges.  After a run closes on a corner it waits
    one more item (`BlankCheck`) and drops the run when that item touches
    it; a corner that does not follow on from a run being tracked is
    dropped too. */
module CornerScanner {
  import opened Tc
  import opened Wrappers
  import opened Segments
  import opened Glyphs
  import Scanner

  /** Rows (row-major traversal, `-` edges) or columns (column-major
      traversal, `|` edges). */
  datatype Direction = Rows | Columns

  function AxisOf(d: Direction): Axis {
    match d case Rows => Horizontal case Columns => Vertical
  }

  datatype State = Blank | Tracking(track: LineSegment) | BlankCheck(track: LineSegment)

  /** One item of the row scan. */
  function StepRows(st: State, it: Scanner.Item): (State, Option<LineSegment>) {
    var pos := it.pos;
    match st
    case Blank =>
      if it.kind == Term then (Tracking(LineSegment(pos, pos)), None) else (Blank, None)
    case Tracking(t) =>
      if t.start.y == pos.y && t.end.x + 1 == pos.x && it.kind == Edge(Horizontal) then
        (Tracking(LineSegment(t.start, pos)), None)
      else if t.start.y == pos.y && t.end.x + 1 == pos.x && it.kind == Term then
        (BlankCheck(LineSegment(t.start, pos)), None)
      else (Blank, None)
    case BlankCheck(t) =>
      if t.end.y != pos.y || t.end.x + 1 != pos.x then
        (if it.kind == Term then Tracking(LineSegment(pos, pos)) else Blank, Some(t))
      else (Blank, None)
  }

  /** One item of the column scan. */
  function StepColumns(st: State, it: Scanner.Item): (State, Option<LineSegment>) {
    var pos := it.pos;
    match st
    case Blank =>
      if it.kind == Term then (Tracking(LineSegment(pos, pos)), None) else (Blank, None)
    case Tracking(t) =>
      if t.start.x == pos.x && t.end.y + 1 == pos.y && it.kind == Edge(Vertical) then
        (Tracking(LineSegment(t.start, pos)), None)
      else if t.start.x == pos.x && t.end.y + 1 == pos.y && it.kind == Term then
        (BlankCheck(LineSegment(t.start, pos)), None)
      else (Blank, None)
    case BlankCheck(t) =>
      if t.end.x != pos.x || t.end.y + 1 != pos.y then
        (if it.kind == Term then Tracking(LineSegment(pos, pos)) else Blank, Some(t))
      else (Blank, None)
  }

  function Step(d: Direction, st: State, it: Scanner.Item): (State, Option<LineSegment>) {
    match d case Rows => StepRows(st, it) case Columns => StepColumns(st, it)
  }

  /** The scanner fed `items` from the blank state: final state and the
      segments pushed, in order. */
  function Run(d: Direction, items: seq<Scanner.Item>): (State, seq<LineSegment>) {
    if |items| == 0 then (Blank, [])
    else
      var (st, out) := Run(d, items[..|items| - 1]);
      var (st', e) := Step(d, st, items[|items| - 1]);
      (st', out + Scanner.OptionToSeq(e))
  }

  /** The segment finder: the scan over the items and the sentinel; there
      is no length filter. */
  function Found(d: Direction, items: seq<Scanner.Item>): seq<LineSegment> {
    Run(d, items + [Scanner.EndOfInput]).1
  }

  lemma RunSnoc(d: Direction, items: seq<Scanner.Item>, it: Scanner.Item)
    ensures Run(d, items + [it]).0 == Step(d, Run(d, items).0, it).0
    ensures Run(d, items + [it]).1 == Run(d, items).1 + Scanner.OptionToSeq(Step(d, Run(d, items).0, it).1)
  {
    assert (items + [it])[..|items|] == items;
  }

  // ---- What the scanner reports.

  /** A run closed by the corner at `k` whose following item does not touch
      that corner. */
  predicate Reported(d: Direction, items: seq<Scanner.Item>, i: nat, k: nat) {
    Scanner.Closes(AxisOf(d), items, i, k) && k + 1 < |items|
    && !Scanner.ValidNext(AxisOf(d), items[k].pos, items[k + 1].pos)
  }

  /** A run lies along its line: same row for rows, same column for
      columns. */
  predicate Aligned(d: Direction, t: LineSegment) {
    match d case Rows => t.start.y == t.end.y case Columns => t.start.x == t.end.x
  }

  /** The run being tracked started at the corner `i` and reaches the last
      item. */
  ghost predicate TrackedFrom(d: Direction, items: seq<Scanner.Item>, i: nat, t: LineSegment) {
    Scanner.Open(AxisOf(d), items, i, |items|) && t == LineSegment(items[i].pos, items[|items| - 1].pos)
  }

  /** The run waiting for its check started at the corner `i` and was closed
      by the last item. */
  ghost predicate CheckedFrom(d: Direction, items: seq<Scanner.Item>, i: nat, t: LineSegment) {
    |items| > 0 && Scanner.Closes(AxisOf(d), items, i, |items| - 1) && t == Scanner.Closed(items, i, |items| - 1)
  }

  ghost predicate ReportedAs(d: Direction, items: seq<Scanner.Item>, i: nat, k: nat, s: LineSegment) {
    Reported(d, items, i, k) && s == Scanner.Closed(items, i, k)
  }

  /** The scanner's state in terms of the items read so far. */
  ghost predicate StateExplained(d: Direction, items: seq<Scanner.Item>, st: State) {
    match st
    case Blank => true
    case Tracking(t) => Aligned(d, t) && exists i: nat :: TrackedFrom(d, items, i, t)
    case BlankCheck(t) => exists i: nat :: CheckedFrom(d, items, i, t)
  }

  lemma ReportedPrefix(d: Direction, items: seq<Scanner.Item>, i: nat, k: nat, s: LineSegment)
    requires |items| > 0 && ReportedAs(d, items[..|items| - 1], i, k, s)
    ensures ReportedAs(d, items, i, k, s)
  {
    Scanner.ClosesPrefix(AxisOf(d), items, i, k);
  }

  /** One step keeps the state explained, and a segment it pushes is a
      reported run. */
  lemma StepExplained(d: Direction, items: seq<Scanner.Item>, st: State)
    requires |items| > 0 && StateExplained(d, items[..|items| - 1], st)
    ensures StateExplained(d, items, Step(d, st, items[|items| - 1]).0)
    ensures forall s :: Step(d, st, items[|items| - 1]).1 == Some(s) ==>
      exists i: nat, k: nat :: ReportedAs(d, items, i, k, s)
  {
    var n := |items|;
    var p := items[..n - 1];
    var it := items[n - 1];
    var a := AxisOf(d);
    var (st', e) := Step(d, st, it);
    if it.kind == Term {
      assert Scanner.Open(a, items, n - 1, n);
      assert TrackedFrom(d, items, n - 1, LineSegment(it.pos, it.pos));
    }
    match st
    case Blank =>
    case Tracking(t) =>
      var i: nat :| TrackedFrom(d, p, i, t);
      Scanner.OpenPrefix(a, items, i, n - 1);
      if st'.Tracking? && it.kind != Term {
        Scanner.OpenStep(a, items, i);
        assert TrackedFrom(d, items, i, st'.track);
      } else if st'.BlankCheck? {
        assert CheckedFrom(d, items, i, st'.track);
      }
    case BlankCheck(t) =>
      var i: nat :| CheckedFrom(d, p, i, t);
      if e.Some? {
        Scanner.ClosesPrefix(a, items, i, n - 2);
        assert ReportedAs(d, items, i, n - 2, t);
      }
  }

  /** Soundness: the state is explained by the items read, and every
      pushed segment is a run closed by a corner whose following item does
      not touch it. */
  lemma {:induction false} RunExplained(d: Direction, items: seq<Scanner.Item>)
    ensures StateExplained(d, items, Run(d, items).0)
    ensures forall s :: s in Run(d, items).1 ==> exists i: nat, k: nat :: ReportedAs(d, items, i, k, s)
  {
    if |items| > 0 {
      var n := |items|;
      var p := items[..n - 1];
      RunExplained(d, p);
      var (st, out) := Run(d, p);
      StepExplained(d, items, st);
      forall s | s in out
        ensures exists i: nat, k: nat :: ReportedAs(d, items, i, k, s)
      {
        var i: nat, k: nat :| ReportedAs(d, p, i, k, s);
        ReportedPrefix(d, items, i, k, s);
      }
    }
  }

  /** Every segment of the three-state scanner is found by the two-state
      scanner over the same items: it only drops runs, never invents one. */
  lemma ReportsAreRuns(d: Direction, items: seq<Scanner.Item>)
    ensures forall s :: s in Found(d, items) ==> s in Scanner.Finder(AxisOf(d), items, 1)
    ensures forall s :: s in Found(d, items) ==>
      exists i: nat, k: nat :: Scanner.Closes(AxisOf(d), items, i, k) && s == Scanner.Closed(items, i, k)
  {
    var all := items + [Scanner.EndOfInput];
    RunExplained(d, all);
    Scanner.FinderSpec(AxisOf(d), items, 1);
    forall s | s in Found(d, items)
      ensures s in Scanner.Finder(AxisOf(d), items, 1)
      ensures exists i: nat, k: nat :: Scanner.Closes(AxisOf(d), items, i, k) && s == Scanner.Closed(items, i, k)
    {
      var i: nat, k: nat :| ReportedAs(d, all, i, k, s);
      Scanner.WithSentinel(AxisOf(d), items, i, k);
      Scanner.ClosedShape(AxisOf(d), items, i, k);
      assert Scanner.Closed(all, i, k) == Scanner.Closed(items, i, k);
    }
  }

  /** The sentinel ends every scan in the blank state, and pushes a run
      waiting for its blank check exactly when the run does not end right
      before the sentinel's position. */
  lemma SentinelFlushes(d: Direction, t: LineSegment)
    ensures Step(d, BlankCheck(t), Scanner.EndOfInput).0 == Blank
    ensures Step(d, BlankCheck(t), Scanner.EndOfInput).1 == Some(t)
      <==> !Scanner.ValidNext(AxisOf(d), t.end, Scanner.EndOfInput.pos)
    ensures Scanner.ValidNext(AxisOf(d), t.end, Scanner.EndOfInput.pos)
      ==> Step(d, BlankCheck(t), Scanner.EndOfInput).1 == None
  {
  }

  // ---- Completeness: what the scanner does report.

  /** The segments pushed while reading a prefix are the first ones pushed
      while reading the whole. */
  lemma {:induction false} RunExtends(d: Direction, items: seq<Scanner.Item>, n: nat)
    requires n <= |items|
    ensures Run(d, items[..n]).1 <= Run(d, items).1
    decreases |items| - n
  {
    if n < |items| {
      var p := items[..|items| - 1];
      assert p[..n] == items[..n];
      RunExtends(d, p, n);
      var a, b := Run(d, items[..n]).1, Run(d, p).1;
      assert Run(d, items).1 == b + Scanner.OptionToSeq(Step(d, Run(d, p).0, items[|items| - 1]).1);
      assert a <= b;
      assert forall m :: 0 <= m < |a| ==> a[m] == Run(d, items).1[m];
    } else {
      assert items[..n] == items;
    }
  }

  /** A run tracked from the corner at `i` keeps being tracked while its
      edges follow on, and stays on its row or column. */
  lemma {:induction false} TrackedRun(d: Direction, items: seq<Scanner.Item>, i: nat, j: nat)
    requires Scanner.Open(AxisOf(d), items, i, j)
    requires Run(d, items[..i + 1]).0 == Tracking(LineSegment(items[i].pos, items[i].pos))
    ensures Run(d, items[..j]).0 == Tracking(LineSegment(items[i].pos, items[j - 1].pos))
    ensures Aligned(d, LineSegment(items[i].pos, items[j - 1].pos))
    decreases j
  {
    if j > i + 1 {
      assert Scanner.Open(AxisOf(d), items, i, j - 1);
      TrackedRun(d, items, i, j - 1);
      assert Scanner.ValidNext(AxisOf(d), items[j - 2].pos, items[j - 1].pos);
      TrackStep(d, items[..j - 1], items[j - 1], LineSegment(items[i].pos, items[j - 2].pos));
      assert items[..j - 1] + [items[j - 1]] == items[..j];
    }
  }

  /** A tracked run takes in an edge of its axis that follows on. */
  lemma TrackStep(d: Direction, p: seq<Scanner.Item>, it: Scanner.Item, t: LineSegment)
    requires Run(d, p).0 == Tracking(t) && Aligned(d, t)
    requires Scanner.ValidNext(AxisOf(d), t.end, it.pos) && it.kind == Edge(AxisOf(d))
    ensures Run(d, p + [it]).0 == Tracking(LineSegment(t.start, it.pos))
    ensures Aligned(d, LineSegment(t.start, it.pos))
  {
    RunSnoc(d, p, it);
  }

  /** A tracked run closed by the corner at `k` waits for its check. */
  lemma ClosedWaits(d: Direction, items: seq<Scanner.Item>, i: nat, k: nat)
    requires Scanner.Closes(AxisOf(d), items, i, k)
    requires Run(d, items[..i + 1]).0 == Tracking(LineSegment(items[i].pos, items[i].pos))
    ensures Run(d, items[..k + 1]).0 == BlankCheck(Scanner.Closed(items, i, k))
  {
    TrackedRun(d, items, i, k);
    RunSnoc(d, items[..k], items[k]);
    assert items[..k] + [items[k]] == items[..k + 1];
  }

  /** A run waiting for its check is pushed by an item that does not touch
      its end. */
  lemma CheckPushes(d: Direction, items: seq<Scanner.Item>, k: nat, t: LineSegment)
    requires k + 1 < |items| && Run(d, items[..k + 1]).0 == BlankCheck(t) && t.end == items[k].pos
    requires !Scanner.ValidNext(AxisOf(d), items[k].pos, items[k + 1].pos)
    ensures t in Run(d, items[..k + 2]).1
  {
    RunSnoc(d, items[..k + 1], items[k + 1]);
    assert items[..k + 1] + [items[k + 1]] == items[..k + 2];
  }

  /** Completeness: a run tracked from its first corner, closed by the
      corner at `k` and not touched by the item after it, is pushed. */
  lemma RunComplete(d: Direction, items: seq<Scanner.Item>, i: nat, k: nat)
    requires Reported(d, items, i, k)
    requires Run(d, items[..i + 1]).0 == Tracking(LineSegment(items[i].pos, items[i].pos))
    ensures Scanner.Closed(items, i, k) in Run(d, items).1
  {
    ClosedWaits(d, items, i, k);
    CheckPushes(d, items, k, Scanner.Closed(items, i, k));
    PushedStays(d, items, k + 2, Scanner.Closed(items, i, k));
  }

  /** A segment pushed while reading a prefix is in the final output. */
  lemma PushedStays(d: Direction, items: seq<Scanner.Item>, n: nat, t: LineSegment)
    requires n <= |items| && t in Run(d, items[..n]).1
    ensures t in Run(d, items).1
  {
    RunExtends(d, items, n);
    var out, all := Run(d, items[..n]).1, Run(d, items).1;
    var m :| 0 <= m < |out| && out[m] == t;
    assert all[m] == t;
  }

  /** The finder's completeness: such a run is found, the sentinel standing
      for the item after the last one. */
  lemma FoundComplete(d: Direction, items: seq<Scanner.Item>, i: nat, k: nat)
    requires Scanner.Closes(AxisOf(d), items, i, k)
    requires !Scanner.ValidNext(AxisOf(d), items[k].pos, (items + [Scanner.EndOfInput])[k + 1].pos)
    requires Run(d, items[..i + 1]).0 == Tracking(LineSegment(items[i].pos, items[i].pos))
    ensures Scanner.Closed(items, i, k) in Found(d, items)
  {
    var all := items + [Scanner.EndOfInput];
    Scanner.WithSentinel(AxisOf(d), items, i, k);
    assert all[..i + 1] == items[..i + 1];
    RunComplete(d, all, i, k);
  }

  // ---- Columns are rows of the transposed grid.

  function Flip(c: TextCoordinate): TextCoordinate { TextCoordinate(c.y, c.x) }

  function FlipClass(k: Class): Class {
    match k
    case Edge(Horizontal) => Edge(Vertical)
    case Edge(Vertical) => Edge(Horizontal)
    case _ => k
  }

  function FlipItem(it: Scanner.Item): Scanner.Item { Scanner.Item(Flip(it.pos), FlipClass(it.kind)) }

  function FlipSegment(s: LineSegment): LineSegment { LineSegment(Flip(s.start), Flip(s.end)) }

  function FlipState(st: State): State {
    match st
    case Blank => Blank
    case Tracking(t) => Tracking(FlipSegment(t))
    case BlankCheck(t) => BlankCheck(FlipSegment(t))
  }

  function FlipItems(items: seq<Scanner.Item>): (r: seq<Scanner.Item>)
    ensures |r| == |items|
    ensures forall m :: 0 <= m < |items| ==> r[m] == FlipItem(items[m])
  {
    seq(|items|, m requires 0 <= m < |items| => FlipItem(items[m]))
  }

  function FlipSegments(segs: seq<LineSegment>): (r: seq<LineSegment>)
    ensures |r| == |segs|
    ensures forall m :: 0 <= m < |segs| ==> r[m] == FlipSegment(segs[m])
  {
    seq(|segs|, m requires 0 <= m < |segs| => FlipSegment(segs[m]))
  }

  lemma StepFlip(st: State, it: Scanner.Item)
    ensures StepColumns(st, it).0 == FlipState(StepRows(FlipState(st), FlipItem(it)).0)
    ensures StepColumns(st, it).1 == match StepRows(FlipState(st), FlipItem(it)).1
                                     case None => None case Some(t) => Some(FlipSegment(t))
  {
  }

  /** The column scan is the row scan of the transposed items, transposed
      back. */
  lemma {:induction false} ColumnsAreFlippedRows(items: seq<Scanner.Item>)
    ensures Run(Columns, items).0 == FlipState(Run(Rows, FlipItems(items)).0)
    ensures Run(Columns, items).1 == FlipSegments(Run(Rows, FlipItems(items)).1)
  {
    if |items| > 0 {
      var n := |items|;
      var p := items[..n - 1];
      ColumnsAreFlippedRows(p);
      assert FlipItems(items)[..n - 1] == FlipItems(p);
      var (st, out) := Run(Rows, FlipItems(p));
      StepFlip(FlipState(st), items[n - 1]);
      assert FlipState(FlipState(st)) == st;
      var e := StepRows(st, FlipItem(items[n - 1])).1;
      var o := Scanner.OptionToSeq(e);
      assert FlipSegments(out + o) == FlipSegments(out) + FlipSegments(o);
    }
  }

  // ---- Where the three-state scanner and the two-state one differ.

  /** `+-++` in a row: the third corner closes a run, but the fourth touches
      it, so nothing is pushed; the two-state scanner finds two runs. */
  lemma TouchingCornerDropsRun()
    ensures var items := [Scanner.Item(TextCoordinate(0, 0), Term), Scanner.Item(TextCoordinate(1, 0), Edge(Horizontal)),
                          Scanner.Item(TextCoordinate(2, 0), Term), Scanner.Item(TextCoordinate(3, 0), Term)];
      Found(Rows, items) == [] && |Scanner.Finder(Horizontal, items, 1)| == 2
  {
    var c0, e1 := Scanner.Item(TextCoordinate(0, 0), Term), Scanner.Item(TextCoordinate(1, 0), Edge(Horizontal));
    var c2, c3 := Scanner.Item(TextCoordinate(2, 0), Term), Scanner.Item(TextCoordinate(3, 0), Term);
    RunSnoc(Rows, [], c0);
    assert [] + [c0] == [c0];
    RunSnoc(Rows, [c0], e1);
    assert [c0] + [e1] == [c0, e1];
    RunSnoc(Rows, [c0, e1], c2);
    assert [c0, e1] + [c2] == [c0, e1, c2];
    RunSnoc(Rows, [c0, e1, c2], c3);
    assert [c0, e1, c2] + [c3] == [c0, e1, c2, c3];
    RunSnoc(Rows, [c0, e1, c2, c3], Scanner.EndOfInput);
    var items := [c0, e1, c2, c3];
    var all := items + [Scanner.EndOfInput];
    Scanner.RunSnoc(Horizontal, [], c0);
    Scanner.RunSnoc(Horizontal, [c0], e1);
    Scanner.RunSnoc(Horizontal, [c0, e1], c2);
    Scanner.RunSnoc(Horizontal, [c0, e1, c2], c3);
    Scanner.RunSnoc(Horizontal, items, Scanner.EndOfInput);
    Scanner.LengthOneFilterIsRedundant(Horizontal, items);
    var first := LineSegment(c0.pos, c2.pos);
    var none: seq<LineSegment> := [];
    assert none + [first] == [first];
    assert Scanner.Run(Horizontal, all).1 == [first, LineSegment(c2.pos, c3.pos)];
  }

  /** `+ +-+` in a row: the second corner does not follow on from the first,
      and instead of starting a run of its own it is dropped; the two-state
      scanner restarts from it and finds the run. */
  lemma DetachedCornerIsDropped()
    ensures var items := [Scanner.Item(TextCoordinate(0, 0), Term), Scanner.Item(TextCoordinate(2, 0), Term),
                          Scanner.Item(TextCoordinate(3, 0), Edge(Horizontal)), Scanner.Item(TextCoordinate(4, 0), Term)];
      Found(Rows, items) == []
      && Scanner.Finder(Horizontal, items, 1) == [LineSegment(TextCoordinate(2, 0), TextCoordinate(4, 0))]
  {
    DetachedCornerFound();
    DetachedCornerRestarted();
  }

  // The row `+ +-+`, classified.
  const DetachedItems: seq<Scanner.Item> :=
    [Scanner.Item(TextCoordinate(0, 0), Term), Scanner.Item(TextCoordinate(2, 0), Term),
     Scanner.Item(TextCoordinate(3, 0), Edge(Horizontal)), Scanner.Item(TextCoordinate(4, 0), Term)]

  /** The corner scanner reports nothing on that row. */
  lemma DetachedCornerFound()
    ensures Found(Rows, DetachedItems) == []
  {
    var c0, c2 := Scanner.Item(TextCoordinate(0, 0), Term), Scanner.Item(TextCoordinate(2, 0), Term);
    var e3, c4 := Scanner.Item(TextCoordinate(3, 0), Edge(Horizontal)), Scanner.Item(TextCoordinate(4, 0), Term);
    RunSnoc(Rows, [], c0);
    assert [] + [c0] == [c0];
    RunSnoc(Rows, [c0], c2);
    assert [c0] + [c2] == [c0, c2];
    RunSnoc(Rows, [c0, c2], e3);
    assert [c0, c2] + [e3] == [c0, c2, e3];
    RunSnoc(Rows, [c0, c2, e3], c4);
    assert [c0, c2, e3] + [c4] == [c0, c2, e3, c4];
    RunSnoc(Rows, [c0, c2, e3, c4], Scanner.EndOfInput);
  }

  /** The two-state scanner reports the run from the second corner. */
  lemma DetachedCornerRestarted()
    ensures Scanner.Finder(Horizontal, DetachedItems, 1) == [LineSegment(TextCoordinate(2, 0), TextCoordinate(4, 0))]
  {
    var c0, c2 := DetachedItems[0], DetachedItems[1];
    var e3, c4 := DetachedItems[2], DetachedItems[3];
    var none: seq<LineSegment> := [];
    var found := LineSegment(c2.pos, c4.pos);
    assert Scanner.Run(Horizontal, []) == (Scanner.Blank, none);
    Scanner.RunStep(Horizontal, [], c0, [c0], Scanner.Blank, none, Scanner.Tracking(LineSegment(c0.pos, c0.pos)), None, none);
    Scanner.RunStep(Horizontal, [c0], c2, [c0, c2], Scanner.Tracking(LineSegment(c0.pos, c0.pos)), none,
                    Scanner.Tracking(LineSegment(c2.pos, c2.pos)), None, none);
    Scanner.RunStep(Horizontal, [c0, c2], e3, [c0, c2, e3], Scanner.Tracking(LineSegment(c2.pos, c2.pos)), none,
                    Scanner.Tracking(LineSegment(c2.pos, e3.pos)), None, none);
    Scanner.RunStep(Horizontal, [c0, c2, e3], c4, [c0, c2, e3, c4], Scanner.Tracking(LineSegment(c2.pos, e3.pos)), none,
                    Scanner.Tracking(LineSegment(c4.pos, c4.pos)), Some(found), [found]);
    Scanner.RunStep(Horizontal, [c0, c2, e3, c4], Scanner.EndOfInput, [c0, c2, e3, c4, Scanner.EndOfInput],
                    Scanner.Tracking(LineSegment(c4.pos, c4.pos)), [found], Scanner.Blank, None, [found]);
    assert DetachedItems + [Scanner.EndOfInput] == [c0, c2, e3, c4, Scanner.EndOfInput];
    assert Scanner.Retain([found][1..], 1) == [];
  }

  /** A closed run followed by a corner that does not touch it is pushed,
      and the scan carries on from that corner. */
  lemma SeparatedRunsBothPushed()
    ensures Found(Rows, [Scanner.Item(TextCoordinate(0, 0), Term), Scanner.Item(TextCoordinate(1, 0), Term),
                            Scanner.Item(TextCoordinate(3, 0), Term), Scanner.Item(TextCoordinate(4, 0), Term)])
      == [LineSegment(TextCoordinate(0, 0), TextCoordinate(1, 0)), LineSegment(TextCoordinate(3, 0), TextCoordinate(4, 0))]
  {
    var c0, c1 := Scanner.Item(TextCoordinate(0, 0), Term), Scanner.Item(TextCoordinate(1, 0), Term);
    var c3, c4 := Scanner.Item(TextCoordinate(3, 0), Term), Scanner.Item(TextCoordinate(4, 0), Term);
    RunSnoc(Rows, [], c0);
    assert [] + [c0] == [c0];
    RunSnoc(Rows, [c0], c1);
    assert [c0] + [c1] == [c0, c1];
    RunSnoc(Rows, [c0, c1], c3);
    assert [c0, c1] + [c3] == [c0, c1, c3];
    RunSnoc(Rows, [c0, c1, c3], c4);
    assert [c0, c1, c3] + [c4] == [c0, c1, c3, c4];
    RunSnoc(Rows, [c0, c1, c3, c4], Scanner.EndOfInput);
    var none: seq<LineSegment> := [];
    var first := LineSegment(c0.pos, c1.pos);
    assert none + [first] == [first] && [first] + none == [first];
  }
}

=== FILE: finders.dfy ===
/** The segment getters: traverse the grid in a direction, keep the cells a
    classifier recognises, and run a scanner over them.  The four-direction
    analyzer reads all four directions with one classifier per direction;
    the editor's and the backend's analyzers read rows and columns with one
    classifier for both; the corner analyzers read rows and columns with the
    three-state scanner. */
module Finders {
  import opened Tc
  import opened Wrappers
  import opened TextBuffers
  import opened BufferIteration
  import opened Glyphs
  import opened Segments
  import Scanner
  import CornerScanner

  /** The classified cells, in traversal order; unrecognised ones dropped. */
  function Classified(cs: seq<Cell>, classify: char -> Option<Class>): (r: seq<Scanner.Item>)
    ensures |r| <= |cs|
    ensures forall it :: it in r ==> exists c :: c in cs && c.pos == it.pos && classify(c.ch) == Some(it.kind)
    ensures forall c :: c in cs && classify(c.ch).Some? ==> Scanner.Item(c.pos, classify(c.ch).value) in r
  {
    if |cs| == 0 then []
    else
      var rest := Classified(cs[1..], classify);
      assert forall c :: c in cs ==> c == cs[0] || c in cs[1..];
      match classify(cs[0].ch)
      case Some(k) => [Scanner.Item(cs[0].pos, k)] + rest
      case None => rest
  }

  /** The grid cells in the order a scan along `axis` visits them. */
  function Traverse(tb: Buffer, axis: Axis): (cs: seq<Cell>)
    ensures forall p, ch :: Cell(p, ch) in cs <==> Get(tb, p) == Some(ch)
  {
    match axis
    case Horizontal => Iter(tb)
    case Vertical => IterVert(tb)
    case DownRight => IterDiagDownRight(tb)
    case UpRight => IterDiagUpRight(tb)
  }

  function Items(tb: Buffer, axis: Axis, classify: char -> Option<Class>): seq<Scanner.Item> {
    Classified(Traverse(tb, axis), classify)
  }

  /** The cell at `p` holds a character `classify` reads as `k`. */
  predicate Marked(tb: Buffer, classify: char -> Option<Class>, p: TextCoordinate, k: Class) {
    Get(tb, p).Some? && classify(Get(tb, p).value) == Some(k)
  }

  /** `s` is drawn on the grid along `axis`: its end lies `Len(s)` cells
      along the axis from its start, with a terminal at each end and an edge
      of the axis on every cell in between. */
  ghost predicate Drawn(tb: Buffer, classify: char -> Option<Class>, axis: Axis, s: LineSegment) {
    KindOf(s) == Scanner.AxisKind(axis) && Len(s) >= 1 && Scanner.Steps(axis, s.start, s.end, Len(s))
    && Marked(tb, classify, s.start, Term) && Marked(tb, classify, s.end, Term)
    && forall q, n :: 0 < n < Len(s) && Scanner.Steps(axis, s.start, q, n) ==> Marked(tb, classify, q, Edge(axis))
  }

  lemma ItemsMarked(tb: Buffer, axis: Axis, classify: char -> Option<Class>)
    ensures forall it :: it in Items(tb, axis, classify) ==> Marked(tb, classify, it.pos, it.kind)
  {
    forall it | it in Items(tb, axis, classify)
      ensures Marked(tb, classify, it.pos, it.kind)
    {
      var c :| c in Traverse(tb, axis) && c.pos == it.pos && classify(c.ch) == Some(it.kind);
      assert Cell(c.pos, c.ch) in Traverse(tb, axis);
    }
  }

  /** A run the scanner closes over marked items is drawn on the grid. */
  lemma ClosedIsDrawn(tb: Buffer, axis: Axis, classify: char -> Option<Class>, items: seq<Scanner.Item>, i: nat, k: nat)
    requires forall it :: it in items ==> Marked(tb, classify, it.pos, it.kind)
    requires Scanner.Closes(axis, items, i, k)
    ensures Drawn(tb, classify, axis, Scanner.Closed(items, i, k))
  {
    var s := Scanner.Closed(items, i, k);
    Scanner.ClosedShape(axis, items, i, k);
    assert Scanner.Linked(axis, items, i, k);
    Scanner.LinkedSteps(axis, items, i, k);
    assert items[i] in items && items[k] in items;
    forall q, n | 0 < n < Len(s) && Scanner.Steps(axis, s.start, q, n)
      ensures Marked(tb, classify, q, Edge(axis))
    {
      InnerCellMarked(tb, axis, classify, items, i, k, q, n);
    }
  }

  /** The cell `n` steps into a closed run is marked as an edge of the axis. */
  lemma InnerCellMarked(tb: Buffer, axis: Axis, classify: char -> Option<Class>, items: seq<Scanner.Item>,
                        i: nat, k: nat, q: TextCoordinate, n: nat)
    requires forall it :: it in items ==> Marked(tb, classify, it.pos, it.kind)
    requires Scanner.Closes(axis, items, i, k)
    requires 0 < n < Len(Scanner.Closed(items, i, k)) && Scanner.Steps(axis, items[i].pos, q, n)
    ensures Marked(tb, classify, q, Edge(axis))
  {
    Scanner.ClosedShape(axis, items, i, k);
    assert Scanner.Linked(axis, items, i, i + n);
    Scanner.LinkedSteps(axis, items, i, i + n);
    assert items[i + n] in items;
  }

  /** Every segment the straight-line scanner reports is drawn on the grid. */
  lemma FinderDrawn(tb: Buffer, axis: Axis, classify: char -> Option<Class>, minLen: nat)
    ensures forall s :: s in Scanner.Finder(axis, Items(tb, axis, classify), minLen) ==>
      Drawn(tb, classify, axis, s) && Len(s) >= minLen
  {
    var items := Items(tb, axis, classify);
    ItemsMarked(tb, axis, classify);
    Scanner.FinderSpec(axis, items, minLen);
    forall s | s in Scanner.Finder(axis, items, minLen)
      ensures Drawn(tb, classify, axis, s) && Len(s) >= minLen
    {
      var i: nat, k: nat :| Scanner.Closes(axis, items, i, k) && s == Scanner.Closed(items, i, k);
      ClosedIsDrawn(tb, axis, classify, items, i, k);
    }
  }

  // ---- Completeness along rows and columns.

  /** The order a scan along rows or columns visits cells in. */
  predicate ScanBefore(axis: Axis, p: TextCoordinate, q: TextCoordinate) {
    match axis
    case Horizontal => Rect.RowMajorBefore(p, q)
    case Vertical => ColumnMajorBefore(p, q)
    case DownRight => false
    case UpRight => false
  }

  /** Every earlier item comes strictly before every later one. */
  ghost predicate InScanOrder(axis: Axis, items: seq<Scanner.Item>) {
    forall i, j :: 0 <= i < j < |items| ==> ScanBefore(axis, items[i].pos, items[j].pos)
  }

  /** Every earlier cell comes strictly before every later one. */
  ghost predicate CellsInScanOrder(axis: Axis, cs: seq<Cell>) {
    forall i, j :: 0 <= i < j < |cs| ==> ScanBefore(axis, cs[i].pos, cs[j].pos)
  }

  /** Dropping unclassified cells keeps the traversal order. */
  lemma {:induction false} ClassifiedOrdered(cs: seq<Cell>, classify: char -> Option<Class>, axis: Axis)
    requires CellsInScanOrder(axis, cs)
    ensures InScanOrder(axis, Classified(cs, classify))
  {
    if |cs| > 0 {
      var rest := Classified(cs[1..], classify);
      assert CellsInScanOrder(axis, cs[1..]) by {
        forall i, j | 0 <= i < j < |cs[1..]| ensures ScanBefore(axis, cs[1..][i].pos, cs[1..][j].pos) {
          assert cs[1..][i] == cs[i + 1] && cs[1..][j] == cs[j + 1];
        }
      }
      ClassifiedOrdered(cs[1..], classify, axis);
      if classify(cs[0].ch).Some? {
        HeadFirst(cs, classify, axis);
        ConsOrdered(axis, Scanner.Item(cs[0].pos, classify(cs[0].ch).value), rest);
      }
    }
  }

  /** The first cell comes before every item classified from the rest. */
  lemma HeadFirst(cs: seq<Cell>, classify: char -> Option<Class>, axis: Axis)
    requires |cs| > 0 && CellsInScanOrder(axis, cs)
    ensures forall it :: it in Classified(cs[1..], classify) ==> ScanBefore(axis, cs[0].pos, it.pos)
  {
    forall it | it in Classified(cs[1..], classify) ensures ScanBefore(axis, cs[0].pos, it.pos) {
      var c :| c in cs[1..] && c.pos == it.pos && classify(c.ch) == Some(it.kind);
      var m :| 0 <= m < |cs[1..]| && cs[1..][m] == c;
      assert cs[m + 1] == c;
    }
  }

  /** An item before every item of an ordered scan extends it in front. */
  lemma ConsOrdered(axis: Axis, first: Scanner.Item, rest: seq<Scanner.Item>)
    requires InScanOrder(axis, rest)
    requires forall it :: it in rest ==> ScanBefore(axis, first.pos, it.pos)
    ensures InScanOrder(axis, [first] + rest)
  {
    var r := [first] + rest;
    forall i, j | 0 <= i < j < |r| ensures ScanBefore(axis, r[i].pos, r[j].pos) {
      assert r[j] == rest[j - 1] && r[j] in rest;
      if i > 0 {
        assert r[i] == rest[i - 1];
      }
    }
  }

  /** The items of a row or column scan come in strict scan order. */
  lemma ItemsOrdered(tb: Buffer, axis: Axis, classify: char -> Option<Class>)
    requires axis == Horizontal || axis == Vertical
    ensures InScanOrder(axis, Items(tb, axis, classify))
  {
    var cs := Traverse(tb, axis);
    assert CellsInScanOrder(axis, cs) by {
      forall i, j | 0 <= i < j < |cs| ensures ScanBefore(axis, cs[i].pos, cs[j].pos) {
        assert Positions(cs)[i] == cs[i].pos && Positions(cs)[j] == cs[j].pos;
      }
    }
    ClassifiedOrdered(cs, classify, axis);
  }

  /** Every marked cell is among the items. */
  ghost predicate Covers(tb: Buffer, classify: char -> Option<Class>, items: seq<Scanner.Item>) {
    forall q, k :: Marked(tb, classify, q, k) ==> Scanner.Item(q, k) in items
  }

  lemma ItemsCover(tb: Buffer, axis: Axis, classify: char -> Option<Class>)
    ensures Covers(tb, classify, Items(tb, axis, classify))
  {
    forall q, k | Marked(tb, classify, q, k) ensures Scanner.Item(q, k) in Items(tb, axis, classify) {
      assert Cell(q, Get(tb, q).value) in Traverse(tb, axis);
    }
  }

  /** No cell lies, in scan order, strictly between a cell and the next one
      along the axis, nor does the next one come first. */
  lemma NothingBetween(axis: Axis, p: TextCoordinate, q: TextCoordinate)
    requires axis == Horizontal || axis == Vertical
    requires Scanner.ValidNext(axis, p, q)
    ensures ScanBefore(axis, p, q) && !ScanBefore(axis, q, p)
    ensures forall r :: !(ScanBefore(axis, p, r) && ScanBefore(axis, r, q))
  {
  }

  /** In an ordered scan, the cell right after an item's along the axis is
      the next item, if it is an item at all. */
  lemma NextIsNext(axis: Axis, items: seq<Scanner.Item>, a: nat, b: nat)
    requires axis == Horizontal || axis == Vertical
    requires InScanOrder(axis, items)
    requires a < |items| && b < |items| && Scanner.ValidNext(axis, items[a].pos, items[b].pos)
    ensures b == a + 1
  {
    NothingBetween(axis, items[a].pos, items[b].pos);
    if a + 1 < |items| {
      var r := items[a + 1].pos;
    }
  }

  /** The marked cell right after an item's along the axis is the next
      item. */
  lemma NextItem(tb: Buffer, axis: Axis, classify: char -> Option<Class>, items: seq<Scanner.Item>,
                 a: nat, q: TextCoordinate, k: Class)
    requires axis == Horizontal || axis == Vertical
    requires Covers(tb, classify, items) && InScanOrder(axis, items)
    requires a < |items| && Scanner.ValidNext(axis, items[a].pos, q) && Marked(tb, classify, q, k)
    ensures a + 1 < |items| && items[a + 1] == Scanner.Item(q, k)
  {
    assert Scanner.Item(q, k) in items;
    var b :| 0 <= b < |items| && items[b] == Scanner.Item(q, k);
    NextIsNext(axis, items, a, b);
  }

  /** An open run grows by an edge of the axis that follows on. */
  lemma OpenGrows(axis: Axis, items: seq<Scanner.Item>, i: nat, j: nat)
    requires Scanner.Open(axis, items, i, j) && j < |items| && items[j].kind == Edge(axis)
    requires Scanner.ValidNext(axis, items[j - 1].pos, items[j].pos)
    ensures Scanner.Open(axis, items, i, j + 1)
  {
    assert Scanner.Linked(axis, items, i, j - 1);
  }

  /** The cell `n` steps along the axis. */
  function Ahead(axis: Axis, a: TextCoordinate, n: nat): (q: TextCoordinate)
    requires axis == Horizontal || axis == Vertical
    ensures Scanner.Steps(axis, a, q, n)
  {
    if axis == Horizontal then TextCoordinate(a.x + n, a.y) else TextCoordinate(a.x, a.y + n)
  }

  /** The cell `n` steps into a drawn segment is marked: an edge of the
      axis inside, the terminal at its end. */
  lemma DrawnCell(tb: Buffer, axis: Axis, classify: char -> Option<Class>, s: LineSegment, n: nat)
    requires axis == Horizontal || axis == Vertical
    requires Drawn(tb, classify, axis, s) && 1 <= n <= Len(s)
    ensures Marked(tb, classify, Ahead(axis, s.start, n), if n < Len(s) then Edge(axis) else Term)
  {
  }

  /** A segment drawn from the item at `i` is read, cell by cell, as the
      next items: edges of the axis, then the terminal at its end. */
  lemma {:induction false} DrawnRun(tb: Buffer, axis: Axis, classify: char -> Option<Class>, items: seq<Scanner.Item>,
                                    s: LineSegment, i: nat, n: nat)
    requires axis == Horizontal || axis == Vertical
    requires Covers(tb, classify, items) && InScanOrder(axis, items)
    requires Drawn(tb, classify, axis, s) && 1 <= n <= Len(s)
    requires i < |items| && items[i] == Scanner.Item(s.start, Term)
    ensures i + n < |items| && Scanner.Open(axis, items, i, i + n)
    ensures items[i + n] == Scanner.Item(Ahead(axis, s.start, n), if n < Len(s) then Edge(axis) else Term)
    ensures Scanner.ValidNext(axis, items[i + n - 1].pos, items[i + n].pos)
    decreases n
  {
    if n > 1 {
      DrawnRun(tb, axis, classify, items, s, i, n - 1);
      DrawnRunStep(tb, axis, classify, items, s, i, n);
    } else {
      DrawnCell(tb, axis, classify, s, n);
      NextItem(tb, axis, classify, items, i, Ahead(axis, s.start, n), if n < Len(s) then Edge(axis) else Term);
    }
  }

  /** One more cell of a drawn segment is read as the next item. */
  lemma DrawnRunStep(tb: Buffer, axis: Axis, classify: char -> Option<Class>, items: seq<Scanner.Item>,
                     s: LineSegment, i: nat, n: nat)
    requires axis == Horizontal || axis == Vertical
    requires Covers(tb, classify, items) && InScanOrder(axis, items)
    requires Drawn(tb, classify, axis, s) && 1 < n <= Len(s)
    requires i + n - 1 < |items| && Scanner.Open(axis, items, i, i + n - 1)
    requires items[i + n - 1] == Scanner.Item(Ahead(axis, s.start, n - 1), Edge(axis))
    requires Scanner.ValidNext(axis, items[i + n - 2].pos, items[i + n - 1].pos)
    ensures i + n < |items| && Scanner.Open(axis, items, i, i + n)
    ensures items[i + n] == Scanner.Item(Ahead(axis, s.start, n), if n < Len(s) then Edge(axis) else Term)
    ensures Scanner.ValidNext(axis, items[i + n - 1].pos, items[i + n].pos)
  {
    var q := Ahead(axis, s.start, n);
    var k := if n < Len(s) then Edge(axis) else Term;
    DrawnCell(tb, axis, classify, s, n);
    NextItem(tb, axis, classify, items, i + n - 1, q, k);
    OpenGrows(axis, items, i, i + n - 1);
  }

  /** A drawn segment whose start is the item at `i` is the run that item
      opens and its end closes. */
  lemma DrawnCloses(tb: Buffer, axis: Axis, classify: char -> Option<Class>, items: seq<Scanner.Item>,
                    s: LineSegment, i: nat)
    requires axis == Horizontal || axis == Vertical
    requires Covers(tb, classify, items) && InScanOrder(axis, items)
    requires Drawn(tb, classify, axis, s)
    requires i < |items| && items[i] == Scanner.Item(s.start, Term)
    ensures i + Len(s) < |items| && Scanner.Closes(axis, items, i, i + Len(s))
    ensures Scanner.Closed(items, i, i + Len(s)) == s
  {
    DrawnRun(tb, axis, classify, items, s, i, Len(s));
    if Len(s) > 1 {
      DrawnRun(tb, axis, classify, items, s, i, Len(s) - 1);
    }
  }

  /** A scan that reads every marked cell in scan order reports every drawn
      segment long enough for the filter. */
  lemma DrawnIsReported(tb: Buffer, axis: Axis, classify: char -> Option<Class>, items: seq<Scanner.Item>,
                        minLen: nat, s: LineSegment)
    requires axis == Horizontal || axis == Vertical
    requires Covers(tb, classify, items) && InScanOrder(axis, items)
    requires Drawn(tb, classify, axis, s) && Len(s) >= minLen
    ensures s in Scanner.Finder(axis, items, minLen)
  {
    assert Marked(tb, classify, s.start, Term);
    assert Scanner.Item(s.start, Term) in items;
    var i :| 0 <= i < |items| && items[i] == Scanner.Item(s.start, Term);
    DrawnCloses(tb, axis, classify, items, s, i);
    Scanner.FinderSpec(axis, items, minLen);
  }

  /** Completeness of the straight-line scanner along rows and columns:
      every segment drawn on the grid and long enough is reported. */
  lemma DrawnIsScanned(tb: Buffer, axis: Axis, classify: char -> Option<Class>, minLen: nat, s: LineSegment)
    requires axis == Horizontal || axis == Vertical
    requires Drawn(tb, classify, axis, s) && Len(s) >= minLen
    ensures s in Scanner.Finder(axis, Items(tb, axis, classify), minLen)
  {
    ItemsCover(tb, axis, classify);
    ItemsOrdered(tb, axis, classify);
    DrawnIsReported(tb, axis, classify, Items(tb, axis, classify), minLen, s);
  }

  /** The three analyzers built on the straight-line scanner. */
  datatype Analyzer = FourWay | Editor | Backend

  function Classifier(an: Analyzer, axis: Axis): char -> Option<Class> {
    match an
    case FourWay => ClassifierFor(axis)
    case Editor => ClassifyEditor
    case Backend => ClassifyBackend
  }

  /** The length filter each analyzer applies to what its scanner reports. */
  function MinLen(an: Analyzer): nat {
    match an
    case FourWay => 1
    case Editor => 2
    case Backend => 1
  }

  /** The segments an analyzer finds along `axis`; only the four-direction
      analyzer reads the diagonals. */
  function LineSegments(an: Analyzer, tb: Buffer, axis: Axis): (r: seq<LineSegment>)
    requires an == FourWay || axis == Horizontal || axis == Vertical
    ensures forall s :: s in r ==> Drawn(tb, Classifier(an, axis), axis, s) && Len(s) >= MinLen(an)
  {
    FinderDrawn(tb, axis, Classifier(an, axis), MinLen(an));
    Scanner.Finder(axis, Items(tb, axis, Classifier(an, axis)), MinLen(an))
  }

  /** Along rows and columns an analyzer finds exactly the segments drawn
      on the grid that pass its length filter. */
  lemma DrawnIsFound(an: Analyzer, tb: Buffer, axis: Axis, s: LineSegment)
    requires axis == Horizontal || axis == Vertical
    ensures s in LineSegments(an, tb, axis) <==> Drawn(tb, Classifier(an, axis), axis, s) && Len(s) >= MinLen(an)
  {
    if Drawn(tb, Classifier(an, axis), axis, s) && Len(s) >= MinLen(an) {
      DrawnIsScanned(tb, axis, Classifier(an, axis), MinLen(an), s);
    }
  }

  /** The corner analyzers' segments along rows or columns: drawn on the
      grid, and among what the straight-line scanner would report. */
  function CornerSegments(tb: Buffer, d: CornerScanner.Direction): (r: seq<LineSegment>)
    ensures forall s :: s in r ==> Drawn(tb, ClassifyCorners, CornerScanner.AxisOf(d), s)
    ensures forall s :: s in r ==> s in Scanner.Finder(CornerScanner.AxisOf(d), Items(tb, CornerScanner.AxisOf(d), ClassifyCorners), 1)
  {
    var axis := CornerScanner.AxisOf(d);
    var items := Items(tb, axis, ClassifyCorners);
    CornerScanner.ReportsAreRuns(d, items);
    FinderDrawn(tb, axis, ClassifyCorners, 1);
    CornerScanner.Found(d, items)
  }
}

=== FILE: fixtures.dfy ===
/** The repository's own diagrams, at the level of the segments their scans
    report; each diagram is pasted at the position its test uses. */
module Fixtures {
  import opened Tc
  import opened TextBuffers
  import opened Segments
  import Rect
  import opened Rectangles
  import opened Wires
  import Merge
  import Sorting

  // ---- Rectangles.

  /** The only rectangle whose four sides are the four sides of a closed box
      is the box itself. */
  lemma OnlyTheBox(x0: nat, y0: nat, x1: nat, y1: nat, r: Rect.Rectangle)
    requires x0 < x1 && y0 < y1 && Rect.IsNormal(r)
    requires AllSidesIn([Seg(x0, y0, x1, y0), Seg(x0, y1, x1, y1)], [Seg(x0, y0, x0, y1), Seg(x1, y0, x1, y1)], r)
    ensures r == Rect.Rectangle(TextCoordinate(x0, y0), TextCoordinate(x1, y1))
  {
    var s :| s in [Seg(x0, y0, x1, y0), Seg(x0, y1, x1, y1)] && SameEnds(s, TopSide(r));
    assert s.start in {TopSide(r).start, TopSide(r).end} && s.end in {TopSide(r).start, TopSide(r).end};
    var t :| t in [Seg(x0, y0, x0, y1), Seg(x1, y0, x1, y1)] && SameEnds(t, LeftSide(r));
    assert t.start in {LeftSide(r).start, LeftSide(r).end} && t.end in {LeftSide(r).start, LeftSide(r).end};
  }

  lemma Singleton<T>(s: set<T>, x: T)
    requires x in s && forall y :: y in s ==> y == x
    ensures s == {x}
  {
  }

  /** A closed box with corners (x0, y0) and (x1, y1), and the two
      horizontal and two vertical segments the scans report for it. */
  function ClosedBox(x0: nat, y0: nat, x1: nat, y1: nat): Rect.Rectangle {
    Rect.Rectangle(TextCoordinate(x0, y0), TextCoordinate(x1, y1))
  }
  function ClosedH(x0: nat, y0: nat, x1: nat, y1: nat): seq<LineSegment> {
    [Seg(x0, y0, x1, y0), Seg(x0, y1, x1, y1)]
  }
  function ClosedV(x0: nat, y0: nat, x1: nat, y1: nat): seq<LineSegment> {
    [Seg(x0, y0, x0, y1), Seg(x1, y0, x1, y1)]
  }

  /** The editor finds a lone closed box, and nothing else, given `+`
      corners and empty surroundings on the grid, whatever the hash
      order. */
  lemma ClosedBoxFound(x0: nat, y0: nat, x1: nat, y1: nat, tb: Buffer,
                       pick: (TextCoordinate, set<LineSegment>) -> LineSegment)
    requires x0 < x1 && y0 < y1 && Picks(pick)
    requires PlusCorners(tb, ClosedBox(x0, y0, x1, y1)) && SurroundingsEmpty(tb, ClosedBox(x0, y0, x1, y1))
    ensures Detect(Checked, tb, ClosedH(x0, y0, x1, y1), ClosedV(x0, y0, x1, y1), pick) == {ClosedBox(x0, y0, x1, y1)}
  {
    var box := ClosedBox(x0, y0, x1, y1);
    var found := Detect(Checked, tb, ClosedH(x0, y0, x1, y1), ClosedV(x0, y0, x1, y1), pick);
    forall r | r in found ensures r == box {
      DetectSound(Checked, tb, ClosedH(x0, y0, x1, y1), ClosedV(x0, y0, x1, y1), pick, r);
      OnlyTheBox(x0, y0, x1, y1, r);
    }
    ClosedBoxReported(x0, y0, x1, y1, tb, pick);
    Singleton(found, box);
  }

  lemma ClosedBoxReported(x0: nat, y0: nat, x1: nat, y1: nat, tb: Buffer,
                          pick: (TextCoordinate, set<LineSegment>) -> LineSegment)
    requires x0 < x1 && y0 < y1 && Picks(pick)
    requires PlusCorners(tb, ClosedBox(x0, y0, x1, y1)) && SurroundingsEmpty(tb, ClosedBox(x0, y0, x1, y1))
    ensures ClosedBox(x0, y0, x1, y1) in Detect(Checked, tb, ClosedH(x0, y0, x1, y1), ClosedV(x0, y0, x1, y1), pick)
  {
    var box := ClosedBox(x0, y0, x1, y1);
    var c, c2 := TextCoordinate(x0, y0), TextCoordinate(x1, y1);
    var m := CornerMap(Entries(Checked, ClosedH(x0, y0, x1, y1), ClosedV(x0, y0, x1, y1)));
    ClosedCorner(Checked, x0, y0, x1, y1, c);
    ClosedCorner(Checked, x0, y0, x1, y1, c2);
    assert m[c] == {DirectedLine.Horiz(TopSide(box)), DirectedLine.Vert(LeftSide(box))};
    assert m[c2] == {DirectedLine.Horiz(BottomSide(box)), DirectedLine.Vert(RightSide(box))};
    TwoCorners(Checked, tb, ClosedH(x0, y0, x1, y1), ClosedV(x0, y0, x1, y1), pick, box);
  }

  /** The box of the editor's basic example: corners (4, 2) and (10, 4). */
  const BoxH := [Seg(4, 2, 10, 2), Seg(4, 4, 10, 4)]
  const BoxV := [Seg(4, 2, 4, 4), Seg(10, 2, 10, 4)]
  const Box := Rect.Rectangle(TextCoordinate(4, 2), TextCoordinate(10, 4))

  /** The editor finds the basic box and nothing else. */
  lemma BoxFound(tb: Buffer, pick: (TextCoordinate, set<LineSegment>) -> LineSegment)
    requires Picks(pick) && PlusCorners(tb, Box) && SurroundingsEmpty(tb, Box)
    ensures Detect(Checked, tb, BoxH, BoxV, pick) == {Box}
  {
    ClosedBoxFound(4, 2, 10, 4, tb, pick);
  }

  /** The editor's initial diagram, pasted at (4, 4) below an empty first
      line: a box with corners (9, 5) and (31, 13) whose labels sit inside
      and whose port marks sit beside its vertical sides, away from the
      corners. */
  const BorderedH := [Seg(9, 5, 31, 5), Seg(9, 13, 31, 13)]
  const BorderedV := [Seg(9, 5, 9, 13), Seg(31, 5, 31, 13)]
  const Bordered := Rect.Rectangle(TextCoordinate(9, 5), TextCoordinate(31, 13))

  /** The editor finds exactly one rectangle in its initial diagram. */
  lemma BorderedBoxFound(tb: Buffer, pick: (TextCoordinate, set<LineSegment>) -> LineSegment)
    requires Picks(pick) && PlusCorners(tb, Bordered) && SurroundingsEmpty(tb, Bordered)
    ensures Detect(Checked, tb, BorderedH, BorderedV, pick) == {Bordered}
  {
    ClosedBoxFound(9, 5, 31, 13, tb, pick);
  }

  /** A closed box's corner map entries, in the order they are inserted;
      its sides are already canonical. */
  lemma ClosedEntries(variant: Variant, x0: nat, y0: nat, x1: nat, y1: nat)
    requires variant != OppositeOnly && x0 < x1 && y0 < y1
    ensures Entries(variant, ClosedH(x0, y0, x1, y1), ClosedV(x0, y0, x1, y1)) == ClosedEntryList(x0, y0, x1, y1)
  {
    var h, v := ClosedH(x0, y0, x1, y1), ClosedV(x0, y0, x1, y1);
    assert h[1..] == [h[1]] && h[1..][1..] == [];
    assert v[1..] == [v[1]] && v[1..][1..] == [];
    assert StoredHoriz(variant, h[0]) == DirectedLine.Horiz(h[0]);
    assert StoredHoriz(variant, h[1]) == DirectedLine.Horiz(h[1]);
    assert StoredVert(variant, v[0]) == DirectedLine.Vert(v[0]);
    assert StoredVert(variant, v[1]) == DirectedLine.Vert(v[1]);
    var e := ClosedEntryList(x0, y0, x1, y1);
    assert Entries(variant, [], v[1..]) == e[6..];
    assert Entries(variant, [], v) == e[4..];
    assert Entries(variant, h[1..], v) == e[2..];
  }

  function ClosedEntryList(x0: nat, y0: nat, x1: nat, y1: nat): seq<(TextCoordinate, DirectedLine)> {
    var h, v := ClosedH(x0, y0, x1, y1), ClosedV(x0, y0, x1, y1);
    var t, b := DirectedLine.Horiz(h[0]), DirectedLine.Horiz(h[1]);
    var l, r := DirectedLine.Vert(v[0]), DirectedLine.Vert(v[1]);
    [(TextCoordinate(x0, y0), t), (TextCoordinate(x1, y0), t), (TextCoordinate(x0, y1), b), (TextCoordinate(x1, y1), b),
     (TextCoordinate(x0, y0), l), (TextCoordinate(x0, y1), l), (TextCoordinate(x1, y0), r), (TextCoordinate(x1, y1), r)]
  }

  /** A corner whose entries are exactly two lines holds exactly those. */
  lemma CornerHolds(e: seq<(TextCoordinate, DirectedLine)>, c: TextCoordinate, a: DirectedLine, b: DirectedLine)
    requires forall d :: (c, d) in e <==> d == a || d == b
    ensures c in CornerMap(e) && CornerMap(e)[c] == {a, b}
  {
    assert (c, a) in e;
  }

  /** What a closed box's corner map holds at its top-left and
      bottom-right corners. */
  lemma ClosedCorner(variant: Variant, x0: nat, y0: nat, x1: nat, y1: nat, c: TextCoordinate)
    requires variant != OppositeOnly && x0 < x1 && y0 < y1
    requires c == TextCoordinate(x0, y0) || c == TextCoordinate(x1, y1)
    ensures c in CornerMap(Entries(variant, ClosedH(x0, y0, x1, y1), ClosedV(x0, y0, x1, y1)))
    ensures c == TextCoordinate(x0, y0) ==>
      CornerMap(Entries(variant, ClosedH(x0, y0, x1, y1), ClosedV(x0, y0, x1, y1)))[c]
        == {DirectedLine.Horiz(ClosedH(x0, y0, x1, y1)[0]), DirectedLine.Vert(ClosedV(x0, y0, x1, y1)[0])}
    ensures c == TextCoordinate(x1, y1) ==>
      CornerMap(Entries(variant, ClosedH(x0, y0, x1, y1), ClosedV(x0, y0, x1, y1)))[c]
        == {DirectedLine.Horiz(ClosedH(x0, y0, x1, y1)[1]), DirectedLine.Vert(ClosedV(x0, y0, x1, y1)[1])}
  {
    ClosedEntries(variant, x0, y0, x1, y1);
    var i := if c.x == x0 then 0 else 1;
    CornerHolds(ClosedEntryList(x0, y0, x1, y1), c,
      DirectedLine.Horiz(ClosedH(x0, y0, x1, y1)[i]), DirectedLine.Vert(ClosedV(x0, y0, x1, y1)[i]));
  }

  /** The stray-dash example: the same box shape at (5, 2)-(11, 4) with a
      `-` left of its top-left corner is not reported by the editor. */
  const DashH := [Seg(5, 2, 11, 2), Seg(5, 4, 11, 4)]
  const DashV := [Seg(5, 2, 5, 4), Seg(11, 2, 11, 4)]

  lemma StrayDashRejected(tb: Buffer, pick: (TextCoordinate, set<LineSegment>) -> LineSegment)
    requires Picks(pick) && Get(tb, TextCoordinate(4, 2)).Some?
    ensures Detect(Checked, tb, DashH, DashV, pick) == {}
  {
    var found := Detect(Checked, tb, DashH, DashV, pick);
    if r :| r in found {
      DetectSound(Checked, tb, DashH, DashV, pick, r);
      OnlyTheBox(5, 2, 11, 4, r);
      LeftOfCornerEmpty(tb, r);
      assert false;
    }
  }

  lemma LeftOfCornerEmpty(tb: Buffer, r: Rect.Rectangle)
    requires SurroundingsEmpty(tb, r)
    ensures Get(tb, Left(Rect.LeftTop(r))).None?
  {
    assert Surroundings(r)[1] == Left(Rect.LeftTop(r));
  }

  /** The cup: a top and a bottom line joined by a right side only. */
  const CupH := [Seg(1, 2, 7, 2), Seg(1, 6, 7, 6)]
  const CupV := [Seg(7, 2, 7, 6)]
  const Cup := Rect.Rectangle(TextCoordinate(1, 2), TextCoordinate(7, 6))

  /** No rectangle has all four sides among the cup's lines. */
  lemma CupIsOpen(r: Rect.Rectangle)
    ensures !AllSidesIn(CupH, CupV, r)
  {
    if AllSidesIn(CupH, CupV, r) {
      assert false;
    }
  }

  /** The editor and the first corner analyzer report nothing for the cup. */
  lemma CupRejected(variant: Variant, tb: Buffer, pick: (TextCoordinate, set<LineSegment>) -> LineSegment)
    requires Picks(pick) && variant != OppositeOnly
    ensures Detect(variant, tb, CupH, CupV, pick) == {}
  {
    var found := Detect(variant, tb, CupH, CupV, pick);
    if r :| r in found {
      DetectSound(variant, tb, CupH, CupV, pick, r);
      CupIsOpen(r);
      assert false;
    }
  }

  /** The only rectangle with a horizontal and a vertical side among the
      cup's lines is the cup's bounding box. */
  lemma CupBox(r: Rect.Rectangle)
    requires Rect.IsNormal(r) && TwoSidesIn(CupH, CupV, r)
    ensures r == Cup
  {
    var s :| s in CupV && (SameEnds(s, LeftSide(r)) || SameEnds(s, RightSide(r)));
    var u :| u in CupH && (SameEnds(u, TopSide(r)) || SameEnds(u, BottomSide(r)));
    assert u.start in {TopSide(r).start, TopSide(r).end} || u.start in {BottomSide(r).start, BottomSide(r).end};
    assert u.end in {TopSide(r).start, TopSide(r).end} || u.end in {BottomSide(r).start, BottomSide(r).end};
  }

  lemma CupEntries()
    ensures Entries(OppositeOnly, CupH, CupV) ==
      [(TextCoordinate(1, 2), DirectedLine.Horiz(CupH[0])), (TextCoordinate(7, 2), DirectedLine.Horiz(CupH[0])),
       (TextCoordinate(1, 6), DirectedLine.Horiz(CupH[1])), (TextCoordinate(7, 6), DirectedLine.Horiz(CupH[1])),
       (TextCoordinate(7, 2), DirectedLine.Vert(CupV[0])), (TextCoordinate(7, 6), DirectedLine.Vert(CupV[0]))]
  {
    assert CupH[1..] == [CupH[1]] && CupH[1..][1..] == [] && CupV[1..] == [];
  }

  /** The oldest detector, which checks only that the opposite corner ends
      some line, reports the cup as a rectangle. */
  lemma CupReportedByOldest(tb: Buffer, pick: (TextCoordinate, set<LineSegment>) -> LineSegment)
    requires Picks(pick)
    ensures Detect(OppositeOnly, tb, CupH, CupV, pick) == {Cup}
  {
    var found := Detect(OppositeOnly, tb, CupH, CupV, pick);
    forall r | r in found ensures r == Cup {
      DetectSound(OppositeOnly, tb, CupH, CupV, pick, r);
      CupBox(r);
    }
    CupCorner(tb, pick);
    Singleton(found, Cup);
  }

  lemma CupCorner(tb: Buffer, pick: (TextCoordinate, set<LineSegment>) -> LineSegment)
    requires Picks(pick)
    ensures Cup in Detect(OppositeOnly, tb, CupH, CupV, pick)
  {
    var c := TextCoordinate(7, 2);
    var e := Entries(OppositeOnly, CupH, CupV);
    CupEntries();
    CornerHolds(e, c, DirectedLine.Horiz(CupH[0]), DirectedLine.Vert(CupV[0]));
    assert (TextCoordinate(1, 6), DirectedLine.Horiz(CupH[1])) in e;
    assert Opposite(c, CupH[0], CupV[0]) == TextCoordinate(1, 6);
    ReportedFrom(OppositeOnly, tb, CupH, CupV, pick, c, CupH[0], CupV[0], Cup);
  }

  /** A corner holding one horizontal and one vertical line is a junction,
      and those are the lines picked there. */
  lemma PickedPair(m: map<TextCoordinate, set<DirectedLine>>, c: TextCoordinate, x: LineSegment, y: LineSegment,
                   pick: (TextCoordinate, set<LineSegment>) -> LineSegment)
    requires Picks(pick) && c in m && m[c] == {DirectedLine.Horiz(x), DirectedLine.Vert(y)}
    ensures Junction(m, c) && pick(c, HorizIn(m[c])) == x && pick(c, VertIn(m[c])) == y
  {
    Pair(x, y);
    assert |{x}| == 1 && |{y}| == 1;
  }

  /** The candidate from a two-line corner that the variant accepts is
      reported. */
  lemma ReportedFrom(variant: Variant, tb: Buffer, h: seq<LineSegment>, v: seq<LineSegment>,
                     pick: (TextCoordinate, set<LineSegment>) -> LineSegment, c: TextCoordinate,
                     x: LineSegment, y: LineSegment, r: Rect.Rectangle)
    requires AllHoriz(h) && AllVert(v) && Picks(pick)
    requires var m := CornerMap(Entries(variant, h, v));
      c in m && m[c] == {DirectedLine.Horiz(x), DirectedLine.Vert(y)} && Accepts(variant, tb, m, c, x, y)
    requires r == Rect.Normalize(Rect.Rectangle(c, Opposite(c, x, y)))
    ensures r in Detect(variant, tb, h, v, pick)
  {
    var m := CornerMap(Entries(variant, h, v));
    PickedPair(m, c, x, y, pick);
    Reported(variant, tb, h, v, pick, c);
  }

  // ---- Wires.

  /** Distinct wires are distinct values. */
  lemma WiresInjective(wires: seq<Wire>, i: nat, j: nat)
    requires DistinctWires(wires) && forall w :: w in wires ==> |w.segments| > 0
    requires i < |wires| && j < |wires| && wires[i] == wires[j]
    ensures i == j
  {
    assert wires[i] in wires;
    assert wires[i].segments[0] in Elems(wires[i].segments);
  }

  /** Wires that are all one of two distinct wires number two. */
  lemma TwoWires(wires: seq<Wire>, a: nat, b: nat)
    requires DistinctWires(wires) && forall w :: w in wires ==> |w.segments| > 0
    requires a < |wires| && b < |wires| && a != b
    requires forall k :: 0 <= k < |wires| ==> wires[k] == wires[a] || wires[k] == wires[b]
    ensures |wires| == 2
  {
    if |wires| > 2 {
      var k := if a != 0 && b != 0 then 0 else if a != 1 && b != 1 then 1 else 2;
      if wires[k] == wires[a] {
        WiresInjective(wires, k, a);
      } else {
        WiresInjective(wires, k, b);
      }
    }
  }

  /** Wires that are all one wire number one. */
  lemma OneWire(wires: seq<Wire>, a: nat)
    requires DistinctWires(wires) && forall w :: w in wires ==> |w.segments| > 0
    requires a < |wires|
    requires forall k :: 0 <= k < |wires| ==> wires[k] == wires[a]
    ensures |wires| == 1
  {
    if |wires| > 1 {
      var k := if a == 0 then 1 else 0;
      WiresInjective(wires, k, a);
    }
  }

  /** The colinear-wire example: a `+` crossing at (6, 5) with four arms
      gives two wires, the merged row and the merged column. */
  method CrossingWires() returns (wires: seq<Wire>)
    ensures |wires| == 2
  {
    var h, v := [Seg(2, 5, 6, 5), Seg(6, 5, 10, 5)], [Seg(6, 3, 6, 5), Seg(6, 5, 6, 7)];
    wires := GetWires(h, v);
    Merge.CrossingMerges(Merge.ByAxis);
    assert h + v == [Seg(2, 5, 6, 5), Seg(6, 5, 10, 5), Seg(6, 3, 6, 5), Seg(6, 5, 6, 7)];
    var merged := [Seg(6, 3, 6, 7), Seg(2, 5, 10, 5)];
    assert Elems(merged) == {Seg(6, 3, 6, 7), Seg(2, 5, 10, 5)};
  }

  /** The vertical-arrow example: one column segment from (12, 6) to
      (12, 8) gives one wire. */
  method VerticalArrowWires() returns (wires: seq<Wire>)
    ensures |wires| == 1
  {
    var r := Seg(12, 6, 12, 8);
    wires := GetWires([], [r]);
    assert [] + [r] == [r];
    assert Merge.MergeColinear(Merge.ByAxis, [r]) == [r];
    assert Elems([r]) == {r};
  }

  /** The cup with an arrow: the cup's top, bottom and right side and the
      arrow `<-----o` in front of the right side. */
  const CupTop := Seg(1, 2, 7, 2)
  const Arrow := Seg(8, 4, 14, 4)
  const CupBottom := Seg(1, 6, 7, 6)
  const CupRight := Seg(7, 2, 7, 6)

  /** The editor reads the arrow as a segment (`o` is a terminal there) and
      finds two wires: the cup, and the arrow, which touches nothing. */
  method EditorCupWires() returns (wires: seq<Wire>)
    ensures |wires| == 2
  {
    var h, v := [CupTop, Arrow, CupBottom], [CupRight];
    var raw := h + v;
    assert raw == [CupTop, Arrow, CupBottom, CupRight];
    Merge.MergeColinearUnmergeable(Merge.ByAxis, raw);
    wires := GetWires(h, v);
    var merged := Merge.MergeColinear(Merge.ByAxis, raw);
    assert merged == [CupRight, CupTop, Arrow, CupBottom];
    var cup := CupWire(h, v, wires);
    var arrow := ArrowWire(merged, raw, wires);
    ArrowApart(wires, cup, arrow);
    CupOrArrow(merged, raw, wires, cup, arrow);
    TwoWires(wires, cup, arrow);
  }

  /** Every wire starts with a cup segment or the arrow, so it is the cup's
      wire or the arrow's. */
  lemma CupOrArrow(merged: seq<LineSegment>, raw: seq<LineSegment>, wires: seq<Wire>, cup: nat, arrow: nat)
    requires merged == [CupRight, CupTop, Arrow, CupBottom] && raw == [CupTop, Arrow, CupBottom, CupRight]
    requires DistinctWires(wires) && forall w :: w in wires ==> |w.segments| > 0
    requires forall s :: Placed(s, wires) ==> s in merged || s in raw
    requires cup < |wires| && CupTop in wires[cup].segments && CupRight in wires[cup].segments && CupBottom in wires[cup].segments
    requires arrow < |wires| && Arrow in wires[arrow].segments
    ensures forall k :: 0 <= k < |wires| ==> wires[k] == wires[cup] || wires[k] == wires[arrow]
  {
    forall k | 0 <= k < |wires|
      ensures wires[k] == wires[cup] || wires[k] == wires[arrow]
    {
      var x := wires[k].segments[0];
      assert wires[k] in wires;
      assert Placed(x, wires);
      if x == Arrow {
        WireOf(wires, x, k, arrow);
      } else {
        WireOf(wires, x, k, cup);
      }
    }
  }

  /** A segment in two wires of distinct wires is in one. */
  lemma WireOf(wires: seq<Wire>, x: LineSegment, k: nat, j: nat)
    requires DistinctWires(wires)
    requires k < |wires| && j < |wires| && x in wires[k].segments && x in wires[j].segments
    ensures wires[k] == wires[j]
  {
    assert x in Elems(wires[k].segments) && x in Elems(wires[j].segments);
  }

  /** The arrow's wire holds nothing but the arrow. */
  lemma ArrowWire(merged: seq<LineSegment>, raw: seq<LineSegment>, wires: seq<Wire>) returns (i: nat)
    requires merged == [CupRight, CupTop, Arrow, CupBottom] && raw == [CupTop, Arrow, CupBottom, CupRight]
    requires forall m :: m in merged ==> Placed(m, wires)
    requires forall w, s :: w in wires && Isolated(s, Elems(merged) + Elems(raw)) ==> Separated(w.segments, s)
    ensures i < |wires| && Arrow in wires[i].segments && CupTop !in wires[i].segments
  {
    assert Arrow in merged;
    var w :| w in wires && Arrow in w.segments;
    i :| 0 <= i < |wires| && wires[i] == w;
    assert Elems(merged) + Elems(raw) == {CupTop, Arrow, CupBottom, CupRight};
    assert Isolated({Arrow}, Elems(merged) + Elems(raw));
    assert Separated(w.segments, {Arrow});
  }

  lemma ArrowApart(wires: seq<Wire>, cup: nat, arrow: nat)
    requires cup < |wires| && arrow < |wires|
    requires CupTop in wires[cup].segments && CupTop !in wires[arrow].segments
    ensures cup != arrow
  {
  }

  /** The backend does not read `o` as a terminal, so the arrow is not a
      segment and the cup is the only wire. */
  method BackendCupWires() returns (wires: seq<Wire>)
    ensures |wires| == 1
  {
    var h, v := [CupTop, CupBottom], [CupRight];
    var raw := h + v;
    assert raw == [CupTop, CupBottom, CupRight];
    Merge.MergeColinearUnmergeable(Merge.ByAxis, raw);
    wires := GetWires(h, v);
    var merged := Merge.MergeColinear(Merge.ByAxis, raw);
    assert merged == [CupRight, CupTop, CupBottom];
    var cup := CupWire(h, v, wires);
    CupOnly(merged, raw, wires, cup);
    OneWire(wires, cup);
  }

  /** Every wire starts with a cup segment, so it is the cup's wire. */
  lemma CupOnly(merged: seq<LineSegment>, raw: seq<LineSegment>, wires: seq<Wire>, cup: nat)
    requires merged == [CupRight, CupTop, CupBottom] && raw == [CupTop, CupBottom, CupRight]
    requires DistinctWires(wires) && forall w :: w in wires ==> |w.segments| > 0
    requires forall s :: Placed(s, wires) ==> s in merged || s in raw
    requires cup < |wires| && CupTop in wires[cup].segments && CupRight in wires[cup].segments && CupBottom in wires[cup].segments
    ensures forall k :: 0 <= k < |wires| ==> wires[k] == wires[cup]
  {
    forall k | 0 <= k < |wires|
      ensures wires[k] == wires[cup]
    {
      var x := wires[k].segments[0];
      assert wires[k] in wires;
      assert Placed(x, wires);
      WireOf(wires, x, k, cup);
    }
  }

  /** The wire holding the cup's top holds its right side and bottom too. */
  lemma CupWire(h: seq<LineSegment>, v: seq<LineSegment>, wires: seq<Wire>) returns (i: nat)
    requires CupTop in h && CupBottom in h && CupRight in v
    requires Placed(CupTop, wires)
    requires forall w, x, y :: w in wires && x in w.segments && x in h + v && y in h + v && ShareEndpoint(x, y) ==> y in w.segments
    ensures i < |wires| && CupTop in wires[i].segments && CupRight in wires[i].segments && CupBottom in wires[i].segments
  {
    var w :| w in wires && CupTop in w.segments;
    i :| 0 <= i < |wires| && wires[i] == w;
    assert ShareEndpoint(CupTop, CupRight) && ShareEndpoint(CupRight, CupBottom);
  }

  // ---- The four-direction analyzer's wires.

  /** The crossing: the four arms merge into the full row and the full
      column. */
  lemma FourWayCrossing()
    ensures multiset(FourWayWires([Seg(2, 5, 6, 5), Seg(6, 5, 10, 5)], [Seg(6, 3, 6, 5), Seg(6, 5, 6, 7)], [], []))
      == multiset{Seg(6, 3, 6, 7), Seg(2, 5, 10, 5)}
  {
    var h, v := [Seg(2, 5, 6, 5), Seg(6, 5, 10, 5)], [Seg(6, 3, 6, 5), Seg(6, 5, 6, 7)];
    assert h + v + [] + [] == [Seg(2, 5, 6, 5), Seg(6, 5, 10, 5), Seg(6, 3, 6, 5), Seg(6, 5, 6, 7)];
    Merge.CrossingMerges(Merge.ByKind);
  }

  /** The short-line example: a `+` above a `v` is one column segment from
      (4, 3) to (4, 4). */
  lemma FourWayShortLine()
    ensures FourWayWires([], [Seg(4, 3, 4, 4)], [], []) == [Seg(4, 3, 4, 4)]
  {
    var s := Seg(4, 3, 4, 4);
    assert [] + [s] + [] + [] == [s];
    assert Merge.MergeColinear(Merge.ByKind, [s]) == [s];
    var r := FourWayWires([], [s], [], []);
    assert multiset(r) == multiset([s]);
    assert |r| == 1 && r[0] in multiset(r);
  }

  /** Two unconnected lines of one kind and a third of another kind are
      left apart by the four-direction merge. */
  lemma ThreeApart(t: LineSegment, b: LineSegment, r: LineSegment)
    requires KindOf(t) == KindOf(b) != KindOf(r)
    requires !ShareEndpoint(t, b) && !ShareEndpoint(b, t)
    ensures Merge.MergeColinear(Merge.ByKind, [t, b, r]) == [r, t, b]
  {
    var raw := [t, b, r];
    forall i, j | 0 <= i < 3 && 0 <= j < 3 && i != j
      ensures !Merge.Colinear(Merge.ByKind, raw[i], raw[j])
    {
      assert raw[i] in {t, b, r} && raw[j] in {t, b, r};
    }
    Merge.MergeColinearUnmergeable(Merge.ByKind, raw);
    assert raw[..2] == [t, b];
  }

  /** The four-direction analyzer does not read `o` as a terminal either,
      and the cup's three sides stay three separate lines. */
  lemma FourWayCup()
    ensures multiset(FourWayWires([CupTop, CupBottom], [CupRight], [], [])) == multiset([CupRight, CupTop, CupBottom])
  {
    assert KindOf(CupTop) == KindOf(CupBottom) != KindOf(CupRight);
    FourWayThree(CupTop, CupBottom, CupRight);
  }

  lemma FourWayThree(t: LineSegment, b: LineSegment, r: LineSegment)
    requires KindOf(t) == KindOf(b) != KindOf(r)
    requires !ShareEndpoint(t, b) && !ShareEndpoint(b, t)
    ensures multiset(FourWayWires([t, b], [r], [], [])) == multiset([r, t, b])
  {
    var h, v := [t, b], [r];
    assert h + v + [] + [] == [t, b, r];
    ThreeApart(t, b, r);
    Wires.FourWayWiresOf(h, v, [], [], [t, b, r], [r, t, b]);
  }
}

=== FILE: glyph.dfy ===
/** How each analyzer reads a character: as a line terminal, as an edge
    running along one axis, or not at all. */
module Glyphs {
  import opened Wrappers

  /** The four traversal directions. */
  datatype Axis = Horizontal | Vertical | DownRight | UpRight

  /** A terminal ends or joins lines (also called a corner); an edge
      continues a line along its axis; `End` marks the end of the input. */
  datatype Class = Term | Edge(axis: Axis) | End

  /** Four-direction analyzer, rows: `+ < >` end a line, `-` continues it. */
  function ClassifyHoriz(ch: char): Option<Class> {
    match ch
    case '+' => Some(Term)
    case '<' => Some(Term)
    case '>' => Some(Term)
    case '-' => Some(Edge(Horizontal))
    case _ => None
  }

  /** Four-direction analyzer, columns: `+ ^ v` end a line, `|` continues it. */
  function ClassifyVert(ch: char): Option<Class> {
    match ch
    case '+' => Some(Term)
    case '^' => Some(Term)
    case 'v' => Some(Term)
    case '|' => Some(Edge(Vertical))
    case _ => None
  }

  /** Four-direction analyzer, lines rising to the right: `+` and `/`. */
  function ClassifyUpRight(ch: char): Option<Class> {
    match ch
    case '+' => Some(Term)
    case '/' => Some(Edge(UpRight))
    case _ => None
  }

  /** Four-direction analyzer, lines falling to the right: `+` and `\`. */
  function ClassifyDownRight(ch: char): Option<Class> {
    match ch
    case '+' => Some(Term)
    case '\\' => Some(Edge(DownRight))
    case _ => None
  }

  /** The four-direction analyzer's classifier for each direction. */
  function ClassifierFor(axis: Axis): char -> Option<Class> {
    match axis
    case Horizontal => ClassifyHoriz
    case Vertical => ClassifyVert
    case DownRight => ClassifyDownRight
    case UpRight => ClassifyUpRight
  }

  /** Editor analyzer: `+ o < > ^ v` are terminals, `-` and `|` edges. */
  function ClassifyEditor(ch: char): Option<Class> {
    match ch
    case '+' => Some(Term)
    case 'o' => Some(Term)
    case '<' => Some(Term)
    case '>' => Some(Term)
    case '^' => Some(Term)
    case 'v' => Some(Term)
    case '-' => Some(Edge(Horizontal))
    case '|' => Some(Edge(Vertical))
    case _ => None
  }

  /** Backend analyzer: as the editor's, but `o` is not a terminal. */
  function ClassifyBackend(ch: char): Option<Class> {
    match ch
    case '+' => Some(Term)
    case '<' => Some(Term)
    case '>' => Some(Term)
    case '^' => Some(Term)
    case 'v' => Some(Term)
    case '-' => Some(Edge(Horizontal))
    case '|' => Some(Edge(Vertical))
    case _ => None
  }

  /** Oldest analyzers: only `+` is a corner; `-` and `|` are edges. */
  function ClassifyCorners(ch: char): Option<Class> {
    match ch
    case '+' => Some(Term)
    case '-' => Some(Edge(Horizontal))
    case '|' => Some(Edge(Vertical))
    case _ => None
  }

  /** How the classifiers relate: the backend's is the editor's without `o`;
      the oldest one agrees with the backend's wherever it classifies; a
      four-direction classifier only ever yields edges of its own direction,
      and its terminals are terminals for the editor too. */
  lemma ClassifiersAgree(ch: char, axis: Axis)
    ensures ClassifyBackend(ch) == (if ch == 'o' then None else ClassifyEditor(ch))
    ensures ClassifyCorners(ch).Some? ==> ClassifyBackend(ch) == ClassifyCorners(ch)
    ensures ClassifierFor(axis)(ch) == Some(Term) ==> ClassifyEditor(ch) == Some(Term)
    ensures forall a :: ClassifierFor(axis)(ch) == Some(Edge(a)) ==> a == axis
    ensures ClassifierFor(axis)(ch) != Some(End) && ClassifyEditor(ch) != Some(End)
  {
  }

  /** Only `+` is a terminal in every direction of the four-direction
      analyzer. */
  lemma PlusIsTheOnlyCommonTerminal(ch: char)
    ensures (forall axis :: ClassifierFor(axis)(ch) == Some(Term)) <==> ch == '+'
  {
    if ch != '+' {
      assert ClassifierFor(UpRight)(ch) != Some(Term);
    }
  }
}

=== FILE: iteration.dfy ===
/** The grid's traversals: row-major, column-major and the two diagonal
    orders, each yielding only the non-empty cells, and the split of the
    row-major traversal into words.

    Every traversal is a fixed order of grid positions from which the empty
    cells are dropped (`Collect`), so each is specified by its order of
    positions: which cells it visits and in which order. */
module BufferIteration {
  import opened Tc
  import opened Wrappers
  import Rect
  import opened TextBuffers

  datatype Cell = Cell(pos: TextCoordinate, ch: char)

  /** Every earlier element of `ps` comes strictly before every later one. */
  predicate Ordered(ps: seq<TextCoordinate>, before: (TextCoordinate, TextCoordinate) -> bool) {
    forall i, j :: 0 <= i < j < |ps| ==> before(ps[i], ps[j])
  }

  function Positions(cs: seq<Cell>): (ps: seq<TextCoordinate>)
    ensures |ps| == |cs|
    ensures forall i :: 0 <= i < |cs| ==> ps[i] == cs[i].pos
  {
    seq(|cs|, i requires 0 <= i < |cs| => cs[i].pos)
  }

  /** The non-empty cells at the positions `ps`, in the order of `ps`. */
  function Collect(tb: Buffer, ps: seq<TextCoordinate>): (cs: seq<Cell>)
    ensures forall c :: c in cs ==> c.pos in ps && Get(tb, c.pos) == Some(c.ch)
    ensures forall p :: p in ps && Get(tb, p).Some? ==> Cell(p, Get(tb, p).value) in cs
  {
    if |ps| == 0 then []
    else
      var rest := Collect(tb, ps[1..]);
      assert forall p :: p in ps ==> p == ps[0] || p in ps[1..];
      match Get(tb, ps[0])
      case Some(ch) => [Cell(ps[0], ch)] + rest
      case None => rest
  }

  lemma OrderedCons(p: TextCoordinate, qs: seq<TextCoordinate>, before: (TextCoordinate, TextCoordinate) -> bool)
    requires Ordered(qs, before)
    requires forall j :: 0 <= j < |qs| ==> before(p, qs[j])
    ensures Ordered([p] + qs, before)
  {
    forall i, j | 0 <= i < j < |[p] + qs|
      ensures before(([p] + qs)[i], ([p] + qs)[j])
    {
      if i > 0 {
        assert ([p] + qs)[i] == qs[i - 1];
      }
    }
  }

  /** Two ordered runs, the first wholly before the second. */
  lemma OrderedConcat(a: seq<TextCoordinate>, b: seq<TextCoordinate>, before: (TextCoordinate, TextCoordinate) -> bool)
    requires Ordered(a, before) && Ordered(b, before)
    requires forall i, j :: 0 <= i < |a| && 0 <= j < |b| ==> before(a[i], b[j])
    ensures Ordered(a + b, before)
  {
    forall i, j | 0 <= i < j < |a + b|
      ensures before((a + b)[i], (a + b)[j])
    {
      if j < |a| {
        assert (a + b)[i] == a[i] && (a + b)[j] == a[j];
      } else if i < |a| {
        assert (a + b)[i] == a[i] && (a + b)[j] == b[j - |a|];
      } else {
        assert (a + b)[i] == b[i - |a|] && (a + b)[j] == b[j - |a|];
      }
    }
  }

  lemma InConcat<T>(a: seq<T>, b: seq<T>, x: T)
    requires x in a || x in b
    ensures x in a + b
  {
    if x in a {
      var i :| 0 <= i < |a| && a[i] == x;
      assert (a + b)[i] == x;
    } else {
      var i :| 0 <= i < |b| && b[i] == x;
      assert (a + b)[|a| + i] == x;
    }
  }

  /** The tail of an ordered run is ordered, and its head comes first. */
  lemma OrderedTail(ps: seq<TextCoordinate>, before: (TextCoordinate, TextCoordinate) -> bool)
    requires Ordered(ps, before) && |ps| > 0
    ensures Ordered(ps[1..], before)
    ensures forall j :: 0 <= j < |ps[1..]| ==> before(ps[0], ps[1..][j])
  {
    var tail := ps[1..];
    forall i, j | 0 <= i < j < |tail|
      ensures before(tail[i], tail[j])
    {
      assert tail[i] == ps[i + 1] && tail[j] == ps[j + 1];
    }
    forall j | 0 <= j < |tail|
      ensures before(ps[0], tail[j])
    {
      assert tail[j] == ps[j + 1];
    }
  }

  /** Whatever precedes every position of `ps` precedes every collected one. */
  lemma CollectedAfter(tb: Buffer, p: TextCoordinate, ps: seq<TextCoordinate>, before: (TextCoordinate, TextCoordinate) -> bool)
    requires forall j :: 0 <= j < |ps| ==> before(p, ps[j])
    ensures forall j :: 0 <= j < |Positions(Collect(tb, ps))| ==> before(p, Positions(Collect(tb, ps))[j])
  {
    var cs := Collect(tb, ps);
    forall j | 0 <= j < |cs|
      ensures before(p, Positions(cs)[j])
    {
      assert cs[j] in cs;
      var k :| 0 <= k < |ps| && ps[k] == cs[j].pos;
    }
  }

  lemma CollectCons(tb: Buffer, ps: seq<TextCoordinate>)
    requires |ps| > 0
    ensures Get(tb, ps[0]).None? ==> Collect(tb, ps) == Collect(tb, ps[1..])
    ensures Get(tb, ps[0]).Some? ==> Collect(tb, ps) == [Cell(ps[0], Get(tb, ps[0]).value)] + Collect(tb, ps[1..])
  {
  }

  lemma PositionsCons(c: Cell, cs: seq<Cell>)
    ensures Positions([c] + cs) == [c.pos] + Positions(cs)
  {
    var l, r := Positions([c] + cs), [c.pos] + Positions(cs);
    forall i | 0 <= i < |l|
      ensures l[i] == r[i]
    {
      if i > 0 {
        assert ([c] + cs)[i] == cs[i - 1];
      }
    }
  }

  /** Dropping the empty cells keeps the order of the positions. */
  lemma {:induction false} CollectKeepsOrder(tb: Buffer, ps: seq<TextCoordinate>, before: (TextCoordinate, TextCoordinate) -> bool)
    requires Ordered(ps, before)
    ensures Ordered(Positions(Collect(tb, ps)), before)
  {
    if |ps| > 0 {
      var tail := ps[1..];
      OrderedTail(ps, before);
      CollectKeepsOrder(tb, tail, before);
      CollectCons(tb, ps);
      if Get(tb, ps[0]).Some? {
        var rest := Collect(tb, tail);
        CollectedAfter(tb, ps[0], tail, before);
        OrderedCons(ps[0], Positions(rest), before);
        PositionsCons(Cell(ps[0], Get(tb, ps[0]).value), rest);
      }
    }
  }

  // ---- Row-major and column-major order.

  predicate ColumnMajorBefore(p: TextCoordinate, q: TextCoordinate) {
    p.x < q.x || (p.x == q.x && p.y < q.y)
  }

  /** The cells (x, y0) .. (x, y0 + m - 1), top to bottom. */
  function ColumnCells(x: nat, y0: nat, m: nat): (s: seq<TextCoordinate>)
    ensures |s| == m
    ensures forall i :: 0 <= i < m ==> s[i] == TextCoordinate(x, y0 + i)
    decreases m
  {
    if m == 0 then [] else [TextCoordinate(x, y0)] + ColumnCells(x, y0 + 1, m - 1)
  }

  /** Columns x0 .. x0 + n - 1 of `m` cells each, column after column. */
  function ColumnsFrom(x0: nat, n: nat, m: nat): seq<TextCoordinate>
    decreases n
  {
    if n == 0 then [] else ColumnCells(x0, 0, m) + ColumnsFrom(x0 + 1, n - 1, m)
  }

  lemma {:induction false} ColumnsFromFacts(x0: nat, n: nat, m: nat)
    ensures forall p :: p in ColumnsFrom(x0, n, m) <==> x0 <= p.x < x0 + n && p.y < m
    ensures Ordered(ColumnsFrom(x0, n, m), ColumnMajorBefore)
    decreases n
  {
    if n > 0 {
      ColumnsFromFacts(x0 + 1, n - 1, m);
      var head, tail := ColumnCells(x0, 0, m), ColumnsFrom(x0 + 1, n - 1, m);
      assert ColumnsFrom(x0, n, m) == head + tail;
      forall p: TextCoordinate | x0 <= p.x < x0 + n && p.y < m
        ensures p in head + tail
      {
        if p.x == x0 {
          assert head[p.y] == p;
        } else {
          assert p in tail;
        }
      }
      forall i, j | 0 <= i < j < |head + tail|
        ensures ColumnMajorBefore((head + tail)[i], (head + tail)[j])
      {
        if i < |head| && j >= |head| {
          assert (head + tail)[j] in tail;
        }
      }
    }
  }

  /** Row-major positions of the whole grid. */
  function RowMajorPositions(tb: Buffer): (ps: seq<TextCoordinate>)
    ensures forall p :: p in ps <==> InRange(tb, p)
    ensures Ordered(ps, Rect.RowMajorBefore)
  {
    Rect.CellsFacts(0, tb.cols, 0, Rows(tb));
    Rect.Cells(0, tb.cols, 0, Rows(tb))
  }

  /** Column-major positions of the whole grid. */
  function ColumnMajorPositions(tb: Buffer): (ps: seq<TextCoordinate>)
    ensures forall p :: p in ps <==> InRange(tb, p)
    ensures Ordered(ps, ColumnMajorBefore)
  {
    ColumnsFromFacts(0, tb.cols, Rows(tb));
    ColumnsFrom(0, tb.cols, Rows(tb))
  }

  /** The non-empty cells, row by row from the top, left to right. */
  function Iter(tb: Buffer): (cs: seq<Cell>)
    ensures forall p, ch :: Cell(p, ch) in cs <==> Get(tb, p) == Some(ch)
    ensures Ordered(Positions(cs), Rect.RowMajorBefore)
  {
    var ps := RowMajorPositions(tb);
    CollectKeepsOrder(tb, ps, Rect.RowMajorBefore);
    Collect(tb, ps)
  }

  /** The non-empty cells, column by column from the left, top to bottom. */
  function IterVert(tb: Buffer): (cs: seq<Cell>)
    ensures forall p, ch :: Cell(p, ch) in cs <==> Get(tb, p) == Some(ch)
    ensures Ordered(Positions(cs), ColumnMajorBefore)
  {
    var ps := ColumnMajorPositions(tb);
    CollectKeepsOrder(tb, ps, ColumnMajorBefore);
    Collect(tb, ps)
  }

  // ---- Diagonal orders.

  /** The down-right diagonal a cell lies on: diagonals starting in the first
      column come first, top to bottom, then those starting in the first row,
      left to right. */
  function DownRightIndex(rows: nat, p: TextCoordinate): int {
    if p.y >= p.x then p.y - p.x else rows - 1 + (p.x - p.y)
  }

  predicate DownRightBefore(rows: nat, p: TextCoordinate, q: TextCoordinate) {
    DownRightIndex(rows, p) < DownRightIndex(rows, q)
    || (DownRightIndex(rows, p) == DownRightIndex(rows, q) && p.x < q.x)
  }

  /** From (x, y) down and to the right while inside a rows by cols grid. */
  function WalkDownRight(rows: nat, cols: nat, x: nat, y: nat): (s: seq<TextCoordinate>)
    ensures forall p :: p in s ==> p.x < cols && p.y < rows && p.x >= x && p.y - p.x == y - x
    ensures forall i, j :: 0 <= i < j < |s| ==> s[i].x < s[j].x
    decreases cols - x
  {
    if x < cols && y < rows then [TextCoordinate(x, y)] + WalkDownRight(rows, cols, x + 1, y + 1) else []
  }

  lemma {:induction false} WalkDownRightContains(rows: nat, cols: nat, x: nat, y: nat, p: TextCoordinate)
    requires x <= p.x < cols && p.y < rows && p.y - p.x == y - x
    ensures p in WalkDownRight(rows, cols, x, y)
    decreases p.x - x
  {
    var rest := WalkDownRight(rows, cols, x + 1, y + 1);
    WalkDownRightHead(rows, cols, x, y);
    if p.x == x {
      assert p == TextCoordinate(x, y);
    } else {
      WalkDownRightContains(rows, cols, x + 1, y + 1, p);
    }
    InConcat([TextCoordinate(x, y)], rest, p);
  }

  lemma WalkDownRightHead(rows: nat, cols: nat, x: nat, y: nat)
    requires x < cols && y < rows
    ensures WalkDownRight(rows, cols, x, y) == [TextCoordinate(x, y)] + WalkDownRight(rows, cols, x + 1, y + 1)
  {
  }

  /** The starting cells of the down-right diagonals: the first column top
      to bottom, then the first row from its second cell. */
  function DownRightStarts(rows: nat, cols: nat): (s: seq<TextCoordinate>)
    ensures forall i :: 0 <= i < |s| ==> DownRightIndex(rows, s[i]) == i
    ensures forall i :: 0 <= i < |s| ==> s[i].x == 0 || s[i].y == 0
  {
    seq(rows, (r: int) requires 0 <= r => TextCoordinate(0, r)) + seq(if cols > 0 then cols - 1 else 0, (c: int) requires 0 <= c => TextCoordinate(c + 1, 0))
  }

  function WalksDownRight(rows: nat, cols: nat, starts: seq<TextCoordinate>): seq<TextCoordinate> {
    if |starts| == 0 then []
    else WalkDownRight(rows, cols, starts[0].x, starts[0].y) + WalksDownRight(rows, cols, starts[1..])
  }

  /** One down-right diagonal from a border cell stays on that diagonal,
      left to right. */
  lemma WalkDownRightDiag(rows: nat, cols: nat, s: TextCoordinate)
    requires s.x == 0 || s.y == 0
    ensures forall p :: p in WalkDownRight(rows, cols, s.x, s.y) ==> DownRightIndex(rows, p) == DownRightIndex(rows, s)
    ensures Ordered(WalkDownRight(rows, cols, s.x, s.y), (p, q) => DownRightBefore(rows, p, q))
  {
    var w := WalkDownRight(rows, cols, s.x, s.y);
    forall i, j | 0 <= i < j < |w|
      ensures DownRightBefore(rows, w[i], w[j])
    {
      assert w[i] in w && w[j] in w;
    }
  }

  lemma {:induction false} WalksDownRightFacts(rows: nat, cols: nat, starts: seq<TextCoordinate>, base: nat)
    requires forall i :: 0 <= i < |starts| ==> DownRightIndex(rows, starts[i]) == base + i
    requires forall i :: 0 <= i < |starts| ==> starts[i].x == 0 || starts[i].y == 0
    ensures forall p :: p in WalksDownRight(rows, cols, starts) ==>
      p.x < cols && p.y < rows && base <= DownRightIndex(rows, p) < base + |starts|
    ensures Ordered(WalksDownRight(rows, cols, starts), (p, q) => DownRightBefore(rows, p, q))
  {
    if |starts| > 0 {
      var rest := starts[1..];
      forall i | 0 <= i < |rest|
        ensures DownRightIndex(rows, rest[i]) == base + 1 + i && (rest[i].x == 0 || rest[i].y == 0)
      {
        assert rest[i] == starts[i + 1];
      }
      WalksDownRightFacts(rows, cols, rest, base + 1);
      var s := starts[0];
      var head := WalkDownRight(rows, cols, s.x, s.y);
      var tail := WalksDownRight(rows, cols, rest);
      WalkDownRightDiag(rows, cols, s);
      forall i, j | 0 <= i < |head| && 0 <= j < |tail|
        ensures DownRightBefore(rows, head[i], tail[j])
      {
        assert head[i] in head && tail[j] in tail;
      }
      OrderedConcat(head, tail, (p, q) => DownRightBefore(rows, p, q));
    }
  }

  lemma {:induction false} WalksDownRightCover(rows: nat, cols: nat, starts: seq<TextCoordinate>, k: nat, p: TextCoordinate)
    requires k < |starts| && p.x < cols && p.y < rows
    requires p.x >= starts[k].x && p.y - p.x == starts[k].y - starts[k].x
    ensures p in WalksDownRight(rows, cols, starts)
    decreases k
  {
    if k == 0 {
      WalksDownRightCoverFirst(rows, cols, starts, p);
    } else {
      assert starts[1..][k - 1] == starts[k];
      WalksDownRightCover(rows, cols, starts[1..], k - 1, p);
      WalksDownRightLater(rows, cols, starts, p);
    }
  }

  lemma WalksDownRightCoverFirst(rows: nat, cols: nat, starts: seq<TextCoordinate>, p: TextCoordinate)
    requires |starts| > 0 && p.x < cols && p.y < rows
    requires p.x >= starts[0].x && p.y - p.x == starts[0].y - starts[0].x
    ensures p in WalksDownRight(rows, cols, starts)
  {
    WalkDownRightContains(rows, cols, starts[0].x, starts[0].y, p);
    WalksDownRightFirst(rows, cols, starts, p);
  }

  lemma WalksDownRightFirst(rows: nat, cols: nat, starts: seq<TextCoordinate>, p: TextCoordinate)
    requires |starts| > 0 && p in WalkDownRight(rows, cols, starts[0].x, starts[0].y)
    ensures p in WalksDownRight(rows, cols, starts)
  {
    InConcat(WalkDownRight(rows, cols, starts[0].x, starts[0].y), WalksDownRight(rows, cols, starts[1..]), p);
  }

  lemma WalksDownRightLater(rows: nat, cols: nat, starts: seq<TextCoordinate>, p: TextCoordinate)
    requires |starts| > 0 && p in WalksDownRight(rows, cols, starts[1..])
    ensures p in WalksDownRight(rows, cols, starts)
  {
    InConcat(WalkDownRight(rows, cols, starts[0].x, starts[0].y), WalksDownRight(rows, cols, starts[1..]), p);
  }

  /** Every grid position, diagonal by diagonal in the down-right direction. */
  function DownRightPositions(tb: Buffer): (ps: seq<TextCoordinate>)
    ensures forall p :: p in ps <==> InRange(tb, p)
    ensures Ordered(ps, (p, q) => DownRightBefore(Rows(tb), p, q))
  {
    var rows, cols := Rows(tb), tb.cols;
    var starts := DownRightStarts(rows, cols);
    WalksDownRightFacts(rows, cols, starts, 0);
    forall p | InRange(tb, p)
      ensures p in WalksDownRight(rows, cols, starts)
    {
      var k := DownRightIndex(rows, p);
      assert 0 <= k < |starts|;
      WalksDownRightCover(rows, cols, starts, k, p);
    }
    WalksDownRight(rows, cols, starts)
  }

  /** The non-empty cells along the down-right diagonals. */
  function IterDiagDownRight(tb: Buffer): (cs: seq<Cell>)
    ensures forall p, ch :: Cell(p, ch) in cs <==> Get(tb, p) == Some(ch)
    ensures Ordered(Positions(cs), (p, q) => DownRightBefore(Rows(tb), p, q))
  {
    var ps := DownRightPositions(tb);
    CollectKeepsOrder(tb, ps, (p, q) => DownRightBefore(Rows(tb), p, q));
    Collect(tb, ps)
  }

  /** Up-right diagonals are numbered by x + y; along one, x increases. */
  predicate UpRightBefore(p: TextCoordinate, q: TextCoordinate) {
    p.x + p.y < q.x + q.y || (p.x + p.y == q.x + q.y && p.x < q.x)
  }

  /** From (x, y) up and to the right while inside a rows by cols grid. */
  function WalkUpRight(rows: nat, cols: nat, x: nat, y: nat): (s: seq<TextCoordinate>)
    ensures forall p :: p in s ==> p.x < cols && p.y < rows && p.x >= x && p.x + p.y == x + y
    ensures forall i, j :: 0 <= i < j < |s| ==> s[i].x < s[j].x
    decreases y
  {
    if x < cols && y < rows then [TextCoordinate(x, y)] + (if y > 0 then WalkUpRight(rows, cols, x + 1, y - 1) else [])
    else []
  }

  lemma {:induction false} WalkUpRightContains(rows: nat, cols: nat, x: nat, y: nat, p: TextCoordinate)
    requires x <= p.x < cols && y < rows && p.x + p.y == x + y
    ensures p in WalkUpRight(rows, cols, x, y)
    decreases p.x - x
  {
    var rest := if y > 0 then WalkUpRight(rows, cols, x + 1, y - 1) else [];
    WalkUpRightHead(rows, cols, x, y);
    if p.x == x {
      assert p == TextCoordinate(x, y);
    } else {
      WalkUpRightContains(rows, cols, x + 1, y - 1, p);
    }
    InConcat([TextCoordinate(x, y)], rest, p);
  }

  lemma WalkUpRightHead(rows: nat, cols: nat, x: nat, y: nat)
    requires x < cols && y < rows
    ensures WalkUpRight(rows, cols, x, y) == [TextCoordinate(x, y)] + (if y > 0 then WalkUpRight(rows, cols, x + 1, y - 1) else [])
  {
  }

  /** The starting cells of the up-right diagonals: the first column top to
      bottom, then the last row from its second cell. */
  function UpRightStarts(rows: nat, cols: nat): (s: seq<TextCoordinate>)
    requires rows > 0
    ensures forall i :: 0 <= i < |s| ==> s[i].x + s[i].y == i
    ensures forall i :: 0 <= i < |s| ==> s[i].x == 0 || s[i].y == rows - 1
  {
    seq(rows, (r: int) requires 0 <= r => TextCoordinate(0, r)) + seq(if cols > 0 then cols - 1 else 0, (c: int) requires 0 <= c => TextCoordinate(c + 1, rows - 1))
  }

  function WalksUpRight(rows: nat, cols: nat, starts: seq<TextCoordinate>): seq<TextCoordinate> {
    if |starts| == 0 then []
    else WalkUpRight(rows, cols, starts[0].x, starts[0].y) + WalksUpRight(rows, cols, starts[1..])
  }

  /** One up-right diagonal stays on its anti-diagonal, left to right. */
  lemma WalkUpRightDiag(rows: nat, cols: nat, s: TextCoordinate)
    ensures forall p :: p in WalkUpRight(rows, cols, s.x, s.y) ==> p.x + p.y == s.x + s.y
    ensures Ordered(WalkUpRight(rows, cols, s.x, s.y), UpRightBefore)
  {
    var w := WalkUpRight(rows, cols, s.x, s.y);
    forall i, j | 0 <= i < j < |w|
      ensures UpRightBefore(w[i], w[j])
    {
      assert w[i] in w && w[j] in w;
    }
  }

  lemma {:induction false} WalksUpRightFacts(rows: nat, cols: nat, starts: seq<TextCoordinate>, base: nat)
    requires forall i :: 0 <= i < |starts| ==> starts[i].x + starts[i].y == base + i
    ensures forall p :: p in WalksUpRight(rows, cols, starts) ==>
      p.x < cols && p.y < rows && base <= p.x + p.y < base + |starts|
    ensures Ordered(WalksUpRight(rows, cols, starts), UpRightBefore)
  {
    if |starts| > 0 {
      var rest := starts[1..];
      forall i | 0 <= i < |rest|
        ensures rest[i].x + rest[i].y == base + 1 + i
      {
        assert rest[i] == starts[i + 1];
      }
      WalksUpRightFacts(rows, cols, rest, base + 1);
      var s := starts[0];
      var head := WalkUpRight(rows, cols, s.x, s.y);
      var tail := WalksUpRight(rows, cols, rest);
      WalkUpRightDiag(rows, cols, s);
      forall i, j | 0 <= i < |head| && 0 <= j < |tail|
        ensures UpRightBefore(head[i], tail[j])
      {
        assert head[i] in head && tail[j] in tail;
      }
      OrderedConcat(head, tail, UpRightBefore);
    }
  }

  lemma {:induction false} WalksUpRightCover(rows: nat, cols: nat, starts: seq<TextCoordinate>, k: nat, p: TextCoordinate)
    requires k < |starts| && p.x < cols && p.y < rows && starts[k].y < rows
    requires p.x >= starts[k].x && p.x + p.y == starts[k].x + starts[k].y
    ensures p in WalksUpRight(rows, cols, starts)
    decreases k
  {
    if k == 0 {
      WalksUpRightCoverFirst(rows, cols, starts, p);
    } else {
      assert starts[1..][k - 1] == starts[k];
      WalksUpRightCover(rows, cols, starts[1..], k - 1, p);
      WalksUpRightLater(rows, cols, starts, p);
    }
  }

  lemma WalksUpRightCoverFirst(rows: nat, cols: nat, starts: seq<TextCoordinate>, p: TextCoordinate)
    requires |starts| > 0 && p.x < cols && p.y < rows && starts[0].y < rows
    requires p.x >= starts[0].x && p.x + p.y == starts[0].x + starts[0].y
    ensures p in WalksUpRight(rows, cols, starts)
  {
    WalkUpRightContains(rows, cols, starts[0].x, starts[0].y, p);
    WalksUpRightFirst(rows, cols, starts, p);
  }

  lemma WalksUpRightFirst(rows: nat, cols: nat, starts: seq<TextCoordinate>, p: TextCoordinate)
    requires |starts| > 0 && p in WalkUpRight(rows, cols, starts[0].x, starts[0].y)
    ensures p in WalksUpRight(rows, cols, starts)
  {
    InConcat(WalkUpRight(rows, cols, starts[0].x, starts[0].y), WalksUpRight(rows, cols, starts[1..]), p);
  }

  lemma WalksUpRightLater(rows: nat, cols: nat, starts: seq<TextCoordinate>, p: TextCoordinate)
    requires |starts| > 0 && p in WalksUpRight(rows, cols, starts[1..])
    ensures p in WalksUpRight(rows, cols, starts)
  {
    InConcat(WalkUpRight(rows, cols, starts[0].x, starts[0].y), WalksUpRight(rows, cols, starts[1..]), p);
  }

  /** Every grid position, anti-diagonal by anti-diagonal, each walked from
      bottom-left to top-right.  A grid without rows has no positions. */
  function UpRightPositions(tb: Buffer): (ps: seq<TextCoordinate>)
    ensures forall p :: p in ps <==> InRange(tb, p)
    ensures Ordered(ps, UpRightBefore)
  {
    var rows, cols := Rows(tb), tb.cols;
    if rows == 0 then []
    else
      var starts := UpRightStarts(rows, cols);
      WalksUpRightFacts(rows, cols, starts, 0);
      assert forall p :: InRange(tb, p) ==> p in WalksUpRight(rows, cols, starts) by {
        forall p | InRange(tb, p)
          ensures p in WalksUpRight(rows, cols, starts)
        {
          var k := p.x + p.y;
          assert k < |starts|;
          WalksUpRightCover(rows, cols, starts, k, p);
        }
      }
      WalksUpRight(rows, cols, starts)
  }

  /** The non-empty cells along the up-right diagonals. */
  function IterDiagUpRight(tb: Buffer): (cs: seq<Cell>)
    ensures forall p, ch :: Cell(p, ch) in cs <==> Get(tb, p) == Some(ch)
    ensures Ordered(Positions(cs), UpRightBefore)
  {
    var ps := UpRightPositions(tb);
    CollectKeepsOrder(tb, ps, UpRightBefore);
    Collect(tb, ps)
  }

  // ---- Words.

  /** A word: a maximal run of horizontally adjacent non-empty cells. */
  datatype Word = Word(start: TextCoordinate, text: string)

  /** `pos` is the cell just right of `prev`. */
  predicate Adjacent(prev: TextCoordinate, pos: TextCoordinate) {
    pos.y == prev.y && prev.x + 1 == pos.x
  }

  function Chars(cs: seq<Cell>): (s: string)
    ensures |s| == |cs|
    ensures forall i :: 0 <= i < |cs| ==> s[i] == cs[i].ch
  {
    seq(|cs|, i requires 0 <= i < |cs| => cs[i].ch)
  }

  function Texts(ws: seq<Word>): string {
    if |ws| == 0 then [] else ws[0].text + Texts(ws[1..])
  }

  /** Length of the run of adjacent cells at the front of `cs`. */
  function RunLength(cs: seq<Cell>): (n: nat)
    ensures |cs| > 0 ==> 1 <= n <= |cs|
    ensures |cs| == 0 ==> n == 0
  {
    if |cs| <= 1 then |cs|
    else if Adjacent(cs[0].pos, cs[1].pos) then 1 + RunLength(cs[1..])
    else 1
  }

  /** The reference grouping: split the cells into maximal adjacent runs. */
  function Group(cs: seq<Cell>): seq<Word>
    decreases |cs|
  {
    if |cs| == 0 then []
    else
      var n := RunLength(cs);
      [Word(cs[0].pos, Chars(cs[..n]))] + Group(cs[n..])
  }

  /** Number of consecutive pairs that are not adjacent. */
  function Breaks(cs: seq<Cell>): nat {
    if |cs| <= 1 then 0
    else (if Adjacent(cs[0].pos, cs[1].pos) then 0 else 1) + Breaks(cs[1..])
  }

  /** The variables of the word scanner: where the previous character was,
      where the current word started, and the word's text so far. */
  datatype WordState = WordState(prev: Option<TextCoordinate>, start: Option<TextCoordinate>, buffer: string)

  /** The word scanner fed with `cs` from state `st`.  A character next to
      the previous one extends the word; any other character yields the word
      so far and starts a new one; at the end a non-empty word is yielded.
      Yielding nothing ends the sequence of words. */
  function Scan(st: WordState, cs: seq<Cell>): seq<Word>
    decreases |cs|
  {
    if |cs| == 0 then
      if st.buffer != [] then (match st.start case Some(l) => [Word(l, st.buffer)] case None => [])
      else []
    else
      var c := cs[0];
      match st.prev
      case None => Scan(WordState(Some(c.pos), Some(c.pos), st.buffer + [c.ch]), cs[1..])
      case Some(prev) =>
        if Adjacent(prev, c.pos) then Scan(WordState(Some(c.pos), st.start, st.buffer + [c.ch]), cs[1..])
        else
          match st.start
          case Some(l) => [Word(l, st.buffer)] + Scan(WordState(Some(c.pos), Some(c.pos), [c.ch]), cs[1..])
          case None => []
  }

  /** In the middle of a word whose last character is `cs[0]`, the scanner
      finishes that word with the rest of the run and then groups the rest. */
  lemma {:induction false} ScanContinues(l: TextCoordinate, buf: string, cs: seq<Cell>)
    requires |cs| > 0 && buf != []
    ensures Scan(WordState(Some(cs[0].pos), Some(l), buf), cs[1..])
         == [Word(l, buf + Chars(cs[1..RunLength(cs)]))] + Group(cs[RunLength(cs)..])
    decreases |cs|
  {
    var n := RunLength(cs);
    if |cs| == 1 {
      assert Chars(cs[1..n]) == [] && buf + [] == buf;
      assert cs[n..] == [] && Group([]) == [];
      assert Scan(WordState(Some(cs[0].pos), Some(l), buf), cs[1..]) == [Word(l, buf)];
    } else if Adjacent(cs[0].pos, cs[1].pos) {
      ScanExtends(l, buf, cs);
    } else {
      ScanBreaks(l, buf, cs);
    }
  }

  lemma {:induction false} ScanExtends(l: TextCoordinate, buf: string, cs: seq<Cell>)
    requires |cs| > 1 && buf != [] && Adjacent(cs[0].pos, cs[1].pos)
    ensures Scan(WordState(Some(cs[0].pos), Some(l), buf), cs[1..])
         == [Word(l, buf + Chars(cs[1..RunLength(cs)]))] + Group(cs[RunLength(cs)..])
    decreases |cs|, 0
  {
    var n := RunLength(cs);
    var tail := cs[1..];
    var m := RunLength(tail);
    assert tail[1..] == cs[2..];
    var buf' := buf + [cs[1].ch];
    assert Scan(WordState(Some(cs[0].pos), Some(l), buf), tail)
        == Scan(WordState(Some(tail[0].pos), Some(l), buf'), tail[1..]);
    ScanContinues(l, buf', tail);
    assert n == 1 + m;
    assert tail[m..] == cs[n..];
    assert Chars(cs[1..n]) == [cs[1].ch] + Chars(tail[1..m]);
    assert buf' + Chars(tail[1..m]) == buf + Chars(cs[1..n]);
  }

  lemma {:induction false} ScanBreaks(l: TextCoordinate, buf: string, cs: seq<Cell>)
    requires |cs| > 1 && buf != [] && !Adjacent(cs[0].pos, cs[1].pos)
    ensures Scan(WordState(Some(cs[0].pos), Some(l), buf), cs[1..])
         == [Word(l, buf + Chars(cs[1..RunLength(cs)]))] + Group(cs[RunLength(cs)..])
    decreases |cs|, 0
  {
    var tail := cs[1..];
    var m := RunLength(tail);
    assert tail[1..] == cs[2..];
    assert Scan(WordState(Some(cs[0].pos), Some(l), buf), tail)
        == [Word(l, buf)] + Scan(WordState(Some(tail[0].pos), Some(tail[0].pos), [tail[0].ch]), tail[1..]);
    ScanContinues(tail[0].pos, [tail[0].ch], tail);
    assert RunLength(cs) == 1;
    assert Chars(cs[1..1]) == [];
    assert buf + [] == buf;
    assert [tail[0].ch] + Chars(tail[1..m]) == Chars(tail[..m]);
    assert Group(tail) == [Word(tail[0].pos, Chars(tail[..m]))] + Group(tail[m..]);
  }

  /** The scanner started from its initial state yields exactly the maximal
      runs of adjacent cells. */
  lemma ScanIsGroup(cs: seq<Cell>)
    ensures Scan(WordState(None, None, []), cs) == Group(cs)
  {
    if |cs| > 0 {
      var n := RunLength(cs);
      assert [] + [cs[0].ch] == [cs[0].ch];
      assert Scan(WordState(None, None, []), cs) == Scan(WordState(Some(cs[0].pos), Some(cs[0].pos), [cs[0].ch]), cs[1..]);
      ScanContinues(cs[0].pos, [cs[0].ch], cs);
      assert [cs[0].ch] + Chars(cs[1..n]) == Chars(cs[..n]);
    }
  }

  /** The words of the grid, read in row-major order. */
  function Words(tb: Buffer): (ws: seq<Word>)
    ensures ws == Group(Iter(tb))
  {
    ScanIsGroup(Iter(tb));
    Scan(WordState(None, None, []), Iter(tb))
  }

  /** Grouping loses and invents no character, makes no empty word, starts
      every word at a cell, and makes one word more than there are breaks. */
  lemma GroupFacts(cs: seq<Cell>)
    ensures Texts(Group(cs)) == Chars(cs)
    ensures forall w :: w in Group(cs) ==> w.text != [] && exists c :: c in cs && c.pos == w.start
    ensures |cs| > 0 ==> |Group(cs)| == 1 + Breaks(cs)
  {
    GroupTexts(cs);
    GroupWords(cs);
    GroupCount(cs);
  }

  lemma {:induction false} GroupTexts(cs: seq<Cell>)
    ensures Texts(Group(cs)) == Chars(cs)
    decreases |cs|
  {
    if |cs| > 0 {
      var n := RunLength(cs);
      var w := Word(cs[0].pos, Chars(cs[..n]));
      GroupTexts(cs[n..]);
      assert Group(cs) == [w] + Group(cs[n..]);
      assert ([w] + Group(cs[n..]))[1..] == Group(cs[n..]);
      assert Chars(cs) == Chars(cs[..n]) + Chars(cs[n..]);
    }
  }

  lemma {:induction false} GroupWords(cs: seq<Cell>)
    ensures forall w :: w in Group(cs) ==> w.text != [] && exists c :: c in cs && c.pos == w.start
    decreases |cs|
  {
    if |cs| > 0 {
      var n := RunLength(cs);
      GroupWords(cs[n..]);
      assert Group(cs) == [Word(cs[0].pos, Chars(cs[..n]))] + Group(cs[n..]);
      assert cs[0] in cs;
      forall w | w in Group(cs[n..])
        ensures exists c :: c in cs && c.pos == w.start
      {
        var c :| c in cs[n..] && c.pos == w.start;
        assert c in cs;
      }
    }
  }

  lemma {:induction false} GroupCount(cs: seq<Cell>)
    ensures |cs| > 0 ==> |Group(cs)| == 1 + Breaks(cs)
    decreases |cs|
  {
    if |cs| > 0 {
      var n := RunLength(cs);
      GroupCount(cs[n..]);
      assert |Group(cs)| == 1 + |Group(cs[n..])|;
      BreaksAfterRun(cs);
    }
  }

  lemma {:induction false} BreaksAfterRun(cs: seq<Cell>)
    requires |cs| > 0
    ensures Breaks(cs) == (if RunLength(cs) < |cs| then 1 else 0) + Breaks(cs[RunLength(cs)..])
             && (RunLength(cs) < |cs| ==> Group(cs[RunLength(cs)..]) != [])
    decreases |cs|
  {
    if |cs| > 1 && Adjacent(cs[0].pos, cs[1].pos) {
      BreaksAfterRun(cs[1..]);
      assert cs[1..][RunLength(cs[1..])..] == cs[RunLength(cs)..];
    }
  }

  /** Every consecutive pair of `r` is adjacent. */
  predicate IsRun(r: seq<Cell>) {
    forall i :: 0 < i < |r| ==> Adjacent(r[i - 1].pos, r[i].pos)
  }

  /** A run of adjacent cells is one word. */
  lemma {:induction false} GroupOfRun(r: seq<Cell>)
    requires |r| > 0 && IsRun(r)
    ensures Group(r) == [Word(r[0].pos, Chars(r))]
  {
    RunLengthOfRun(r);
    assert r[..|r|] == r;
    assert r[|r|..] == [];
  }

  lemma {:induction false} RunLengthOfRun(r: seq<Cell>)
    requires |r| > 0 && IsRun(r)
    ensures RunLength(r) == |r|
    decreases |r|
  {
    if |r| > 1 {
      assert Adjacent(r[0].pos, r[1].pos);
      RunLengthOfRun(r[1..]);
    }
  }

  /** Words never span a break: grouping distributes over a concatenation
      whose seam is not adjacent. */
  lemma {:induction false} GroupSplit(a: seq<Cell>, b: seq<Cell>)
    requires |a| > 0 && |b| > 0 && !Adjacent(a[|a| - 1].pos, b[0].pos)
    ensures Group(a + b) == Group(a) + Group(b)
    decreases |a|
  {
    var n := RunLength(a);
    RunLengthSplit(a, b);
    if n < |a| {
      var rest := a[n..];
      assert rest[|rest| - 1] == a[|a| - 1];
      GroupSplit(rest, b);
    }
    GroupSplitStep(a, b, n);
  }

  /** The first word of `a + b` is the first word of `a`, and after it come
      the rest of `a` and `b`. */
  lemma GroupSplitStep(a: seq<Cell>, b: seq<Cell>, n: nat)
    requires |a| > 0 && n == RunLength(a) && RunLength(a + b) == n
    requires n < |a| ==> Group(a[n..] + b) == Group(a[n..]) + Group(b)
    ensures Group(a + b) == Group(a) + Group(b)
  {
    if n == |a| {
      assert a == a + [];
      GroupCons(a, a, []);
      GroupCons(a + b, a, b);
    } else {
      var pre, ra := a[..n], a[n..];
      ConcatAt(a, b, n);
      GroupCons(a, pre, ra);
      GroupCons(a + b, pre, ra + b);
      WordsAssoc(Word(pre[0].pos, Chars(pre)), Group(a), Group(a + b), Group(ra), Group(b));
    }
  }

  /** Prefixing one word distributes over a concatenation. */
  lemma WordsAssoc(w: Word, ga: seq<Word>, gab: seq<Word>, gr: seq<Word>, gb: seq<Word>)
    requires ga == [w] + gr && gab == [w] + (gr + gb)
    ensures gab == ga + gb
  {
  }

  /** Cutting `a` at `n` and appending `b` to the second part. */
  lemma ConcatAt<T>(a: seq<T>, b: seq<T>, n: nat)
    requires n <= |a|
    ensures a == a[..n] + a[n..] && a + b == a[..n] + (a[n..] + b)
  {
  }

  /** The first word of `cs` is its first run `pre`; the rest follows. */
  lemma GroupCons(cs: seq<Cell>, pre: seq<Cell>, rest: seq<Cell>)
    requires cs == pre + rest && |pre| > 0 && |pre| == RunLength(cs)
    ensures Group(cs) == [Word(pre[0].pos, Chars(pre))] + Group(rest)
  {
    assert cs[..|pre|] == pre;
    assert cs[|pre|..] == rest;
  }

  lemma {:induction false} RunLengthSplit(a: seq<Cell>, b: seq<Cell>)
    requires |a| > 0 && |b| > 0 && !Adjacent(a[|a| - 1].pos, b[0].pos)
    ensures RunLength(a + b) == RunLength(a)
    decreases |a|
  {
    if |a| == 1 {
      assert (a + b)[1] == b[0];
    } else {
      assert (a + b)[1..] == a[1..] + b;
      assert (a + b)[1] == a[1];
      RunLengthSplit(a[1..], b);
    }
  }

  /** The cells of `text` written left to right from (x, y). */
  function Row(x: nat, y: nat, text: string): (r: seq<Cell>)
    ensures |r| == |text| && IsRun(r) && Chars(r) == text
    ensures |r| > 0 ==> r[0].pos == TextCoordinate(x, y) && r[|r| - 1].pos == TextCoordinate(x + |r| - 1, y)
  {
    seq(|text|, i requires 0 <= i < |text| => Cell(TextCoordinate(x + i, y), text[i]))
  }

  /** Two words written on one line, with a gap between them, stay apart. */
  lemma GroupRows(a: seq<Cell>, x: nat, y: nat, text: string)
    requires |a| > 0 && |text| > 0 && !Adjacent(a[|a| - 1].pos, TextCoordinate(x, y))
    ensures Group(a + Row(x, y, text)) == Group(a) + [Word(TextCoordinate(x, y), text)]
  {
    GroupSplit(a, Row(x, y, text));
    GroupOfRun(Row(x, y, text));
  }

  /** The words of the two-line example "a bad" / "    ay  at_the office"
      pasted at column 1, row 2: five runs separated by gaps. */
  lemma WordsExample()
    ensures Scan(WordState(None, None, []),
                 Row(1, 2, "a") + Row(3, 2, "bad") + Row(5, 3, "ay") + Row(9, 3, "at_the") + Row(16, 3, "office"))
         == [Word(TextCoordinate(1, 2), "a"), Word(TextCoordinate(3, 2), "bad"), Word(TextCoordinate(5, 3), "ay"),
             Word(TextCoordinate(9, 3), "at_the"), Word(TextCoordinate(16, 3), "office")]
  {
    var a1 := Row(1, 2, "a");
    var a2 := a1 + Row(3, 2, "bad");
    var a3 := a2 + Row(5, 3, "ay");
    var a4 := a3 + Row(9, 3, "at_the");
    var a5 := a4 + Row(16, 3, "office");
    GroupOfRun(a1);
    GroupRows(a1, 3, 2, "bad");
    GroupRows(a2, 5, 3, "ay");
    GroupRows(a3, 9, 3, "at_the");
    GroupRows(a4, 16, 3, "office");
    ScanIsGroup(a5);
  }
}

=== FILE: merge.dfy ===
/** Merging colinear segments: each segment is folded into the first
    earlier result it is colinear with (extending that result), or appended
    when there is none.  The four-direction analyzer uses the kind rule and
    kind-aware extension, the two-axis analyzers the axis rule and the plain
    span. */
module Merge {
  import Tc
  import opened Segments

  datatype Rule = ByKind | ByAxis

  predicate Colinear(rule: Rule, a: LineSegment, b: LineSegment) {
    match rule
    case ByKind => ColinearByKind(a, b)
    case ByAxis => ColinearByAxis(a, b)
  }

  function Extend(rule: Rule, a: LineSegment, b: LineSegment): (r: LineSegment)
    requires Colinear(rule, a, b)
    ensures Within(a, r) && Within(b, r)
  {
    match rule
    case ByKind => ExtendByKind(a, b)
    case ByAxis => ExtendByAxis(a, b)
  }

  /** `s` lies within some element of `segs`. */
  predicate Covered(s: LineSegment, segs: seq<LineSegment>) {
    exists j :: 0 <= j < |segs| && Within(s, segs[j])
  }

  /** Fold `s` into `segs`: extend the first colinear element, else append. */
  function MergeInto(rule: Rule, segs: seq<LineSegment>, s: LineSegment): (r: seq<LineSegment>)
    ensures |segs| <= |r| <= |segs| + 1
    ensures |r| == |segs| + 1 <==> forall j :: 0 <= j < |segs| ==> !Colinear(rule, segs[j], s)
  {
    if |segs| == 0 then [s]
    else if Colinear(rule, segs[0], s) then [Extend(rule, segs[0], s)] + segs[1..]
    else [segs[0]] + MergeInto(rule, segs[1..], s)
  }

  /** The first element of `segs` colinear with `s` is at `j`. */
  predicate FirstColinear(rule: Rule, segs: seq<LineSegment>, s: LineSegment, j: int) {
    0 <= j < |segs| && Colinear(rule, segs[j], s)
    && forall m :: 0 <= m < j ==> !Colinear(rule, segs[m], s)
  }

  lemma {:induction false} MergeIntoAppends(rule: Rule, segs: seq<LineSegment>, s: LineSegment)
    requires forall j :: 0 <= j < |segs| ==> !Colinear(rule, segs[j], s)
    ensures MergeInto(rule, segs, s) == segs + [s]
  {
    if |segs| > 0 {
      var tail := segs[1..];
      forall j | 0 <= j < |tail|
        ensures !Colinear(rule, tail[j], s)
      {
        assert tail[j] == segs[j + 1];
      }
      MergeIntoAppends(rule, tail, s);
      assert !Colinear(rule, segs[0], s);
      assert MergeInto(rule, segs, s) == [segs[0]] + MergeInto(rule, tail, s);
      assert [segs[0]] + (tail + [s]) == ([segs[0]] + tail) + [s];
      assert [segs[0]] + tail == segs;
    }
  }

  /** Past a first element not colinear with `s`, folding recurses on the
      rest. */
  lemma MergeIntoSkip(rule: Rule, segs: seq<LineSegment>, s: LineSegment)
    requires |segs| > 0 && !Colinear(rule, segs[0], s)
    ensures MergeInto(rule, segs, s) == [segs[0]] + MergeInto(rule, segs[1..], s)
  {
  }

  lemma FirstColinearTail(rule: Rule, segs: seq<LineSegment>, s: LineSegment, j: int)
    requires FirstColinear(rule, segs, s, j) && j > 0
    ensures FirstColinear(rule, segs[1..], s, j - 1)
    ensures !Colinear(rule, segs[0], s) && segs[1..][j - 1] == segs[j]
  {
    var tail := segs[1..];
    forall m | 0 <= m < j - 1
      ensures !Colinear(rule, tail[m], s)
    {
      assert tail[m] == segs[m + 1];
    }
  }

  /** Replacing element `j` of `segs` is keeping its head and replacing
      element `j - 1` of its tail. */
  lemma ReplaceCons<T>(segs: seq<T>, e: T, j: int, rt: seq<T>)
    requires 0 < j < |segs| && rt == segs[1..][..j - 1] + [e] + segs[1..][j..]
    ensures [segs[0]] + rt == segs[..j] + [e] + segs[j + 1..]
  {
    assert segs[1..][..j - 1] == segs[1..j];
    assert segs[1..][j..] == segs[j + 1..];
    assert segs[..j] == [segs[0]] + segs[1..j];
  }

  lemma {:induction false} MergeIntoReplaces(rule: Rule, segs: seq<LineSegment>, s: LineSegment, j: int)
    requires FirstColinear(rule, segs, s, j)
    ensures MergeInto(rule, segs, s) == segs[..j] + [Extend(rule, segs[j], s)] + segs[j + 1..]
  {
    if j > 0 {
      var tail := segs[1..];
      FirstColinearTail(rule, segs, s, j);
      MergeIntoReplaces(rule, tail, s, j - 1);
      MergeIntoSkip(rule, segs, s);
      ReplaceCons(segs, Extend(rule, segs[j], s), j, MergeInto(rule, tail, s));
    }
  }

  /** What folding does, without recursion: either nothing is colinear and
      `s` is appended, or exactly the first colinear element is replaced by
      its extension and everything else stays in place. */
  lemma MergeIntoSpec(rule: Rule, segs: seq<LineSegment>, s: LineSegment)
    ensures (forall j :: 0 <= j < |segs| ==> !Colinear(rule, segs[j], s)) ==> MergeInto(rule, segs, s) == segs + [s]
    ensures forall j :: FirstColinear(rule, segs, s, j) ==>
      MergeInto(rule, segs, s) == segs[..j] + [Extend(rule, segs[j], s)] + segs[j + 1..]
  {
    if forall j :: 0 <= j < |segs| ==> !Colinear(rule, segs[j], s) {
      MergeIntoAppends(rule, segs, s);
    }
    forall j | FirstColinear(rule, segs, s, j)
      ensures MergeInto(rule, segs, s) == segs[..j] + [Extend(rule, segs[j], s)] + segs[j + 1..]
    {
      MergeIntoReplaces(rule, segs, s, j);
    }
  }

  lemma {:induction false} MergeIntoCoversNew(rule: Rule, segs: seq<LineSegment>, s: LineSegment)
    ensures Covered(s, MergeInto(rule, segs, s))
  {
    var r := MergeInto(rule, segs, s);
    if |segs| == 0 {
      WithinReflexive(s);
      assert Within(s, r[0]);
    } else if Colinear(rule, segs[0], s) {
      assert Within(s, r[0]);
    } else {
      MergeIntoCoversNew(rule, segs[1..], s);
      var rest := MergeInto(rule, segs[1..], s);
      var k :| 0 <= k < |rest| && Within(s, rest[k]);
      assert r[k + 1] == rest[k];
    }
  }

  lemma CoveredCons(t: LineSegment, x: LineSegment, rest: seq<LineSegment>)
    requires Within(t, x) || Covered(t, rest)
    ensures Covered(t, [x] + rest)
  {
    var r := [x] + rest;
    if Within(t, x) {
      assert Within(t, r[0]);
    } else {
      var k :| 0 <= k < |rest| && Within(t, rest[k]);
      assert r[k + 1] == rest[k];
    }
  }

  /** Where `t` is covered: by the head of `segs`, or by its tail. */
  lemma CoveredSplit(t: LineSegment, segs: seq<LineSegment>)
    requires Covered(t, segs)
    ensures Within(t, segs[0]) || Covered(t, segs[1..])
  {
    var j :| 0 <= j < |segs| && Within(t, segs[j]);
    if j > 0 {
      assert segs[1..][j - 1] == segs[j];
    }
  }

  lemma {:induction false} MergeIntoCoversOld(rule: Rule, segs: seq<LineSegment>, s: LineSegment, t: LineSegment)
    requires Covered(t, segs)
    ensures Covered(t, MergeInto(rule, segs, s))
  {
    CoveredSplit(t, segs);
    if Colinear(rule, segs[0], s) {
      var e := Extend(rule, segs[0], s);
      if Within(t, segs[0]) {
        WithinTransitive(t, segs[0], e);
      }
      CoveredCons(t, e, segs[1..]);
    } else {
      MergeIntoSkip(rule, segs, s);
      if !Within(t, segs[0]) {
        MergeIntoCoversOld(rule, segs[1..], s, t);
      }
      CoveredCons(t, segs[0], MergeInto(rule, segs[1..], s));
    }
  }

  /** Nothing is lost: every old element and the new segment lie within
      some element of the result. */
  lemma MergeIntoCovers(rule: Rule, segs: seq<LineSegment>, s: LineSegment)
    ensures Covered(s, MergeInto(rule, segs, s))
    ensures forall t :: Covered(t, segs) ==> Covered(t, MergeInto(rule, segs, s))
  {
    MergeIntoCoversNew(rule, segs, s);
    forall t | Covered(t, segs)
      ensures Covered(t, MergeInto(rule, segs, s))
    {
      MergeIntoCoversOld(rule, segs, s, t);
    }
  }

  /** Fold every segment of `rest`, in order, into `acc`. */
  function FoldInto(rule: Rule, acc: seq<LineSegment>, rest: seq<LineSegment>): seq<LineSegment>
    decreases |rest|
  {
    if |rest| == 0 then acc else FoldInto(rule, MergeInto(rule, acc, rest[0]), rest[1..])
  }

  /** Merge colinear segments: start from the last segment, then fold the
      others in, first to last. */
  function MergeColinear(rule: Rule, segs: seq<LineSegment>): seq<LineSegment> {
    if |segs| == 0 then [] else FoldInto(rule, [segs[|segs| - 1]], segs[..|segs| - 1])
  }

  lemma {:induction false} FoldIntoFacts(rule: Rule, acc: seq<LineSegment>, rest: seq<LineSegment>)
    ensures |acc| <= |FoldInto(rule, acc, rest)| <= |acc| + |rest|
    ensures forall t :: Covered(t, acc) ==> Covered(t, FoldInto(rule, acc, rest))
    ensures forall m :: 0 <= m < |rest| ==> Covered(rest[m], FoldInto(rule, acc, rest))
    decreases |rest|
  {
    if |rest| > 0 {
      var acc' := MergeInto(rule, acc, rest[0]);
      MergeIntoCovers(rule, acc, rest[0]);
      FoldIntoFacts(rule, acc', rest[1..]);
      forall m | 0 <= m < |rest|
        ensures Covered(rest[m], FoldInto(rule, acc, rest))
      {
        if m > 0 {
          assert rest[m] == rest[1..][m - 1];
        }
      }
    }
  }

  /** The merge is empty exactly when its input is, is never longer than
      its input, and every input segment lies within some merged one. */
  lemma MergeColinearFacts(rule: Rule, segs: seq<LineSegment>)
    ensures |MergeColinear(rule, segs)| == 0 <==> |segs| == 0
    ensures |MergeColinear(rule, segs)| <= |segs|
    ensures forall m :: 0 <= m < |segs| ==> Covered(segs[m], MergeColinear(rule, segs))
  {
    if |segs| > 0 {
      var last := segs[|segs| - 1];
      var init := segs[..|segs| - 1];
      FoldIntoFacts(rule, [last], init);
      WithinReflexive(last);
      assert Covered(last, [last]);
      forall m | 0 <= m < |segs|
        ensures Covered(segs[m], MergeColinear(rule, segs))
      {
        if m < |segs| - 1 {
          assert segs[m] == init[m];
        }
      }
    }
  }

  /** Under the kind rule every merged segment has the kind of some input
      segment: merging never turns a line into another kind of line. */
  lemma {:induction false} MergeIntoKinds(segs: seq<LineSegment>, s: LineSegment)
    ensures forall r :: r in MergeInto(ByKind, segs, s) ==> r == s || exists t :: t in segs && KindOf(t) == KindOf(r)
  {
    if |segs| > 0 && !Colinear(ByKind, segs[0], s) {
      MergeIntoKinds(segs[1..], s);
    }
  }

  lemma {:induction false} FoldIntoKinds(acc: seq<LineSegment>, rest: seq<LineSegment>)
    ensures forall r :: r in FoldInto(ByKind, acc, rest) ==>
      exists t :: (t in acc || t in rest) && KindOf(t) == KindOf(r)
    decreases |rest|
  {
    if |rest| > 0 {
      var acc' := MergeInto(ByKind, acc, rest[0]);
      MergeIntoKinds(acc, rest[0]);
      FoldIntoKinds(acc', rest[1..]);
      forall r | r in FoldInto(ByKind, acc, rest)
        ensures exists t :: (t in acc || t in rest) && KindOf(t) == KindOf(r)
      {
        var t :| (t in acc' || t in rest[1..]) && KindOf(t) == KindOf(r);
        if t in acc' {
          if t != rest[0] {
            var u :| u in acc && KindOf(u) == KindOf(t);
          }
        }
      }
    }
  }

  lemma MergeColinearKinds(segs: seq<LineSegment>)
    ensures forall r :: r in MergeColinear(ByKind, segs) ==> exists t :: t in segs && KindOf(t) == KindOf(r)
  {
    if |segs| > 0 {
      FoldIntoKinds([segs[|segs| - 1]], segs[..|segs| - 1]);
    }
  }

  /** No two segments at different positions are colinear. */
  predicate Unmergeable(rule: Rule, segs: seq<LineSegment>) {
    forall a, b :: 0 <= a < |segs| && 0 <= b < |segs| && a != b ==> !Colinear(rule, segs[a], segs[b])
  }

  lemma {:induction false} FoldIntoUnmergeable(rule: Rule, acc: seq<LineSegment>, rest: seq<LineSegment>)
    requires Unmergeable(rule, acc + rest)
    ensures FoldInto(rule, acc, rest) == acc + rest
    decreases |rest|
  {
    if |rest| > 0 {
      var all := acc + rest;
      forall j | 0 <= j < |acc|
        ensures !Colinear(rule, acc[j], rest[0])
      {
        assert all[j] == acc[j] && all[|acc|] == rest[0];
      }
      MergeIntoAppends(rule, acc, rest[0]);
      assert (acc + [rest[0]]) + rest[1..] == all;
      FoldIntoUnmergeable(rule, acc + [rest[0]], rest[1..]);
    }
  }

  /** When nothing can be merged, merging only rotates the last segment to
      the front. */
  lemma MergeColinearUnmergeable(rule: Rule, segs: seq<LineSegment>)
    requires |segs| > 0 && Unmergeable(rule, segs)
    ensures MergeColinear(rule, segs) == [segs[|segs| - 1]] + segs[..|segs| - 1]
  {
    var n := |segs| - 1;
    var rot := [segs[n]] + segs[..n];
    assert forall a :: 0 < a <= n ==> rot[a] == segs[a - 1];
    forall a, b | 0 <= a < |rot| && 0 <= b < |rot| && a != b
      ensures !Colinear(rule, rot[a], rot[b])
    {
      var a', b' := if a == 0 then n else a - 1, if b == 0 then n else b - 1;
      assert rot[a] == segs[a'] && rot[b] == segs[b'];
    }
    FoldIntoUnmergeable(rule, [segs[n]], segs[..n]);
  }

  /** The four arms of a `+` crossing at (6, 5), as the row and column scans
      report them, merge into one horizontal and one vertical line under
      either rule; the last arm seeds the result. */
  lemma CrossingMerges(rule: Rule)
    ensures MergeColinear(rule, [Seg(2, 5, 6, 5), Seg(6, 5, 10, 5), Seg(6, 3, 6, 5), Seg(6, 5, 6, 7)])
      == [Seg(6, 3, 6, 7), Seg(2, 5, 10, 5)]
  {
    var h1, h2, v1, v2 := Seg(2, 5, 6, 5), Seg(6, 5, 10, 5), Seg(6, 3, 6, 5), Seg(6, 5, 6, 7);
    var segs := [h1, h2, v1, v2];
    assert segs[..3] == [h1, h2, v1];
    assert !Colinear(rule, v2, h1) && !Colinear(rule, v2, h2) && Colinear(rule, h1, h2) && Colinear(rule, v2, v1);
    assert [v2][1..] == [];
    var a1 := MergeInto(rule, [v2], h1);
    assert a1 == [v2] + MergeInto(rule, [], h1);
    assert a1 == [v2, h1];
    assert a1[1..] == [h1];
    var a2 := MergeInto(rule, a1, h2);
    assert a2 == [v2] + MergeInto(rule, [h1], h2);
    assert Extend(rule, h1, h2) == Seg(2, 5, 10, 5);
    assert a2 == [v2, Seg(2, 5, 10, 5)];
    assert Extend(rule, v2, v1) == Seg(6, 3, 6, 7);
    var a3 := MergeInto(rule, a2, v1);
    assert a3 == [Seg(6, 3, 6, 7), Seg(2, 5, 10, 5)];
    assert [h1, h2, v1][1..] == [h2, v1];
    assert [h2, v1][1..] == [v1];
    assert FoldInto(rule, a3, []) == a3;
    assert FoldInto(rule, a2, [v1]) == a3;
    assert FoldInto(rule, a1, [h2, v1]) == a3;
    assert FoldInto(rule, [v2], [h1, h2, v1]) == a3;
  }
}

=== FILE: polyline.dfy ===
/** The editor's pure helpers for drawing wires: snapping a new point so that
    each leg of a polyline is horizontal or vertical, listing the legs,
    detaching a polyline at an end anchor, and dragging one leg. */
module PolyLines {
  import opened Tc
  import opened Wrappers
  import Rect

  function Abs(d: int): nat { if d < 0 then -d else d }

  /** Manhattan distance between two cells. */
  function Dist(p: TextCoordinate, q: TextCoordinate): nat {
    Abs(p.x - q.x) + Abs(p.y - q.y)
  }

  /** Lies on the horizontal or the vertical line through `last`. */
  predicate AxisAligned(p: TextCoordinate, last: TextCoordinate) {
    p.x == last.x || p.y == last.y
  }

  /** `p` snapped onto the horizontal or vertical line through `last`,
      keeping its coordinate along the axis of the larger displacement. */
  function PerpAlign(p: TextCoordinate, last: TextCoordinate): (r: TextCoordinate)
    ensures AxisAligned(r, last)
    ensures r.x == p.x || r.y == p.y
  {
    if Abs(p.x - last.x) < Abs(p.y - last.y) then TextCoordinate(last.x, p.y)
    else TextCoordinate(p.x, last.y)
  }

  /** The snapped point is a closest aligned point to `p`: no cell on either
      line through `last` is nearer to `p`. */
  lemma PerpAlignNearest(p: TextCoordinate, last: TextCoordinate, q: TextCoordinate)
    requires AxisAligned(q, last)
    ensures Dist(p, PerpAlign(p, last)) <= Dist(p, q)
  {
  }

  /** Snapping an already snapped point changes nothing. */
  lemma PerpAlignIdempotent(p: TextCoordinate, last: TextCoordinate)
    ensures PerpAlign(PerpAlign(p, last), last) == PerpAlign(p, last)
  {
  }

  datatype PolyLine = PolyLine(anchors: seq<TextCoordinate>)

  /** Appends a point, snapped to the previous anchor when there is one:
      the new anchor lies on a line through the previous one, keeps one of
      the point's coordinates, and no cell on those lines is nearer. */
  function Extend(pl: PolyLine, pos: TextCoordinate): (r: PolyLine)
    ensures |r.anchors| == |pl.anchors| + 1
    ensures r.anchors[..|pl.anchors|] == pl.anchors
    ensures |pl.anchors| > 0 ==> AxisAligned(r.anchors[|pl.anchors|], pl.anchors[|pl.anchors| - 1])
    ensures |pl.anchors| > 0 ==> r.anchors[|pl.anchors|].x == pos.x || r.anchors[|pl.anchors|].y == pos.y
    ensures |pl.anchors| > 0 ==> forall q :: AxisAligned(q, pl.anchors[|pl.anchors| - 1]) ==>
      Dist(pos, r.anchors[|pl.anchors|]) <= Dist(pos, q)
    ensures |pl.anchors| == 0 ==> r.anchors == [pos]
  {
    if |pl.anchors| == 0 then PolyLine([pos])
    else PolyLine(pl.anchors + [PerpAlign(pos, pl.anchors[|pl.anchors| - 1])])
  }

  /** Every leg of a polyline built only by `Extend` is horizontal or vertical. */
  lemma {:induction false} ExtendKeepsLegsAligned(pl: PolyLine, pos: TextCoordinate)
    requires forall i :: 0 < i < |pl.anchors| ==> AxisAligned(pl.anchors[i], pl.anchors[i - 1])
    ensures forall i :: 0 < i < |Extend(pl, pos).anchors| ==>
      AxisAligned(Extend(pl, pos).anchors[i], Extend(pl, pos).anchors[i - 1])
  {
    var r := Extend(pl, pos).anchors;
    forall i | 0 < i < |r|
      ensures AxisAligned(r[i], r[i - 1])
    {
      if i < |pl.anchors| {
        assert r[i] == pl.anchors[i] && r[i - 1] == pl.anchors[i - 1];
      }
    }
  }

  /** One leg of a polyline, with its position in the list of legs. */
  datatype Edge = Edge(start: TextCoordinate, stop: TextCoordinate, index: nat)

  /** The legs between consecutive anchors. */
  function Edges(pl: PolyLine): (es: seq<Edge>)
    ensures |pl.anchors| > 0 ==> |es| == |pl.anchors| - 1
    ensures |pl.anchors| == 0 ==> es == []
    ensures forall i :: 0 <= i < |es| ==> es[i].index == i
    ensures forall i :: 0 <= i < |es| ==> es[i].start == pl.anchors[i] && es[i].stop == pl.anchors[i + 1]
  {
    if |pl.anchors| == 0 then []
    else seq(|pl.anchors| - 1, i requires 0 <= i < |pl.anchors| - 1 => Edge(pl.anchors[i], pl.anchors[i + 1], i))
  }

  /** The legs form a chain that gives back the anchors: each leg stops where
      the next one starts. */
  lemma EdgesChain(pl: PolyLine)
    ensures forall i :: 0 <= i < |Edges(pl)| - 1 ==> Edges(pl)[i].stop == Edges(pl)[i + 1].start
    ensures |pl.anchors| > 1 ==> Edges(pl)[0].start == pl.anchors[0]
    ensures |pl.anchors| > 1 ==> Edges(pl)[|Edges(pl)| - 1].stop == pl.anchors[|pl.anchors| - 1]
  {
  }

  /** The leg with index `ndx`, when the polyline has that many legs. */
  function EdgeAt(pl: PolyLine, ndx: nat): (r: Option<Edge>)
    ensures r.Some? <==> ndx + 1 < |pl.anchors|
    ensures r.Some? ==> r.value.start == pl.anchors[ndx] && r.value.stop == pl.anchors[ndx + 1] && r.value.index == ndx
  {
    var es := Edges(pl);
    if ndx < |es| then Some(es[ndx]) else None
  }

  /** A cell is on a leg when it is on the boundary of the box the leg's two
      ends span. */
  predicate EdgeOnBoundary(e: Edge, tc: TextCoordinate) {
    Rect.OnBoundary(Rect.Rectangle(e.start, e.stop), tc)
  }

  /** For a horizontal or vertical leg, being on its boundary is lying on
      the leg itself, between its two ends. */
  lemma EdgeOnBoundaryIsOnLeg(e: Edge, tc: TextCoordinate)
    requires AxisAligned(e.start, e.stop)
    ensures e.start.y == e.stop.y ==>
      (EdgeOnBoundary(e, tc) <==> tc.y == e.start.y && Rect.Min(e.start.x, e.stop.x) <= tc.x <= Rect.Max(e.start.x, e.stop.x))
    ensures e.start.x == e.stop.x ==>
      (EdgeOnBoundary(e, tc) <==> tc.x == e.start.x && Rect.Min(e.start.y, e.stop.y) <= tc.y <= Rect.Max(e.start.y, e.stop.y))
  {
  }

  function Reverse<T>(s: seq<T>): (r: seq<T>)
    ensures |r| == |s|
    ensures forall i :: 0 <= i < |s| ==> r[i] == s[|s| - 1 - i]
  {
    if |s| == 0 then [] else Reverse(s[1..]) + [s[0]]
  }

  /** When `tc` is an end anchor, the polyline that is left when that anchor
      is picked up, oriented so that its last anchor is the one next to the
      picked-up end. */
  function AnchoredBy(pl: PolyLine, tc: TextCoordinate): (r: Option<PolyLine>)
    ensures r.Some? <==> |pl.anchors| > 0 && (pl.anchors[0] == tc || pl.anchors[|pl.anchors| - 1] == tc)
    ensures r.Some? && pl.anchors[0] == tc ==> [tc] + Reverse(r.value.anchors) == pl.anchors
    ensures r.Some? && pl.anchors[0] != tc ==> r.value.anchors + [tc] == pl.anchors
  {
    var a := pl.anchors;
    if |a| > 0 && a[0] == tc then
      assert [tc] + Reverse(Reverse(a[1..])) == a;
      Some(PolyLine(Reverse(a[1..])))
    else if |a| > 0 && a[|a| - 1] == tc then
      assert a[..|a| - 1] + [tc] == a;
      Some(PolyLine(a[..|a| - 1]))
    else None
  }

  /** The polyline with leg `edge` dragged sideways: a leg whose ends share a
      column follows the cursor horizontally, any other leg follows it
      vertically; both ends of the leg move by the same displacement. */
  function Shifted(pl: PolyLine, edge: nat, origin: TextCoordinate, cursor: TextCoordinate): (r: PolyLine)
    requires edge + 1 < |pl.anchors|
    ensures |r.anchors| == |pl.anchors|
    ensures forall i :: 0 <= i < |pl.anchors| && i != edge && i != edge + 1 ==> r.anchors[i] == pl.anchors[i]
  {
    var p1 := pl.anchors[edge];
    var p2 := pl.anchors[edge + 1];
    var target := if p1.x == p2.x then TextCoordinate(cursor.x, origin.y) else TextCoordinate(origin.x, cursor.y);
    PolyLine(pl.anchors[edge := Tc.Shifted(p1, origin, target)][edge + 1 := Tc.Shifted(p2, origin, target)])
  }

  /** Dragging a vertical leg slides it along x without changing any row, and
      it stays vertical; dragging a horizontal leg slides it along y and it
      stays horizontal. */
  lemma ShiftedKeepsLegAligned(pl: PolyLine, edge: nat, origin: TextCoordinate, cursor: TextCoordinate)
    requires edge + 1 < |pl.anchors|
    ensures var a, r := pl.anchors, Shifted(pl, edge, origin, cursor).anchors;
      a[edge].x == a[edge + 1].x ==>
        r[edge].x == r[edge + 1].x && r[edge].y == a[edge].y && r[edge + 1].y == a[edge + 1].y
    ensures var a, r := pl.anchors, Shifted(pl, edge, origin, cursor).anchors;
      a[edge].x != a[edge + 1].x && a[edge].y == a[edge + 1].y ==>
        r[edge].y == r[edge + 1].y && r[edge].x == a[edge].x && r[edge + 1].x == a[edge + 1].x
  {
  }
}

=== FILE: rect.dfy ===
/** Axis-aligned rectangles of grid cells, given by two opposite corners in
    either order; all queries work on the bounding box of the two corners. */
module Rect {
  import opened Tc
  import opened Wrappers

  datatype Rectangle = Rectangle(corner1: TextCoordinate, corner2: TextCoordinate)

  function Min(a: nat, b: nat): nat { if a <= b then a else b }
  function Max(a: nat, b: nat): nat { if a <= b then b else a }

  function MinX(r: Rectangle): nat { Min(r.corner1.x, r.corner2.x) }
  function MaxX(r: Rectangle): nat { Max(r.corner1.x, r.corner2.x) }
  function MinY(r: Rectangle): nat { Min(r.corner1.y, r.corner2.y) }
  function MaxY(r: Rectangle): nat { Max(r.corner1.y, r.corner2.y) }

  /** True when corner1 is the top-left and corner2 the bottom-right corner. */
  predicate IsNormal(r: Rectangle) {
    r.corner1.x <= r.corner2.x && r.corner1.y <= r.corner2.y
  }

  /** Inclusive membership in the bounding box of the two corners. */
  predicate Contains(r: Rectangle, p: TextCoordinate) {
    MinX(r) <= p.x <= MaxX(r) && MinY(r) <= p.y <= MaxY(r)
  }

  /** The same box with corner1 top-left and corner2 bottom-right. */
  function Normalize(r: Rectangle): (n: Rectangle)
    ensures IsNormal(n)
    ensures forall p :: Contains(n, p) <==> Contains(r, p)
    ensures IsNormal(r) ==> n == r
  {
    Rectangle(TextCoordinate(MinX(r), MinY(r)), TextCoordinate(MaxX(r), MaxY(r)))
  }

  /** Normalizing twice is normalizing once. */
  lemma NormalizeIdempotent(r: Rectangle)
    ensures Normalize(Normalize(r)) == Normalize(r)
  {
  }

  /** Membership does not depend on which corner is named first. */
  lemma ContainsSymmetric(a: TextCoordinate, b: TextCoordinate, p: TextCoordinate)
    ensures Contains(Rectangle(a, b), p) <==> Contains(Rectangle(b, a), p)
  {
  }

  /** Leftmost column of the box. */
  function Left(r: Rectangle): (l: nat)
    ensures l == Normalize(r).corner1.x
    ensures forall p :: Contains(r, p) ==> l <= p.x
  {
    MinX(r)
  }

  /** Topmost row of the box. */
  function Top(r: Rectangle): (t: nat)
    ensures t == Normalize(r).corner1.y
    ensures forall p :: Contains(r, p) ==> t <= p.y
  {
    MinY(r)
  }

  /** Number of columns the box spans, at least one. */
  function Width(r: Rectangle): (w: nat)
    ensures w >= 1
    ensures Contains(r, TextCoordinate(Left(r) + w - 1, Top(r)))
    ensures !Contains(r, TextCoordinate(Left(r) + w, Top(r)))
  {
    MaxX(r) - MinX(r) + 1
  }

  /** Number of rows the box spans, at least one. */
  function Height(r: Rectangle): (h: nat)
    ensures h >= 1
    ensures Contains(r, TextCoordinate(Left(r), Top(r) + h - 1))
    ensures !Contains(r, TextCoordinate(Left(r), Top(r) + h))
  {
    MaxY(r) - MinY(r) + 1
  }

  /** The four corners: each is a contained cell, and no contained cell
      lies beyond it in either of its two directions. */
  function LeftTop(r: Rectangle): (c: TextCoordinate)
    ensures Contains(r, c) && forall q :: Contains(r, q) ==> c.x <= q.x && c.y <= q.y
  {
    TextCoordinate(MinX(r), MinY(r))
  }

  function RightTop(r: Rectangle): (c: TextCoordinate)
    ensures Contains(r, c) && forall q :: Contains(r, q) ==> q.x <= c.x && c.y <= q.y
  {
    TextCoordinate(MaxX(r), MinY(r))
  }

  function LeftBottom(r: Rectangle): (c: TextCoordinate)
    ensures Contains(r, c) && forall q :: Contains(r, q) ==> c.x <= q.x && q.y <= c.y
  {
    TextCoordinate(MinX(r), MaxY(r))
  }

  function RightBottom(r: Rectangle): (c: TextCoordinate)
    ensures Contains(r, c) && forall q :: Contains(r, q) ==> q.x <= c.x && q.y <= c.y
  {
    TextCoordinate(MaxX(r), MaxY(r))
  }

  /** Both corners dragged by the same displacement. */
  function Shifted(r: Rectangle, origin: TextCoordinate, movePos: TextCoordinate): Rectangle {
    Rectangle(Tc.Shifted(r.corner1, origin, movePos), Tc.Shifted(r.corner2, origin, movePos))
  }

  /** A shift that saturates at neither corner keeps the size of the box and
      moves its top-left corner by the displacement. */
  lemma ShiftedKeepsSize(r: Rectangle, origin: TextCoordinate, movePos: TextCoordinate)
    requires MinX(r) + movePos.x >= origin.x && MinY(r) + movePos.y >= origin.y
    ensures Width(Shifted(r, origin, movePos)) == Width(r)
    ensures Height(Shifted(r, origin, movePos)) == Height(r)
    ensures LeftTop(Shifted(r, origin, movePos)) == Tc.Shifted(LeftTop(r), origin, movePos)
  {
  }

  /** Strict row-major order: earlier row, or same row and earlier column. */
  predicate RowMajorBefore(p: TextCoordinate, q: TextCoordinate) {
    p.y < q.y || (p.y == q.y && p.x < q.x)
  }

  predicate RowMajorSorted(s: seq<TextCoordinate>) {
    forall i, j :: 0 <= i < j < |s| ==> RowMajorBefore(s[i], s[j])
  }

  /** The cells (x0, y) .. (x0 + n - 1, y), left to right. */
  function RowCells(x0: nat, n: nat, y: nat): (s: seq<TextCoordinate>)
    ensures |s| == n
    ensures forall i :: 0 <= i < n ==> s[i] == TextCoordinate(x0 + i, y)
    decreases n
  {
    if n == 0 then [] else [TextCoordinate(x0, y)] + RowCells(x0 + 1, n - 1, y)
  }

  /** `m` rows of `n` cells each, starting at (x0, y0), row after row. */
  function Cells(x0: nat, n: nat, y0: nat, m: nat): seq<TextCoordinate>
    decreases m
  {
    if m == 0 then [] else RowCells(x0, n, y0) + Cells(x0, n, y0 + 1, m - 1)
  }

  /** A cell is in row `y` from `x0` exactly when it lies in that stretch. */
  lemma RowCellsMember(x0: nat, n: nat, y: nat, p: TextCoordinate)
    ensures p in RowCells(x0, n, y) <==> p.y == y && x0 <= p.x < x0 + n
  {
    var s := RowCells(x0, n, y);
    if p in s {
      var i :| 0 <= i < |s| && s[i] == p;
    }
    if p.y == y && x0 <= p.x < x0 + n {
      assert s[p.x - x0] == p;
    }
  }

  /** Membership in `Cells` is membership in the box it spans. */
  lemma {:induction false} CellsMember(x0: nat, n: nat, y0: nat, m: nat, p: TextCoordinate)
    ensures p in Cells(x0, n, y0, m) <==> x0 <= p.x < x0 + n && y0 <= p.y < y0 + m
    decreases m
  {
    if m > 0 {
      var head := RowCells(x0, n, y0);
      var tail := Cells(x0, n, y0 + 1, m - 1);
      assert Cells(x0, n, y0, m) == head + tail;
      RowCellsMember(x0, n, y0, p);
      CellsMember(x0, n, y0 + 1, m - 1, p);
    }
  }

  /** Two sorted runs, the first wholly before the second, make a sorted run. */
  lemma SortedConcat(a: seq<TextCoordinate>, b: seq<TextCoordinate>)
    requires RowMajorSorted(a) && RowMajorSorted(b)
    requires forall i, j :: 0 <= i < |a| && 0 <= j < |b| ==> RowMajorBefore(a[i], b[j])
    ensures RowMajorSorted(a + b)
  {
    forall i, j | 0 <= i < j < |a + b|
      ensures RowMajorBefore((a + b)[i], (a + b)[j])
    {
      if j < |a| {
        assert (a + b)[i] == a[i] && (a + b)[j] == a[j];
      } else if i < |a| {
        assert (a + b)[i] == a[i] && (a + b)[j] == b[j - |a|];
      } else {
        assert (a + b)[i] == b[i - |a|] && (a + b)[j] == b[j - |a|];
      }
    }
  }

  lemma {:induction false} CellsSorted(x0: nat, n: nat, y0: nat, m: nat)
    ensures RowMajorSorted(Cells(x0, n, y0, m))
    decreases m
  {
    if m > 0 {
      var head := RowCells(x0, n, y0);
      var tail := Cells(x0, n, y0 + 1, m - 1);
      assert Cells(x0, n, y0, m) == head + tail;
      CellsSorted(x0, n, y0 + 1, m - 1);
      forall j | 0 <= j < |tail|
        ensures tail[j].y > y0
      {
        CellsMember(x0, n, y0 + 1, m - 1, tail[j]);
      }
      SortedConcat(head, tail);
    }
  }

  lemma {:induction false} CellsLength(x0: nat, n: nat, y0: nat, m: nat)
    ensures |Cells(x0, n, y0, m)| == n * m
    decreases m
  {
    if m > 0 {
      CellsLength(x0, n, y0 + 1, m - 1);
      assert n * m == n + n * (m - 1);
    }
  }

  lemma CellsFacts(x0: nat, n: nat, y0: nat, m: nat)
    ensures |Cells(x0, n, y0, m)| == n * m
    ensures forall p :: p in Cells(x0, n, y0, m) <==> x0 <= p.x < x0 + n && y0 <= p.y < y0 + m
    ensures RowMajorSorted(Cells(x0, n, y0, m))
  {
    CellsLength(x0, n, y0, m);
    CellsSorted(x0, n, y0, m);
    forall p
      ensures p in Cells(x0, n, y0, m) <==> x0 <= p.x < x0 + n && y0 <= p.y < y0 + m
    {
      CellsMember(x0, n, y0, m, p);
    }
  }

  /** Every cell of the box, row by row from the top, left to right. */
  function IterInterior(r: Rectangle): (s: seq<TextCoordinate>)
    ensures |s| == Width(r) * Height(r)
    ensures forall p :: p in s <==> Contains(r, p)
    ensures RowMajorSorted(s)
  {
    CellsFacts(MinX(r), Width(r), MinY(r), Height(r));
    Cells(MinX(r), Width(r), MinY(r), Height(r))
  }

  // ---- The editor's helpers on rectangles (selection and drawing tools).

  /** A rectangle whose corners share a column or a row. */
  predicate IsEmpty(r: Rectangle) {
    r.corner1.x == r.corner2.x || r.corner1.y == r.corner2.y
  }

  /** The editor calls a rectangle empty exactly when its box is one cell
      wide or one cell high. */
  lemma IsEmptyIffThin(r: Rectangle)
    ensures IsEmpty(r) <==> Width(r) == 1 || Height(r) == 1
  {
  }

  /** On one of the four sides of the box. */
  predicate OnBoundary(r: Rectangle, tc: TextCoordinate) {
    ((tc.x == r.corner1.x || tc.x == r.corner2.x) && MinY(r) <= tc.y <= MaxY(r))
    || ((tc.y == r.corner1.y || tc.y == r.corner2.y) && MinX(r) <= tc.x <= MaxX(r))
  }

  /** The four corners are on the boundary, the boundary is inside the box,
      and a cell strictly inside the box is not on the boundary. */
  lemma BoundaryFacts(r: Rectangle, tc: TextCoordinate)
    ensures OnBoundary(r, LeftTop(r)) && OnBoundary(r, RightTop(r))
    ensures OnBoundary(r, LeftBottom(r)) && OnBoundary(r, RightBottom(r))
    ensures OnBoundary(r, tc) ==> Contains(r, tc)
    ensures MinX(r) < tc.x < MaxX(r) && MinY(r) < tc.y < MaxY(r) ==> !OnBoundary(r, tc)
  {
  }

  /** One of the four corners of the box. */
  predicate IsCorner(r: Rectangle, tc: TextCoordinate) {
    tc == r.corner1 || tc == r.corner2
    || tc == TextCoordinate(r.corner1.x, r.corner2.y)
    || tc == TextCoordinate(r.corner2.x, r.corner1.y)
  }

  /** The four corners of the box, clockwise from the top-left. */
  function IterCorners(r: Rectangle): (cs: seq<TextCoordinate>)
    ensures |cs| == 4 && cs[0] == LeftTop(r)
    ensures forall c :: c in cs ==> IsCorner(r, c) && OnBoundary(r, c)
    ensures forall c :: IsCorner(r, c) ==> c in cs
  {
    [LeftTop(r), RightTop(r), RightBottom(r), LeftBottom(r)]
  }

  /** When the cursor grabs a corner, the same box re-anchored so that the
      grabbed corner is corner2 (the one that follows the mouse) and corner1
      is the diagonally opposite corner. */
  function ControlledBy(r: Rectangle, tc: TextCoordinate): (o: Option<Rectangle>)
    ensures o.Some? <==> IsCorner(r, tc)
    ensures o.Some? ==> o.value.corner2 == tc && Normalize(o.value) == Normalize(r)
    ensures o.Some? ==> o.value.corner1.x != tc.x || r.corner1.x == r.corner2.x
    ensures o.Some? ==> o.value.corner1.y != tc.y || r.corner1.y == r.corner2.y
  {
    if tc == r.corner1 then Some(Rectangle(r.corner2, tc))
    else if tc == r.corner2 then Some(r)
    else if tc.x == r.corner1.x && tc.y == r.corner2.y then
      Some(Rectangle(TextCoordinate(r.corner2.x, r.corner1.y), tc))
    else if tc.x == r.corner2.x && tc.y == r.corner1.y then
      Some(Rectangle(TextCoordinate(r.corner1.x, r.corner2.y), tc))
    else None
  }
}

=== FILE: rectangles.dfy ===
/** Rectangle detection.  Every endpoint of a horizontal or vertical segment
    is a corner; a corner map records, per corner, the lines ending there.
    From each corner holding both a horizontal and a vertical line, one of
    each is picked (hash-set order in the source), and the corner diagonally
    opposite is read off their other ends.  Three variants decide whether
    the candidate is a rectangle:

      - the editor's: both canonical edges registered at the top-left and
        at the bottom-right corner, the opposite corner known, the cell one
        step out from each corner along each of its two sides empty, and
        `+` on all corners;
      - the first corner analyzer's: the edge checks and the known opposite
        corner only;
      - the oldest one's: the known opposite corner only, with lines stored
        as scanned rather than canonically.

    The picks are a parameter: a choice function returning an element of
    any non-empty set it is given, so every property holds for every hash
    order. */
module Rectangles {
  import opened Tc
  import opened Wrappers
  import opened TextBuffers
  import opened Segments
  import Rect

  /** A line tagged with its direction, as stored in the corner map. */
  datatype DirectedLine = Horiz(line: LineSegment) | Vert(line: LineSegment)

  /** A horizontal line with its left end first. */
  function MkHoriz(ls: LineSegment): (d: DirectedLine)
    requires ls.start.y == ls.end.y
    ensures d.Horiz? && d.line.start.x <= d.line.end.x
    ensures d.line.start.y == d.line.end.y == ls.start.y
    ensures {d.line.start, d.line.end} == {ls.start, ls.end}
  {
    var y := ls.end.y;
    DirectedLine.Horiz(LineSegment(TextCoordinate(Rect.Min(ls.start.x, ls.end.x), y), TextCoordinate(Rect.Max(ls.start.x, ls.end.x), y)))
  }

  /** A vertical line with its top end first. */
  function MkVert(ls: LineSegment): (d: DirectedLine)
    requires ls.start.x == ls.end.x
    ensures d.Vert? && d.line.start.y <= d.line.end.y
    ensures d.line.start.x == d.line.end.x == ls.start.x
    ensures {d.line.start, d.line.end} == {ls.start, ls.end}
  {
    var x := ls.end.x;
    DirectedLine.Vert(LineSegment(TextCoordinate(x, Rect.Min(ls.start.y, ls.end.y)), TextCoordinate(x, Rect.Max(ls.start.y, ls.end.y))))
  }

  /** Canonical lines are their own canonical form. */
  lemma MkIdempotent(ls: LineSegment)
    ensures ls.start.y == ls.end.y ==> MkHoriz(MkHoriz(ls).line) == MkHoriz(ls)
    ensures ls.start.x == ls.end.x ==> MkVert(MkVert(ls).line) == MkVert(ls)
  {
  }

  /** The three detectors. */
  datatype Variant = Checked | EdgesOnly | OppositeOnly

  predicate AllHoriz(segs: seq<LineSegment>) {
    forall s :: s in segs ==> s.start.y == s.end.y
  }

  predicate AllVert(segs: seq<LineSegment>) {
    forall s :: s in segs ==> s.start.x == s.end.x
  }

  /** How a segment is stored: canonically, except in the oldest variant. */
  function StoredHoriz(variant: Variant, s: LineSegment): DirectedLine
    requires s.start.y == s.end.y
  {
    if variant == OppositeOnly then DirectedLine.Horiz(s) else MkHoriz(s)
  }

  function StoredVert(variant: Variant, s: LineSegment): DirectedLine
    requires s.start.x == s.end.x
  {
    if variant == OppositeOnly then DirectedLine.Vert(s) else MkVert(s)
  }

  /** The corner map's entries: each horizontal segment at both its ends,
      then each vertical one. */
  function Entries(variant: Variant, h: seq<LineSegment>, v: seq<LineSegment>): seq<(TextCoordinate, DirectedLine)>
    requires AllHoriz(h) && AllVert(v)
  {
    if |h| > 0 then
      [(h[0].start, StoredHoriz(variant, h[0])), (h[0].end, StoredHoriz(variant, h[0]))] + Entries(variant, h[1..], v)
    else if |v| > 0 then
      [(v[0].start, StoredVert(variant, v[0])), (v[0].end, StoredVert(variant, v[0]))] + Entries(variant, h, v[1..])
    else []
  }

  /** An entry registers a stored segment at one of its ends, and every
      segment is registered at both. */
  lemma {:induction false} EntriesSpec(variant: Variant, h: seq<LineSegment>, v: seq<LineSegment>)
    requires AllHoriz(h) && AllVert(v)
    ensures forall c, d :: (c, d) in Entries(variant, h, v) <==>
      (exists s :: s in h && d == StoredHoriz(variant, s) && (c == s.start || c == s.end))
      || (exists s :: s in v && d == StoredVert(variant, s) && (c == s.start || c == s.end))
    decreases |h| + |v|
  {
    if |h| > 0 {
      EntriesSpec(variant, h[1..], v);
      assert forall t :: t in h ==> t == h[0] || t in h[1..];
    } else if |v| > 0 {
      EntriesSpec(variant, h, v[1..]);
      assert forall t :: t in v ==> t == v[0] || t in v[1..];
    }
  }

  /** The corner map built from its entries. */
  function CornerMap(e: seq<(TextCoordinate, DirectedLine)>): (m: map<TextCoordinate, set<DirectedLine>>)
    ensures forall c :: c in m <==> exists d :: (c, d) in e
    ensures forall c, d :: c in m ==> (d in m[c] <==> (c, d) in e)
  {
    if |e| == 0 then map[]
    else
      var m := CornerMap(e[..|e| - 1]);
      var (c, d) := e[|e| - 1];
      assert e == e[..|e| - 1] + [e[|e| - 1]];
      m[c := (if c in m then m[c] else {}) + {d}]
  }

  function HorizIn(lines: set<DirectedLine>): set<LineSegment> {
    set d | d in lines && d.Horiz? :: d.line
  }

  function VertIn(lines: set<DirectedLine>): set<LineSegment> {
    set d | d in lines && d.Vert? :: d.line
  }

  /** A choice function: it picks an element of any non-empty set. */
  ghost predicate Picks(pick: (TextCoordinate, set<LineSegment>) -> LineSegment) {
    forall c, s :: |s| > 0 ==> pick(c, s) in s
  }

  /** The corner diagonally opposite `c1`: the other x of the horizontal
      line and the other y of the vertical one. */
  function Opposite(c1: TextCoordinate, horiz: LineSegment, vert: LineSegment): TextCoordinate {
    TextCoordinate(if horiz.start.x == c1.x then horiz.end.x else horiz.start.x,
                   if vert.start.y == c1.y then vert.end.y else vert.start.y)
  }

  /** The corner at `a` registers the line `d`. */
  predicate Has(m: map<TextCoordinate, set<DirectedLine>>, a: TextCoordinate, d: DirectedLine) {
    a in m && d in m[a]
  }

  /** The four sides of a rectangle, each from its top or left end. */
  function TopSide(r: Rect.Rectangle): LineSegment { LineSegment(Rect.LeftTop(r), Rect.RightTop(r)) }
  function BottomSide(r: Rect.Rectangle): LineSegment { LineSegment(Rect.LeftBottom(r), Rect.RightBottom(r)) }
  function LeftSide(r: Rect.Rectangle): LineSegment { LineSegment(Rect.LeftTop(r), Rect.LeftBottom(r)) }
  function RightSide(r: Rect.Rectangle): LineSegment { LineSegment(Rect.RightTop(r), Rect.RightBottom(r)) }

  /** The sides of a rectangle are already in canonical order. */
  lemma SidesCanonical(r: Rect.Rectangle)
    ensures MkHoriz(TopSide(r)) == DirectedLine.Horiz(TopSide(r))
    ensures MkHoriz(BottomSide(r)) == DirectedLine.Horiz(BottomSide(r))
    ensures MkVert(LeftSide(r)) == DirectedLine.Vert(LeftSide(r))
    ensures MkVert(RightSide(r)) == DirectedLine.Vert(RightSide(r))
  {
  }

  /** The canonical sides of a candidate are registered at its top-left and
      bottom-right corners. */
  predicate EdgesRegistered(m: map<TextCoordinate, set<DirectedLine>>, r: Rect.Rectangle) {
    Has(m, Rect.LeftTop(r), MkHoriz(TopSide(r)))
    && Has(m, Rect.LeftTop(r), MkVert(LeftSide(r)))
    && Has(m, Rect.RightBottom(r), MkHoriz(BottomSide(r)))
    && Has(m, Rect.RightBottom(r), MkVert(RightSide(r)))
  }

  /** The eight cells one step out from each corner along its two sides;
      moves saturate at the grid's top and left border. */
  function Surroundings(r: Rect.Rectangle): seq<TextCoordinate> {
    [Up(Rect.LeftTop(r)), Left(Rect.LeftTop(r)), Down(Rect.RightBottom(r)), Right(Rect.RightBottom(r)),
     Right(Rect.RightTop(r)), Up(Rect.RightTop(r)), Left(Rect.LeftBottom(r)), Down(Rect.LeftBottom(r))]
  }

  predicate SurroundingsEmpty(tb: Buffer, r: Rect.Rectangle) {
    forall i :: 0 <= i < |Surroundings(r)| ==> Get(tb, Surroundings(r)[i]).None?
  }

  predicate PlusCorners(tb: Buffer, r: Rect.Rectangle) {
    Get(tb, Rect.LeftTop(r)) == Some('+') && Get(tb, Rect.RightBottom(r)) == Some('+')
    && Get(tb, Rect.RightTop(r)) == Some('+') && Get(tb, Rect.LeftBottom(r)) == Some('+')
  }

  /** The candidate from `c1` with the picked lines passes the variant's
      test. */
  predicate Accepts(variant: Variant, tb: Buffer, m: map<TextCoordinate, set<DirectedLine>>,
                    c1: TextCoordinate, horiz: LineSegment, vert: LineSegment) {
    var c2 := Opposite(c1, horiz, vert);
    var cand := Rect.Normalize(Rect.Rectangle(c1, c2));
    c2 in m
    && (variant != OppositeOnly ==> EdgesRegistered(m, cand))
    && (variant == Checked ==> SurroundingsEmpty(tb, cand) && PlusCorners(tb, cand))
  }

  /** The corner `c` holds a horizontal and a vertical line. */
  predicate Junction(m: map<TextCoordinate, set<DirectedLine>>, c: TextCoordinate) {
    c in m && |HorizIn(m[c])| > 0 && |VertIn(m[c])| > 0
  }

  function Candidate(m: map<TextCoordinate, set<DirectedLine>>, pick: (TextCoordinate, set<LineSegment>) -> LineSegment,
                     c: TextCoordinate): Rect.Rectangle
    requires c in m
  {
    Rect.Normalize(Rect.Rectangle(c, Opposite(c, pick(c, HorizIn(m[c])), pick(c, VertIn(m[c])))))
  }

  /** The rectangles a detector reports from the given segments. */
  function Detect(variant: Variant, tb: Buffer, h: seq<LineSegment>, v: seq<LineSegment>,
                  pick: (TextCoordinate, set<LineSegment>) -> LineSegment): set<Rect.Rectangle>
    requires AllHoriz(h) && AllVert(v)
  {
    var m := CornerMap(Entries(variant, h, v));
    set c | c in m && Junction(m, c) && Accepts(variant, tb, m, c, pick(c, HorizIn(m[c])), pick(c, VertIn(m[c])))
      :: Candidate(m, pick, c)
  }

  // ---- What a reported rectangle is.

  /** Two segments with the same two ends, in either order. */
  predicate SameEnds(s: LineSegment, t: LineSegment) {
    {s.start, s.end} == {t.start, t.end}
  }

  /** `segs` holds a segment running along `side`. */
  ghost predicate SideIn(segs: seq<LineSegment>, side: LineSegment) {
    exists s :: s in segs && SameEnds(s, side)
  }

  /** All four sides of `r` are among the scanned segments. */
  ghost predicate AllSidesIn(h: seq<LineSegment>, v: seq<LineSegment>, r: Rect.Rectangle) {
    SideIn(h, TopSide(r)) && SideIn(h, BottomSide(r)) && SideIn(v, LeftSide(r)) && SideIn(v, RightSide(r))
  }

  /** A horizontal and a vertical side of `r` are among the scanned
      segments; any two such sides meet at a corner. */
  ghost predicate TwoSidesIn(h: seq<LineSegment>, v: seq<LineSegment>, r: Rect.Rectangle) {
    (SideIn(h, TopSide(r)) || SideIn(h, BottomSide(r))) && (SideIn(v, LeftSide(r)) || SideIn(v, RightSide(r)))
  }

  /** `a` is an end of one of the scanned segments. */
  ghost predicate EndsLine(h: seq<LineSegment>, v: seq<LineSegment>, a: TextCoordinate) {
    exists s :: (s in h || s in v) && (a == s.start || a == s.end)
  }

  /** The shape the oldest detector reports: a scanned horizontal and a
      scanned vertical segment leave one corner `c1` of `r` along its two
      sides, and the diagonally opposite corner `c2` ends a scanned
      segment. */
  ghost predicate OppositeEnded(h: seq<LineSegment>, v: seq<LineSegment>, r: Rect.Rectangle) {
    exists c1, c2 :: r == Rect.Normalize(Rect.Rectangle(c1, c2))
      && SideIn(h, LineSegment(c1, TextCoordinate(c2.x, c1.y)))
      && SideIn(v, LineSegment(c1, TextCoordinate(c1.x, c2.y)))
      && EndsLine(h, v, c2)
  }

  /** Every key of the corner map ends a scanned segment. */
  lemma KeyEndsLine(variant: Variant, h: seq<LineSegment>, v: seq<LineSegment>, a: TextCoordinate)
    requires AllHoriz(h) && AllVert(v)
    requires a in CornerMap(Entries(variant, h, v))
    ensures EndsLine(h, v, a)
  {
    var e := Entries(variant, h, v);
    EntriesSpec(variant, h, v);
    var d :| (a, d) in e;
  }

  /** The segment a horizontal line registered at a corner was stored
      from. */
  lemma HorizEntry(variant: Variant, h: seq<LineSegment>, v: seq<LineSegment>, a: TextCoordinate, d: DirectedLine)
      returns (s: LineSegment)
    requires AllHoriz(h) && AllVert(v) && d.Horiz?
    requires Has(CornerMap(Entries(variant, h, v)), a, d)
    ensures s in h && d == StoredHoriz(variant, s) && (a == s.start || a == s.end)
  {
    var e := Entries(variant, h, v);
    EntriesSpec(variant, h, v);
    assert (a, d) in e;
    s :| s in h && d == StoredHoriz(variant, s) && (a == s.start || a == s.end);
  }

  lemma VertEntry(variant: Variant, h: seq<LineSegment>, v: seq<LineSegment>, a: TextCoordinate, d: DirectedLine)
      returns (s: LineSegment)
    requires AllHoriz(h) && AllVert(v) && d.Vert?
    requires Has(CornerMap(Entries(variant, h, v)), a, d)
    ensures s in v && d == StoredVert(variant, s) && (a == s.start || a == s.end)
  {
    var e := Entries(variant, h, v);
    EntriesSpec(variant, h, v);
    assert (a, d) in e;
    s :| s in v && d == StoredVert(variant, s) && (a == s.start || a == s.end);
  }

  /** A canonical horizontal line registered in the map comes from a
      horizontal segment with the same ends. */
  lemma HorizRegistered(variant: Variant, h: seq<LineSegment>, v: seq<LineSegment>, a: TextCoordinate, side: LineSegment)
    requires variant != OppositeOnly && AllHoriz(h) && AllVert(v)
    requires side.start.y == side.end.y
    requires Has(CornerMap(Entries(variant, h, v)), a, MkHoriz(side))
    ensures SideIn(h, side)
  {
    var s := HorizEntry(variant, h, v, a, MkHoriz(side));
    assert SameEnds(s, side);
  }

  lemma VertRegistered(variant: Variant, h: seq<LineSegment>, v: seq<LineSegment>, a: TextCoordinate, side: LineSegment)
    requires variant != OppositeOnly && AllHoriz(h) && AllVert(v)
    requires side.start.x == side.end.x
    requires Has(CornerMap(Entries(variant, h, v)), a, MkVert(side))
    ensures SideIn(v, side)
  {
    var s := VertEntry(variant, h, v, a, MkVert(side));
    assert SameEnds(s, side);
  }

  /** The line picked at a corner, in the oldest variant, is a scanned
      segment ending there. */
  lemma PickedHoriz(h: seq<LineSegment>, v: seq<LineSegment>, c: TextCoordinate, hs: LineSegment)
    requires AllHoriz(h) && AllVert(v)
    requires c in CornerMap(Entries(OppositeOnly, h, v))
    requires hs in HorizIn(CornerMap(Entries(OppositeOnly, h, v))[c])
    ensures hs in h && (c == hs.start || c == hs.end)
  {
    var m := CornerMap(Entries(OppositeOnly, h, v));
    var d: DirectedLine :| d in m[c] && d.Horiz? && d.line == hs;
    var s := HorizEntry(OppositeOnly, h, v, c, d);
  }

  lemma PickedVert(h: seq<LineSegment>, v: seq<LineSegment>, c: TextCoordinate, vs: LineSegment)
    requires AllHoriz(h) && AllVert(v)
    requires c in CornerMap(Entries(OppositeOnly, h, v))
    requires vs in VertIn(CornerMap(Entries(OppositeOnly, h, v))[c])
    ensures vs in v && (c == vs.start || c == vs.end)
  {
    var m := CornerMap(Entries(OppositeOnly, h, v));
    var d: DirectedLine :| d in m[c] && d.Vert? && d.line == vs;
    var s := VertEntry(OppositeOnly, h, v, c, d);
  }

  /** A horizontal segment ending at `c` runs along the top or the bottom of
      the rectangle from `c` to any corner at the segment's other x. */
  lemma HorizontalSide(hs: LineSegment, c: TextCoordinate, c2: TextCoordinate)
    requires hs.start.y == hs.end.y && (c == hs.start || c == hs.end)
    requires c2.x == (if hs.start.x == c.x then hs.end.x else hs.start.x)
    ensures SameEnds(hs, TopSide(Rect.Normalize(Rect.Rectangle(c, c2))))
         || SameEnds(hs, BottomSide(Rect.Normalize(Rect.Rectangle(c, c2))))
  {
    var r := Rect.Normalize(Rect.Rectangle(c, c2));
    assert SameEnds(hs, LineSegment(c, TextCoordinate(c2.x, c.y)));
    if c.y <= c2.y {
      assert Rect.MinY(r) == c.y;
      assert SameEnds(hs, TopSide(r));
    } else {
      assert Rect.MaxY(r) == c.y;
      assert SameEnds(hs, BottomSide(r));
    }
  }

  lemma VerticalSide(vs: LineSegment, c: TextCoordinate, c2: TextCoordinate)
    requires vs.start.x == vs.end.x && (c == vs.start || c == vs.end)
    requires c2.y == (if vs.start.y == c.y then vs.end.y else vs.start.y)
    ensures SameEnds(vs, LeftSide(Rect.Normalize(Rect.Rectangle(c, c2))))
         || SameEnds(vs, RightSide(Rect.Normalize(Rect.Rectangle(c, c2))))
  {
    var r := Rect.Normalize(Rect.Rectangle(c, c2));
    assert SameEnds(vs, LineSegment(c, TextCoordinate(c.x, c2.y)));
    if c.x <= c2.x {
      assert Rect.MinX(r) == c.x;
      assert SameEnds(vs, LeftSide(r));
    } else {
      assert Rect.MaxX(r) == c.x;
      assert SameEnds(vs, RightSide(r));
    }
  }

  /** A `+` corner with empty surroundings cannot sit on the top or left
      border: the saturating moves would land on the `+` itself. */
  lemma AwayFromBorder(tb: Buffer, r: Rect.Rectangle)
    requires SurroundingsEmpty(tb, r) && PlusCorners(tb, r)
    ensures Rect.MinX(r) >= 1 && Rect.MinY(r) >= 1
  {
    assert Surroundings(r)[0] == Up(Rect.LeftTop(r));
    assert Surroundings(r)[1] == Left(Rect.LeftTop(r));
  }

  /** The rectangle the oldest variant accepts at corner `c`, from the
      lines picked there, has a scanned horizontal and a scanned vertical
      side. */
  lemma OldestSides(h: seq<LineSegment>, v: seq<LineSegment>, c: TextCoordinate, hs: LineSegment, vs: LineSegment)
    requires AllHoriz(h) && AllVert(v)
    requires c in CornerMap(Entries(OppositeOnly, h, v))
    requires hs in HorizIn(CornerMap(Entries(OppositeOnly, h, v))[c])
    requires vs in VertIn(CornerMap(Entries(OppositeOnly, h, v))[c])
    ensures TwoSidesIn(h, v, Rect.Normalize(Rect.Rectangle(c, Opposite(c, hs, vs))))
  {
    PickedHoriz(h, v, c, hs);
    PickedVert(h, v, c, vs);
    HorizontalSide(hs, c, Opposite(c, hs, vs));
    VerticalSide(vs, c, Opposite(c, hs, vs));
  }

  /** The same rectangle's corner opposite `c` ends a scanned segment, and
      the picked lines leave `c` along two of its sides. */
  lemma OldestOpposite(h: seq<LineSegment>, v: seq<LineSegment>, c: TextCoordinate, hs: LineSegment, vs: LineSegment)
    requires AllHoriz(h) && AllVert(v)
    requires c in CornerMap(Entries(OppositeOnly, h, v))
    requires hs in HorizIn(CornerMap(Entries(OppositeOnly, h, v))[c])
    requires vs in VertIn(CornerMap(Entries(OppositeOnly, h, v))[c])
    requires Opposite(c, hs, vs) in CornerMap(Entries(OppositeOnly, h, v))
    ensures OppositeEnded(h, v, Rect.Normalize(Rect.Rectangle(c, Opposite(c, hs, vs))))
  {
    PickedHoriz(h, v, c, hs);
    PickedVert(h, v, c, vs);
    KeyEndsLine(OppositeOnly, h, v, Opposite(c, hs, vs));
    OppositeShape(h, v, c, hs, vs);
  }

  /** A horizontal and a vertical scanned segment ending at `c` run along
      two sides of the rectangle they span from `c`. */
  lemma OppositeShape(h: seq<LineSegment>, v: seq<LineSegment>, c: TextCoordinate, hs: LineSegment, vs: LineSegment)
    requires hs in h && hs.start.y == hs.end.y && (c == hs.start || c == hs.end)
    requires vs in v && vs.start.x == vs.end.x && (c == vs.start || c == vs.end)
    requires EndsLine(h, v, Opposite(c, hs, vs))
    ensures OppositeEnded(h, v, Rect.Normalize(Rect.Rectangle(c, Opposite(c, hs, vs))))
  {
    var c2 := Opposite(c, hs, vs);
    assert SameEnds(hs, LineSegment(c, TextCoordinate(c2.x, c.y)));
    assert SameEnds(vs, LineSegment(c, TextCoordinate(c.x, c2.y)));
  }

  /** What each detector's reports are made of: the editor's and the first
      corner analyzer's have all four sides among the scanned segments, the
      editor's also have `+` corners, empty surroundings one step out from
      each corner along its two sides, and stay off the top and left
      border; the oldest detector's have a horizontal and a vertical side
      among them, leaving one corner, and the diagonally opposite corner
      ends a scanned segment. */
  lemma DetectSound(variant: Variant, tb: Buffer, h: seq<LineSegment>, v: seq<LineSegment>,
                    pick: (TextCoordinate, set<LineSegment>) -> LineSegment, r: Rect.Rectangle)
    requires AllHoriz(h) && AllVert(v) && Picks(pick)
    requires r in Detect(variant, tb, h, v, pick)
    ensures Rect.IsNormal(r)
    ensures variant != OppositeOnly ==> AllSidesIn(h, v, r)
    ensures variant == Checked ==> PlusCorners(tb, r) && SurroundingsEmpty(tb, r)
    ensures variant == Checked ==> Rect.MinX(r) >= 1 && Rect.MinY(r) >= 1
    ensures variant == OppositeOnly ==> TwoSidesIn(h, v, r) && OppositeEnded(h, v, r)
  {
    var m := CornerMap(Entries(variant, h, v));
    var c :| c in m && Junction(m, c) && Accepts(variant, tb, m, c, pick(c, HorizIn(m[c])), pick(c, VertIn(m[c])))
      && r == Candidate(m, pick, c);
    var hs, vs := pick(c, HorizIn(m[c])), pick(c, VertIn(m[c]));
    var c2 := Opposite(c, hs, vs);
    assert r == Rect.Normalize(Rect.Rectangle(c, c2));
    if variant != OppositeOnly {
      assert EdgesRegistered(m, r);
      HorizRegistered(variant, h, v, Rect.LeftTop(r), TopSide(r));
      VertRegistered(variant, h, v, Rect.LeftTop(r), LeftSide(r));
      HorizRegistered(variant, h, v, Rect.RightBottom(r), BottomSide(r));
      VertRegistered(variant, h, v, Rect.RightBottom(r), RightSide(r));
      if variant == Checked {
        AwayFromBorder(tb, r);
      }
    } else {
      OldestSides(h, v, c, hs, vs);
      OldestOpposite(h, v, c, hs, vs);
    }
  }

  /** A junction whose candidate passes the test is reported: the
      membership rule of the detector's set comprehension. */
  lemma Reported(variant: Variant, tb: Buffer, h: seq<LineSegment>, v: seq<LineSegment>,
                 pick: (TextCoordinate, set<LineSegment>) -> LineSegment, c: TextCoordinate)
    requires AllHoriz(h) && AllVert(v)
    requires var m := CornerMap(Entries(variant, h, v));
      c in m && Junction(m, c) && Accepts(variant, tb, m, c, pick(c, HorizIn(m[c])), pick(c, VertIn(m[c])))
    ensures Candidate(CornerMap(Entries(variant, h, v)), pick, c) in Detect(variant, tb, h, v, pick)
  {
  }

  /** A corner holding one line of each direction. */
  lemma Pair(x: LineSegment, y: LineSegment)
    ensures HorizIn({DirectedLine.Horiz(x), DirectedLine.Vert(y)}) == {x}
    ensures VertIn({DirectedLine.Horiz(x), DirectedLine.Vert(y)}) == {y}
  {
    var lines := {DirectedLine.Horiz(x), DirectedLine.Vert(y)};
    assert DirectedLine.Horiz(x) in lines && DirectedLine.Vert(y) in lines;
  }

  /** A normal rectangle whose top-left corner holds exactly its top and
      left side, and whose bottom-right corner holds its bottom and right
      side, is found from its top-left corner by the edge-checking
      detectors: the completeness partner of `DetectSound`. */
  lemma TwoCorners(variant: Variant, tb: Buffer, h: seq<LineSegment>, v: seq<LineSegment>,
                   pick: (TextCoordinate, set<LineSegment>) -> LineSegment, r: Rect.Rectangle)
    requires AllHoriz(h) && AllVert(v) && Picks(pick) && Rect.IsNormal(r) && variant != OppositeOnly
    requires var m := CornerMap(Entries(variant, h, v));
      && r.corner1 in m && m[r.corner1] == {DirectedLine.Horiz(TopSide(r)), DirectedLine.Vert(LeftSide(r))}
      && r.corner2 in m && m[r.corner2] == {DirectedLine.Horiz(BottomSide(r)), DirectedLine.Vert(RightSide(r))}
    requires variant == Checked ==> PlusCorners(tb, r) && SurroundingsEmpty(tb, r)
    ensures r in Detect(variant, tb, h, v, pick)
  {
    var m := CornerMap(Entries(variant, h, v));
    var c := r.corner1;
    Pair(TopSide(r), LeftSide(r));
    SidesCanonical(r);
    assert Opposite(c, pick(c, HorizIn(m[c])), pick(c, VertIn(m[c]))) == r.corner2;
    assert Candidate(m, pick, c) == r;
    assert EdgesRegistered(m, r);
    Reported(variant, tb, h, v, pick, c);
  }
}

=== FILE: render.dfy ===
/** Turning a text buffer back into text. */
module Render {
  import opened Tc
  import opened Wrappers
  import opened TextBuffers

  /** Row `y` as text, an empty cell shown as a space. */
  function RowText(tb: Buffer, y: nat): (s: string)
    ensures |s| == tb.cols
    ensures forall x :: 0 <= x < tb.cols ==>
      s[x] == (match Get(tb, TextCoordinate(x, y)) case Some(c) => c case None => ' ')
  {
    seq(tb.cols, x requires 0 <= x => match Get(tb, TextCoordinate(x, y)) case Some(c) => c case None => ' ')
  }

  /** Rows `from` .. the last, each followed by a newline. */
  function RawFrom(tb: Buffer, from: nat): string
    decreases Rows(tb) - from
  {
    if from >= Rows(tb) then [] else RowText(tb, from) + "\n" + RawFrom(tb, from + 1)
  }

  /** The plain rendering: every row padded to the full width and ended by a
      newline. */
  function RenderPadded(tb: Buffer): (s: string)
    requires tb.cols > 0
    ensures |s| == Rows(tb) * (tb.cols + 1)
  {
    RawLength(tb, 0);
    RawFrom(tb, 0)
  }

  lemma {:induction false} RawLength(tb: Buffer, from: nat)
    ensures |RawFrom(tb, from)| == (if from >= Rows(tb) then 0 else (Rows(tb) - from) * (tb.cols + 1))
    decreases Rows(tb) - from
  {
    if from < Rows(tb) {
      RawLength(tb, from + 1);
    }
  }

  // ---- Splitting, trimming and joining lines.

  /** `s` cut at every newline; a trailing newline leaves an empty last piece. */
  function Split(s: string): (parts: seq<string>)
    ensures |parts| > 0
    ensures forall i :: 0 <= i < |parts| ==> '\n' !in parts[i]
  {
    SplitFrom(s, [])
  }

  function SplitFrom(s: string, cur: string): (parts: seq<string>)
    requires '\n' !in cur
    ensures |parts| > 0
    ensures forall i :: 0 <= i < |parts| ==> '\n' !in parts[i]
  {
    if |s| == 0 then [cur]
    else if s[0] == '\n' then [cur] + SplitFrom(s[1..], [])
    else SplitFrom(s[1..], cur + [s[0]])
  }

  /** The pieces joined back together with `sep` in between. */
  function Join(parts: seq<string>, sep: string): string {
    if |parts| == 0 then []
    else if |parts| == 1 then parts[0]
    else parts[0] + sep + Join(parts[1..], sep)
  }

  lemma {:induction false} SplitFromJoin(s: string, cur: string)
    requires '\n' !in cur
    ensures Join(SplitFrom(s, cur), "\n") == cur + s
  {
    if |s| > 0 {
      if s[0] == '\n' {
        SplitFromJoin(s[1..], []);
        assert s == "\n" + s[1..];
      } else {
        SplitFromJoin(s[1..], cur + [s[0]]);
        assert cur + [s[0]] + s[1..] == cur + s;
      }
    }
  }

  /** Splitting at newlines and joining with newlines gives the text back. */
  lemma SplitJoin(s: string)
    ensures Join(Split(s), "\n") == s
  {
    SplitFromJoin(s, []);
  }

  /** Joining newline-free pieces and splitting again gives the pieces back. */
  lemma {:induction false} JoinSplit(parts: seq<string>)
    requires |parts| > 0
    requires forall i :: 0 <= i < |parts| ==> '\n' !in parts[i]
    ensures Split(Join(parts, "\n")) == parts
  {
    if |parts| == 1 {
      SplitPlain(parts[0], []);
      assert [] + parts[0] == parts[0];
    } else {
      JoinSplit(parts[1..]);
      SplitAfterLine(parts[0], Join(parts[1..], "\n"));
      assert parts == [parts[0]] + parts[1..];
    }
  }

  /** A newline-free text is one piece. */
  lemma {:induction false} SplitPlain(s: string, cur: string)
    requires '\n' !in cur && '\n' !in s
    ensures SplitFrom(s, cur) == [cur + s]
  {
    if |s| > 0 {
      assert s[0] in s && s[1..] <= s[1..];
      assert forall c :: c in s[1..] ==> c in s;
      SplitPlain(s[1..], cur + [s[0]]);
      assert cur + [s[0]] + s[1..] == cur + s;
    } else {
      assert cur + s == cur;
    }
  }

  /** A newline-free line followed by a newline splits off as one piece. */
  lemma SplitAfterLine(line: string, rest: string)
    requires '\n' !in line
    ensures Split(line + "\n" + rest) == [line] + Split(rest)
  {
    SplitLineFrom(line, [], rest);
    assert [] + line == line;
  }

  lemma {:induction false} SplitLineFrom(line: string, cur: string, rest: string)
    requires '\n' !in line && '\n' !in cur
    ensures SplitFrom(line + "\n" + rest, cur) == [cur + line] + SplitFrom(rest, [])
  {
    var s := line + "\n" + rest;
    if |line| == 0 {
      assert s == "\n" + rest;
      assert cur + line == cur;
    } else {
      assert s[1..] == line[1..] + "\n" + rest;
      assert line[0] in line;
      assert forall c :: c in line[1..] ==> c in line;
      SplitLineFrom(line[1..], cur + [line[0]], rest);
      assert cur + [line[0]] + line[1..] == cur + line;
    }
  }

  /** The ASCII whitespace bytes: space, tab, newline, form feed, carriage
      return. */
  predicate IsAsciiWhitespace(c: char) {
    c == ' ' || c == '\t' || c == '\n' || c == 12 as char || c == '\r'
  }

  /** `s` without its trailing ASCII whitespace. */
  function TrimEnd(s: string): (t: string)
    ensures t <= s
    ensures t == [] || !IsAsciiWhitespace(t[|t| - 1])
    ensures forall i :: |t| <= i < |s| ==> IsAsciiWhitespace(s[i])
  {
    if |s| == 0 || !IsAsciiWhitespace(s[|s| - 1]) then s
    else TrimEnd(s[..|s| - 1])
  }

  /** Trimming is determined by its two promises: whatever prefix is kept
      ends in a non-whitespace character and only whitespace is dropped. */
  lemma {:induction false} TrimEndUnique(s: string, t: string)
    requires t <= s
    requires t == [] || !IsAsciiWhitespace(t[|t| - 1])
    requires forall i :: |t| <= i < |s| ==> IsAsciiWhitespace(s[i])
    ensures t == TrimEnd(s)
  {
    if |s| > 0 && IsAsciiWhitespace(s[|s| - 1]) {
      TrimEndUnique(s[..|s| - 1], t);
    }
  }

  lemma TrimEndIdempotent(s: string)
    ensures TrimEnd(TrimEnd(s)) == TrimEnd(s)
  {
  }

  /** The lines of `parts`, each trimmed, the empty ones dropped. */
  function TrimmedLines(parts: seq<string>): (ls: seq<string>)
    ensures forall i :: 0 <= i < |ls| ==> ls[i] != [] && !IsAsciiWhitespace(ls[i][|ls[i]| - 1])
    ensures |ls| <= |parts|
  {
    if |parts| == 0 then []
    else
      var t := TrimEnd(parts[0]);
      (if t == [] then [] else [t]) + TrimmedLines(parts[1..])
  }

  /** The rendering: rows with trailing whitespace removed, blank rows
      dropped, joined by newlines. */
  function RenderTrimmed(tb: Buffer): string
    requires tb.cols > 0
  {
    Join(TrimmedLines(Split(RenderPadded(tb))), "\n")
  }

  /** The row texts from row `from` on. */
  function RowTexts(tb: Buffer, from: nat): seq<string>
    decreases Rows(tb) - from
  {
    if from >= Rows(tb) then [] else [RowText(tb, from)] + RowTexts(tb, from + 1)
  }

  ghost predicate NoNewline(tb: Buffer) {
    forall p :: Get(tb, p) != Some('\n')
  }

  lemma RowTextNoNewline(tb: Buffer, y: nat)
    requires NoNewline(tb)
    ensures '\n' !in RowText(tb, y)
  {
    var line := RowText(tb, y);
    forall x | 0 <= x < |line|
      ensures line[x] != '\n'
    {
      assert Get(tb, TextCoordinate(x, y)) != Some('\n');
    }
  }

  lemma {:induction false} RowTextsNoNewline(tb: Buffer, from: nat)
    requires NoNewline(tb)
    ensures forall i :: 0 <= i < |RowTexts(tb, from)| ==> '\n' !in RowTexts(tb, from)[i]
    decreases Rows(tb) - from
  {
    if from < Rows(tb) {
      RowTextNoNewline(tb, from);
      RowTextsNoNewline(tb, from + 1);
    }
  }

  lemma {:induction false} SplitRaw(tb: Buffer, from: nat)
    requires NoNewline(tb)
    ensures Split(RawFrom(tb, from)) == RowTexts(tb, from) + [[]]
    decreases Rows(tb) - from
  {
    if from < Rows(tb) {
      RowTextNoNewline(tb, from);
      SplitRaw(tb, from + 1);
      SplitAfterLine(RowText(tb, from), RawFrom(tb, from + 1));
    } else {
      assert Split([]) == [[]];
    }
  }

  lemma {:induction false} TrimmedLinesNoNewline(parts: seq<string>)
    requires forall i :: 0 <= i < |parts| ==> '\n' !in parts[i]
    ensures forall i :: 0 <= i < |TrimmedLines(parts)| ==> '\n' !in TrimmedLines(parts)[i]
  {
    if |parts| > 0 {
      TrimmedLinesNoNewline(parts[1..]);
      var t := TrimEnd(parts[0]);
      assert forall c :: c in t ==> c in parts[0];
    }
  }

  /** When no cell holds a newline, the padded rendering consists of exactly
      the rows, and the trimmed rendering lists the rows that are not blank,
      each without trailing whitespace, one per line, in order. */
  lemma RenderRows(tb: Buffer)
    requires tb.cols > 0 && NoNewline(tb)
    ensures Split(RenderPadded(tb)) == RowTexts(tb, 0) + [[]]
    ensures RenderTrimmed(tb) == Join(TrimmedLines(RowTexts(tb, 0)), "\n")
  {
    SplitRaw(tb, 0);
    TrimmedLinesAppendBlank(RowTexts(tb, 0));
  }

  lemma {:induction false} TrimmedLinesAppendBlank(parts: seq<string>)
    ensures TrimmedLines(parts + [[]]) == TrimmedLines(parts)
  {
    if |parts| == 0 {
      var blank: string := [];
      assert TrimmedLines([blank]) == [];
    } else {
      TrimmedLinesAppendBlank(parts[1..]);
      assert (parts + [[]])[1..] == parts[1..] + [[]];
    }
  }

  /** Joining non-empty, newline-free lines that end in non-whitespace and
      splitting again yields lines of that kind. */
  lemma JoinedLines(ls: seq<string>)
    requires forall i :: 0 <= i < |ls| ==> ls[i] != [] && !IsAsciiWhitespace(ls[i][|ls[i]| - 1])
    requires forall i :: 0 <= i < |ls| ==> '\n' !in ls[i]
    ensures |ls| > 0 ==> Split(Join(ls, "\n")) == ls
    ensures |ls| == 0 ==> Split(Join(ls, "\n")) == [[]]
  {
    if |ls| > 0 {
      JoinSplit(ls);
    } else {
      assert Split([]) == [[]];
    }
  }

  /** Every line of the trimmed rendering is non-empty and ends in a
      non-whitespace character, whatever the cells hold (a buffer with only
      blank rows renders as the empty text). */
  lemma RenderLines(tb: Buffer)
    requires tb.cols > 0
    ensures var lines := Split(RenderTrimmed(tb));
      lines == [[]] || forall i :: 0 <= i < |lines| ==> lines[i] != [] && !IsAsciiWhitespace(lines[i][|lines[i]| - 1])
  {
    var ls := TrimmedLines(Split(RenderPadded(tb)));
    TrimmedLinesNoNewline(Split(RenderPadded(tb)));
    JoinedLines(ls);
  }
}

=== FILE: scanner.dfy ===
/** The two-state segment scanner shared by the current analyzers: it reads
    one traversal of the grid, already classified, and reports each run
    "terminal, edges of its axis, terminal" whose cells follow each other
    along the axis. */
module Scanner {
  import opened Tc
  import opened Wrappers
  import opened Segments
  import opened Glyphs

  /** A classified cell of the traversal. */
  datatype Item = Item(pos: TextCoordinate, kind: Class)

  datatype State = Blank | Tracking(track: LineSegment)

  /** The sentinel appended to every traversal. */
  const EndOfInput: Item := Item(TextCoordinate(100000, 100000), End)

  /** `c` is the next cell after `t` along the axis. */
  predicate ValidNext(axis: Axis, t: TextCoordinate, c: TextCoordinate) {
    match axis
    case Horizontal => t.y == c.y && t.x + 1 == c.x
    case Vertical => t.x == c.x && t.y + 1 == c.y
    case DownRight => t.y + 1 == c.y && t.x + 1 == c.x
    case UpRight => t.y == c.y + 1 && t.x + 1 == c.x
  }

  /** One item fed to the scanner: the next state and the segment it
      reports, if any. */
  function Step(axis: Axis, st: State, it: Item): (State, Option<LineSegment>) {
    match st
    case Blank =>
      if it.kind == Term then (Tracking(LineSegment(it.pos, it.pos)), None) else (Blank, None)
    case Tracking(t) =>
      if ValidNext(axis, t.end, it.pos) then
        match it.kind
        case Term => (Tracking(LineSegment(it.pos, it.pos)), Some(LineSegment(t.start, it.pos)))
        case End => (Blank, None)
        case Edge(a) => if a == axis then (Tracking(LineSegment(t.start, it.pos)), None) else (Blank, None)
      else if it.kind == Term then (Tracking(LineSegment(it.pos, it.pos)), None)
      else (Blank, None)
  }

  function OptionToSeq<T>(o: Option<T>): seq<T> {
    match o case Some(v) => [v] case None => []
  }

  /** The scanner fed `items` from the blank state: its final state and the
      segments reported, in order. */
  function Run(axis: Axis, items: seq<Item>): (State, seq<LineSegment>) {
    if |items| == 0 then (Blank, [])
    else
      var (st, out) := Run(axis, items[..|items| - 1]);
      var (st', e) := Step(axis, st, items[|items| - 1]);
      (st', out + OptionToSeq(e))
  }

  /** The segments at least `minLen` long. */
  function Retain(segs: seq<LineSegment>, minLen: nat): (r: seq<LineSegment>)
    ensures forall s :: s in r <==> s in segs && Len(s) >= minLen
    ensures |r| <= |segs|
  {
    if |segs| == 0 then []
    else (if Len(segs[0]) >= minLen then [segs[0]] else []) + Retain(segs[1..], minLen)
  }

  /** The segment finder: the scanner over the items and the sentinel, then
      the length filter (at least 1 in the four-direction and backend
      analyzers, at least 2 in the editor's). */
  function Finder(axis: Axis, items: seq<Item>, minLen: nat): seq<LineSegment> {
    Retain(Run(axis, items + [EndOfInput]).1, minLen)
  }

  // ---- Characterisation of what the scanner reports.

  /** Items i .. k follow each other along the axis. */
  predicate Linked(axis: Axis, items: seq<Item>, i: nat, k: nat)
    requires k < |items|
  {
    forall m :: i <= m < k ==> ValidNext(axis, items[m].pos, items[m + 1].pos)
  }

  /** A run still open at the end of `items[..k]`: a terminal at `i`
      followed by edges of the axis up to item k-1, all linked. */
  predicate Open(axis: Axis, items: seq<Item>, i: nat, k: nat) {
    i < k <= |items| && items[i].kind == Term
    && (forall m :: i < m < k ==> items[m].kind == Edge(axis))
    && Linked(axis, items, i, k - 1)
  }

  /** The run open from `i` is closed by the terminal at `k`. */
  predicate Closes(axis: Axis, items: seq<Item>, i: nat, k: nat) {
    k < |items| && Open(axis, items, i, k) && items[k].kind == Term
    && ValidNext(axis, items[k - 1].pos, items[k].pos)
  }

  /** The segment a closed run stands for. */
  function Closed(items: seq<Item>, i: nat, k: nat): LineSegment
    requires i < |items| && k < |items|
  {
    LineSegment(items[i].pos, items[k].pos)
  }

  lemma OpenPrefix(axis: Axis, items: seq<Item>, i: nat, k: nat)
    requires k < |items|
    ensures Open(axis, items[..|items| - 1], i, k) <==> Open(axis, items, i, k)
  {
    var p := items[..|items| - 1];
    if i < k <= |p| {
      assert forall m :: i <= m < k ==> p[m] == items[m];
    }
  }

  lemma ClosesPrefix(axis: Axis, items: seq<Item>, i: nat, k: nat)
    requires k + 1 < |items|
    ensures Closes(axis, items[..|items| - 1], i, k) <==> Closes(axis, items, i, k)
  {
    OpenPrefix(axis, items, i, k);
  }

  /** A run open at the end of `items` grows by one edge, or a new one starts
      at a terminal. */
  lemma OpenStep(axis: Axis, items: seq<Item>, i: nat)
    requires |items| > 0
    ensures var n := |items|;
      Open(axis, items, i, n) <==>
        (i == n - 1 && items[n - 1].kind == Term)
        || (i < n - 1 && Open(axis, items[..n - 1], i, n - 1) && items[n - 1].kind == Edge(axis)
            && ValidNext(axis, items[n - 2].pos, items[n - 1].pos))
  {
    var n := |items|;
    if i < n - 1 {
      OpenPrefix(axis, items, i, n - 1);
      if Open(axis, items, i, n) {
        assert Linked(axis, items, i, n - 2);
      }
    }
  }

  /** The state after `items`: tracking exactly when a run is open at the
      end, from the run's terminal to the last item. */
  lemma {:induction false} RunState(axis: Axis, items: seq<Item>)
    ensures Run(axis, items).0.Tracking? <==> exists i: nat :: Open(axis, items, i, |items|)
    ensures forall i: nat :: Open(axis, items, i, |items|) ==>
      Run(axis, items).0 == Tracking(LineSegment(items[i].pos, items[|items| - 1].pos))
  {
    if |items| > 0 {
      var p := items[..|items| - 1];
      RunState(axis, p);
      var st := Run(axis, p).0;
      assert Run(axis, items).0 == Step(axis, st, items[|items| - 1]).0;
      forall i: nat | Open(axis, items, i, |items|)
        ensures Run(axis, items).0 == Tracking(LineSegment(items[i].pos, items[|items| - 1].pos))
      {
        OpenIsTracked(axis, items, p, st, i);
      }
      if Run(axis, items).0.Tracking? {
        var i := TrackedIsOpen(axis, items, p, st);
      }
    }
  }

  /** The step of `RunState` from an open run to the tracking state. */
  lemma OpenIsTracked(axis: Axis, items: seq<Item>, p: seq<Item>, st: State, i: nat)
    requires |items| > 0 && p == items[..|items| - 1]
    requires st.Tracking? <==> exists i: nat :: Open(axis, p, i, |p|)
    requires forall i: nat :: Open(axis, p, i, |p|) ==> st == Tracking(LineSegment(p[i].pos, p[|p| - 1].pos))
    requires Open(axis, items, i, |items|)
    ensures Step(axis, st, items[|items| - 1]).0 == Tracking(LineSegment(items[i].pos, items[|items| - 1].pos))
  {
    var n := |items|;
    OpenStep(axis, items, i);
    if i < n - 1 {
      assert Open(axis, p, i, n - 1);
      assert p[i] == items[i] && p[n - 2] == items[n - 2];
    }
  }

  /** The step of `RunState` from the tracking state to an open run. */
  lemma TrackedIsOpen(axis: Axis, items: seq<Item>, p: seq<Item>, st: State) returns (i: nat)
    requires |items| > 0 && p == items[..|items| - 1]
    requires st.Tracking? <==> exists i: nat :: Open(axis, p, i, |p|)
    requires forall i: nat :: Open(axis, p, i, |p|) ==> st == Tracking(LineSegment(p[i].pos, p[|p| - 1].pos))
    requires Step(axis, st, items[|items| - 1]).0.Tracking?
    ensures Open(axis, items, i, |items|)
  {
    var n := |items|;
    var it := items[n - 1];
    if it.kind == Term {
      i := n - 1;
      OpenStep(axis, items, i);
    } else {
      var j: nat :| Open(axis, p, j, n - 1);
      assert p[n - 2] == items[n - 2];
      i := j;
      OpenStep(axis, items, i);
    }
  }

  /** Run by run: a segment is reported exactly when some run closes, and
      it goes from the run's first terminal to its closing one. */
  lemma {:induction false} RunOutput(axis: Axis, items: seq<Item>)
    ensures forall s :: s in Run(axis, items).1 <==>
      exists i: nat, k: nat :: Closes(axis, items, i, k) && s == Closed(items, i, k)
  {
    if |items| > 0 {
      RunOutput(axis, items[..|items| - 1]);
      forall s | s in Run(axis, items).1
        ensures exists i: nat, k: nat :: Closes(axis, items, i, k) && s == Closed(items, i, k)
      {
        ReportedCloses(axis, items, items[..|items| - 1], s);
      }
      forall i: nat, k: nat | Closes(axis, items, i, k)
        ensures Closed(items, i, k) in Run(axis, items).1
      {
        ClosesReported(axis, items, items[..|items| - 1], i, k);
      }
    }
  }

  /** The step of `RunOutput` from reported segment to closed run. */
  lemma ReportedCloses(axis: Axis, items: seq<Item>, p: seq<Item>, s: LineSegment)
    requires |items| > 0 && p == items[..|items| - 1]
    requires forall s :: s in Run(axis, p).1 <==> exists i: nat, k: nat :: Closes(axis, p, i, k) && s == Closed(p, i, k)
    requires s in Run(axis, items).1
    ensures exists i: nat, k: nat :: Closes(axis, items, i, k) && s == Closed(items, i, k)
  {
    var st, out := Run(axis, p).0, Run(axis, p).1;
    var e := Step(axis, st, items[|items| - 1]).1;
    assert Run(axis, items).1 == out + OptionToSeq(e);
    if s in out {
      var i: nat, k: nat :| Closes(axis, p, i, k) && s == Closed(p, i, k);
      ClosesInPrefix(axis, items, p, i, k);
    } else {
      assert e == Some(s);
      var i := LastStepCloses(axis, items, p, s);
    }
  }

  /** The step of `RunOutput` from closed run to reported segment. */
  lemma ClosesReported(axis: Axis, items: seq<Item>, p: seq<Item>, i: nat, k: nat)
    requires |items| > 0 && p == items[..|items| - 1]
    requires forall s :: s in Run(axis, p).1 <==> exists i: nat, k: nat :: Closes(axis, p, i, k) && s == Closed(p, i, k)
    requires Closes(axis, items, i, k)
    ensures Closed(items, i, k) in Run(axis, items).1
  {
    var st, out := Run(axis, p).0, Run(axis, p).1;
    var e := Step(axis, st, items[|items| - 1]).1;
    assert Run(axis, items).1 == out + OptionToSeq(e);
    if k < |p| {
      ClosesInPrefix(axis, items, p, i, k);
      assert Closed(p, i, k) in out;
    } else {
      LastStepReports(axis, items, p, i);
      assert OptionToSeq(e) == [Closed(items, i, k)];
    }
  }

  /** A run closing before the last item closes the same way without it. */
  lemma ClosesInPrefix(axis: Axis, items: seq<Item>, p: seq<Item>, i: nat, k: nat)
    requires |items| > 0 && p == items[..|items| - 1] && k < |p|
    ensures Closes(axis, p, i, k) <==> Closes(axis, items, i, k)
    ensures i < |p| ==> Closed(p, i, k) == Closed(items, i, k)
  {
    ClosesPrefix(axis, items, i, k);
  }

  /** What the last item reports closes the run open before it. */
  lemma LastStepCloses(axis: Axis, items: seq<Item>, p: seq<Item>, s: LineSegment) returns (i: nat)
    requires |items| > 0 && p == items[..|items| - 1]
    requires Step(axis, Run(axis, p).0, items[|items| - 1]).1 == Some(s)
    ensures Closes(axis, items, i, |items| - 1) && s == Closed(items, i, |items| - 1)
  {
    var n := |items|;
    var st := Run(axis, p).0;
    StepReports(axis, st, items[n - 1], s);
    RunState(axis, p);
    i :| Open(axis, p, i, n - 1);
    assert st.track == LineSegment(p[i].pos, p[n - 2].pos);
    assert p[i] == items[i] && p[n - 2] == items[n - 2];
    OpenPrefix(axis, items, i, n - 1);
    assert Closes(axis, items, i, n - 1);
  }

  /** A run that the last item closes is reported by that item's step. */
  lemma LastStepReports(axis: Axis, items: seq<Item>, p: seq<Item>, i: nat)
    requires |items| > 0 && p == items[..|items| - 1]
    requires Closes(axis, items, i, |items| - 1)
    ensures Step(axis, Run(axis, p).0, items[|items| - 1]).1 == Some(Closed(items, i, |items| - 1))
  {
    var n := |items|;
    OpenPrefix(axis, items, i, n - 1);
    assert Open(axis, p, i, n - 1);
    RunState(axis, p);
    assert p[i] == items[i] && p[n - 2] == items[n - 2];
  }

  /** A step reports a segment only when a tracked run is closed by a
      terminal that follows on from it. */
  lemma StepReports(axis: Axis, st: State, it: Item, s: LineSegment)
    requires Step(axis, st, it).1 == Some(s)
    ensures st.Tracking? && ValidNext(axis, st.track.end, it.pos) && it.kind == Term
    ensures s == LineSegment(st.track.start, it.pos)
  {
  }

  /** Appending the sentinel neither closes nor reports anything. */
  lemma WithSentinel(axis: Axis, items: seq<Item>, i: nat, k: nat)
    ensures Closes(axis, items + [EndOfInput], i, k) <==> Closes(axis, items, i, k)
  {
    var all := items + [EndOfInput];
    if k < |items| {
      assert all[..|all| - 1] == items;
      ClosesPrefix(axis, all, i, k);
    }
  }

  /** What the finder returns: exactly the segments of closed runs that are
      long enough. */
  lemma FinderSpec(axis: Axis, items: seq<Item>, minLen: nat)
    ensures forall s :: s in Finder(axis, items, minLen) <==>
      Len(s) >= minLen && exists i: nat, k: nat :: Closes(axis, items, i, k) && s == Closed(items, i, k)
  {
    var all := items + [EndOfInput];
    RunOutput(axis, all);
    forall i: nat, k: nat
      ensures Closes(axis, all, i, k) <==> Closes(axis, items, i, k)
    {
      WithSentinel(axis, items, i, k);
    }
    forall i: nat, k: nat | Closes(axis, items, i, k)
      ensures Closed(all, i, k) == Closed(items, i, k)
    {
    }
  }

  // ---- The shape of a reported segment.

  /** The segment kind a scan along `axis` produces. */
  function AxisKind(axis: Axis): Kind {
    match axis
    case Horizontal => Horiz
    case Vertical => Vert
    case DownRight => DownSlant
    case UpRight => UpSlant
  }

  /** `b` lies `n` cells from `a` along the axis. */
  predicate Steps(axis: Axis, a: TextCoordinate, b: TextCoordinate, n: nat) {
    match axis
    case Horizontal => b == TextCoordinate(a.x + n, a.y)
    case Vertical => b == TextCoordinate(a.x, a.y + n)
    case DownRight => b == TextCoordinate(a.x + n, a.y + n)
    case UpRight => b.x == a.x + n && b.y + n == a.y
  }

  lemma {:induction false} LinkedSteps(axis: Axis, items: seq<Item>, i: nat, k: nat)
    requires i <= k < |items| && Linked(axis, items, i, k)
    ensures Steps(axis, items[i].pos, items[k].pos, k - i)
  {
    if i < k {
      assert Linked(axis, items, i, k - 1);
      LinkedSteps(axis, items, i, k - 1);
      assert ValidNext(axis, items[k - 1].pos, items[k].pos);
    }
  }

  /** A segment `n >= 1` cells along the axis has length `n` and the
      axis's kind. */
  lemma StepsShape(axis: Axis, a: TextCoordinate, b: TextCoordinate, n: nat)
    requires n >= 1 && Steps(axis, a, b, n)
    ensures Len(LineSegment(a, b)) == n
    ensures KindOf(LineSegment(a, b)) == AxisKind(axis)
  {
  }

  /** A closed run spans k - i cells along the axis, from a terminal to a
      terminal, with edges of the axis in between. */
  lemma ClosedShape(axis: Axis, items: seq<Item>, i: nat, k: nat)
    requires Closes(axis, items, i, k)
    ensures Len(Closed(items, i, k)) == k - i >= 1
    ensures KindOf(Closed(items, i, k)) == AxisKind(axis)
    ensures items[i].kind == Term && items[k].kind == Term
    ensures forall m :: i < m < k ==> items[m].kind == Edge(axis)
  {
    assert Linked(axis, items, i, k);
    LinkedSteps(axis, items, i, k);
    StepsShape(axis, items[i].pos, items[k].pos, k - i);
  }

  /** Every reported segment has the axis's kind and is at least one cell
      long. */
  lemma FinderShape(axis: Axis, items: seq<Item>, minLen: nat)
    ensures forall s :: s in Finder(axis, items, minLen) ==> KindOf(s) == AxisKind(axis) && Len(s) >= 1
  {
    FinderSpec(axis, items, minLen);
    forall s | s in Finder(axis, items, minLen)
      ensures KindOf(s) == AxisKind(axis) && Len(s) >= 1
    {
      var i: nat, k: nat :| Closes(axis, items, i, k) && s == Closed(items, i, k);
      ClosedShape(axis, items, i, k);
    }
  }

  lemma {:induction false} RetainAll(segs: seq<LineSegment>, minLen: nat)
    requires forall s :: s in segs ==> Len(s) >= minLen
    ensures Retain(segs, minLen) == segs
  {
    if |segs| > 0 {
      assert segs[0] in segs;
      RetainAll(segs[1..], minLen);
      assert segs == [segs[0]] + segs[1..];
    }
  }

  /** The filter "at least one cell long" removes nothing: the scanner only
      reports runs that close on a later item. */
  lemma LengthOneFilterIsRedundant(axis: Axis, items: seq<Item>)
    ensures Finder(axis, items, 1) == Run(axis, items + [EndOfInput]).1
  {
    var all := items + [EndOfInput];
    RunOutput(axis, all);
    forall s | s in Run(axis, all).1
      ensures Len(s) >= 1
    {
      var i: nat, k: nat :| Closes(axis, all, i, k) && s == Closed(all, i, k);
      ClosedShape(axis, all, i, k);
    }
    RetainAll(Run(axis, all).1, 1);
  }

  // ---- Small scans.

  lemma RunSnoc(axis: Axis, items: seq<Item>, it: Item)
    ensures Run(axis, items + [it]).0 == Step(axis, Run(axis, items).0, it).0
    ensures Run(axis, items + [it]).1 == Run(axis, items).1 + OptionToSeq(Step(axis, Run(axis, items).0, it).1)
  {
    assert (items + [it])[..|items|] == items;
  }

  /** Two terminals one row apart in a column make one segment of length
      one, which survives the filter "at least 1" and not "at least 2". */
  lemma ShortColumn()
    ensures var items := [Item(TextCoordinate(4, 3), Term), Item(TextCoordinate(4, 4), Term)];
      Finder(Vertical, items, 1) == [LineSegment(TextCoordinate(4, 3), TextCoordinate(4, 4))]
      && Finder(Vertical, items, 2) == []
  {
    var a, b := Item(TextCoordinate(4, 3), Term), Item(TextCoordinate(4, 4), Term);
    RunSnoc(Vertical, [], a);
    assert [] + [a] == [a];
    RunSnoc(Vertical, [a], b);
    assert [a] + [b] == [a, b];
    RunSnoc(Vertical, [a, b], EndOfInput);
    var segs := Run(Vertical, [a, b] + [EndOfInput]).1;
    assert segs == [LineSegment(a.pos, b.pos)];
    assert Retain(segs[1..], 1) == [];
  }

  /** A crossing edge of the other axis between two terminals breaks the
      run. */
  lemma CrossingEdgeBreaks()
    ensures Finder(Horizontal, [Item(TextCoordinate(0, 0), Term), Item(TextCoordinate(1, 0), Edge(Vertical)),
                                Item(TextCoordinate(2, 0), Term)], 1) == []
  {
    var a, b, c := Item(TextCoordinate(0, 0), Term), Item(TextCoordinate(1, 0), Edge(Vertical)), Item(TextCoordinate(2, 0), Term);
    RunSnoc(Horizontal, [], a);
    assert [] + [a] == [a];
    RunSnoc(Horizontal, [a], b);
    assert [a] + [b] == [a, b];
    RunSnoc(Horizontal, [a, b], c);
    assert [a, b] + [c] == [a, b, c];
    RunSnoc(Horizontal, [a, b, c], EndOfInput);
  }

  /** One more item, with the state and output so far already known. */
  lemma RunStep(axis: Axis, items: seq<Item>, it: Item, next: seq<Item>,
                st: State, out: seq<LineSegment>, st': State, e: Option<LineSegment>, out': seq<LineSegment>)
    requires next == items + [it] && Run(axis, items) == (st, out) && Step(axis, st, it) == (st', e)
    requires out' == out + OptionToSeq(e)
    ensures Run(axis, next) == (st', out')
  {
    RunSnoc(axis, items, it);
  }

  // The restart example: `+--+ ++` on row 0.
  const RestartStart := Item(TextCoordinate(0, 0), Term)
  const RestartEdge1 := Item(TextCoordinate(1, 0), Edge(Horizontal))
  const RestartEdge2 := Item(TextCoordinate(2, 0), Edge(Horizontal))
  const RestartEnd := Item(TextCoordinate(3, 0), Term)
  const RestartNext1 := Item(TextCoordinate(5, 0), Term)
  const RestartNext2 := Item(TextCoordinate(6, 0), Term)

  lemma RestartFirstRun()
    ensures Run(Horizontal, [RestartStart, RestartEdge1, RestartEdge2, RestartEnd])
      == (Tracking(LineSegment(RestartEnd.pos, RestartEnd.pos)), [LineSegment(RestartStart.pos, RestartEnd.pos)])
  {
    var p0, e1, e2, t3 := RestartStart, RestartEdge1, RestartEdge2, RestartEnd;
    var none: seq<LineSegment> := [];
    assert Run(Horizontal, []) == (Blank, none);
    RunStep(Horizontal, [], p0, [p0], Blank, none, Tracking(LineSegment(p0.pos, p0.pos)), None, none);
    RunStep(Horizontal, [p0], e1, [p0, e1], Tracking(LineSegment(p0.pos, p0.pos)), none,
            Tracking(LineSegment(p0.pos, e1.pos)), None, none);
    RunStep(Horizontal, [p0, e1], e2, [p0, e1, e2], Tracking(LineSegment(p0.pos, e1.pos)), none,
            Tracking(LineSegment(p0.pos, e2.pos)), None, none);
    RunStep(Horizontal, [p0, e1, e2], t3, [p0, e1, e2, t3], Tracking(LineSegment(p0.pos, e2.pos)), none,
            Tracking(LineSegment(t3.pos, t3.pos)), Some(LineSegment(p0.pos, t3.pos)), [LineSegment(p0.pos, t3.pos)]);
  }

  lemma RestartSecondRun()
    ensures Run(Horizontal, [RestartStart, RestartEdge1, RestartEdge2, RestartEnd, RestartNext1, RestartNext2, EndOfInput]).1
      == [LineSegment(RestartStart.pos, RestartEnd.pos), LineSegment(RestartNext1.pos, RestartNext2.pos)]
  {
    var p0, e1, e2, t3, t5, t6 := RestartStart, RestartEdge1, RestartEdge2, RestartEnd, RestartNext1, RestartNext2;
    var first, second := LineSegment(p0.pos, t3.pos), LineSegment(t5.pos, t6.pos);
    RestartFirstRun();
    RunStep(Horizontal, [p0, e1, e2, t3], t5, [p0, e1, e2, t3, t5], Tracking(LineSegment(t3.pos, t3.pos)), [first],
            Tracking(LineSegment(t5.pos, t5.pos)), None, [first]);
    RunStep(Horizontal, [p0, e1, e2, t3, t5], t6, [p0, e1, e2, t3, t5, t6], Tracking(LineSegment(t5.pos, t5.pos)), [first],
            Tracking(LineSegment(t6.pos, t6.pos)), Some(second), [first, second]);
    RunStep(Horizontal, [p0, e1, e2, t3, t5, t6], EndOfInput, [p0, e1, e2, t3, t5, t6, EndOfInput],
            Tracking(LineSegment(t6.pos, t6.pos)), [first, second], Blank, None, [first, second]);
  }

  /** A run of two edges between terminals closes into one segment; a
      terminal that does not follow on restarts the scan from itself. */
  lemma RunAndRestart()
    ensures Finder(Horizontal, [Item(TextCoordinate(0, 0), Term), Item(TextCoordinate(1, 0), Edge(Horizontal)),
                                Item(TextCoordinate(2, 0), Edge(Horizontal)), Item(TextCoordinate(3, 0), Term),
                                Item(TextCoordinate(5, 0), Term), Item(TextCoordinate(6, 0), Term)], 1)
      == [LineSegment(TextCoordinate(0, 0), TextCoordinate(3, 0)), LineSegment(TextCoordinate(5, 0), TextCoordinate(6, 0))]
  {
    var items := [RestartStart, RestartEdge1, RestartEdge2, RestartEnd, RestartNext1, RestartNext2];
    assert items + [EndOfInput] == [RestartStart, RestartEdge1, RestartEdge2, RestartEnd, RestartNext1, RestartNext2, EndOfInput];
    RestartSecondRun();
    var segs := [LineSegment(TextCoordinate(0, 0), TextCoordinate(3, 0)), LineSegment(TextCoordinate(5, 0), TextCoordinate(6, 0))];
    assert Retain(segs[1..], 1) == [segs[1]];
  }
}

=== FILE: segment.dfy ===
/** Line segments found in a diagram: two grid coordinates, their packed
    identifier, their direction and their length. */
module Segments {
  import opened Tc
  import Rect

  datatype LineSegment = LineSegment(start: TextCoordinate, end: TextCoordinate)

  /** A segment from (sx, sy) to (ex, ey). */
  function Seg(sx: nat, sy: nat, ex: nat, ey: nat): LineSegment {
    LineSegment(TextCoordinate(sx, sy), TextCoordinate(ex, ey))
  }

  /** The direction of a segment, judged from the sign of its deltas. */
  datatype Kind = Horiz | Vert | DownSlant | UpSlant

  /** The identifier used as sort key: the low byte of each coordinate,
      packed as end.y, end.x, start.y, start.x from the most significant
      byte down. */
  function Id(s: LineSegment): (id: nat)
    ensures id < 0x1_0000_0000
  {
    (s.end.y % 256) * 0x100_0000 + (s.end.x % 256) * 0x1_0000 + (s.start.y % 256) * 0x100 + s.start.x % 256
  }

  /** Unpacks an identifier byte by byte, least significant first. */
  function DecodeId(id: nat): (s: LineSegment)
    ensures SmallCoordinates(s)
  {
    var q1 := id / 256;
    var q2 := q1 / 256;
    LineSegment(TextCoordinate(id % 256, q1 % 256), TextCoordinate(q2 % 256, (q2 / 256) % 256))
  }

  predicate SmallCoordinates(s: LineSegment) {
    s.start.x < 256 && s.start.y < 256 && s.end.x < 256 && s.end.y < 256
  }

  lemma DivUnique(n: nat, q: nat, r: nat)
    requires n == q * 256 + r && r < 256
    ensures n / 256 == q && n % 256 == r
  {
  }

  /** On coordinates below 256 the identifier loses nothing. */
  lemma DecodeIdRoundTrip(s: LineSegment)
    requires SmallCoordinates(s)
    ensures DecodeId(Id(s)) == s
  {
    var a, b, c, d := s.start.x, s.start.y, s.end.x, s.end.y;
    var n2 := d * 256 + c;
    var n1 := n2 * 256 + b;
    IdPacks(s, n1, n2);
    DivUnique(Id(s), n1, a);
    DivUnique(n1, n2, b);
    DivUnique(n2, d, c);
    DivUnique(d, 0, d);
    DecodeParts(Id(s), n1, n2, s);
  }

  /** On small coordinates the identifier is the base-256 number with
      digits end.y, end.x, start.y, start.x. */
  lemma IdPacks(s: LineSegment, n1: nat, n2: nat)
    requires SmallCoordinates(s)
    requires n2 == s.end.y * 256 + s.end.x && n1 == n2 * 256 + s.start.y
    ensures Id(s) == n1 * 256 + s.start.x
  {
  }

  /** Decoding reads off the four digits. */
  lemma DecodeParts(id: nat, n1: nat, n2: nat, s: LineSegment)
    requires id / 256 == n1 && id % 256 == s.start.x
    requires n1 / 256 == n2 && n1 % 256 == s.start.y
    requires n2 / 256 == s.end.y && n2 % 256 == s.end.x && s.end.y % 256 == s.end.y
    ensures DecodeId(id) == s
  {
  }

  /** Every identifier is the identifier of its decoding. */
  lemma IdDecodeRoundTrip(id: nat)
    requires id < 0x1_0000_0000
    ensures Id(DecodeId(id)) == id
  {
    var q1 := id / 256;
    var q2 := q1 / 256;
    var q3 := q2 / 256;
    assert id == q1 * 256 + id % 256;
    assert q1 == q2 * 256 + q1 % 256;
    assert q2 == q3 * 256 + q2 % 256;
    assert q3 < 256;
    assert q3 % 256 == q3;
  }

  /** Two segments with small coordinates have the same identifier only if
      they are the same segment. */
  lemma IdInjective(a: LineSegment, b: LineSegment)
    requires SmallCoordinates(a) && SmallCoordinates(b)
    ensures Id(a) == Id(b) <==> a == b
  {
    DecodeIdRoundTrip(a);
    DecodeIdRoundTrip(b);
  }

  function DeltaX(s: LineSegment): int { s.end.x - s.start.x }
  function DeltaY(s: LineSegment): int { s.end.y - s.start.y }

  /** No vertical change is horizontal; otherwise no horizontal change is
      vertical; otherwise both deltas non-negative is a down slant and
      anything else an up slant. */
  function KindOf(s: LineSegment): Kind {
    if DeltaY(s) == 0 then Horiz
    else if DeltaX(s) == 0 then Vert
    else if DeltaX(s) >= 0 && DeltaY(s) >= 0 then DownSlant
    else UpSlant
  }

  /** The kinds in terms of the endpoints: a down slant has its end strictly
      right of and below its start; walking a segment backwards keeps it
      horizontal or vertical, but turns a down slant into an up slant. */
  lemma KindOfReversed(s: LineSegment)
    ensures KindOf(s) == Horiz <==> s.start.y == s.end.y
    ensures KindOf(s) == Vert <==> s.start.y != s.end.y && s.start.x == s.end.x
    ensures KindOf(s) == DownSlant <==> s.start.x < s.end.x && s.start.y < s.end.y
    ensures KindOf(s) in {Horiz, Vert} ==> KindOf(LineSegment(s.end, s.start)) == KindOf(s)
    ensures KindOf(s) == DownSlant ==> KindOf(LineSegment(s.end, s.start)) == UpSlant
  {
  }

  function Abs(n: int): nat { if n < 0 then -n else n }

  /** The number of steps along the longer axis. */
  function Len(s: LineSegment): (n: nat)
    ensures n >= Abs(DeltaX(s)) && n >= Abs(DeltaY(s))
    ensures n == Abs(DeltaX(s)) || n == Abs(DeltaY(s))
    ensures n == 0 <==> s.start == s.end
  {
    if Abs(DeltaX(s)) >= Abs(DeltaY(s)) then Abs(DeltaX(s)) else Abs(DeltaY(s))
  }

  // ---- Points along a segment.

  /** The `p`-th point from the start in the segment's direction; an up
      slant needs `p` steps of room above its start. */
  function PointAt(s: LineSegment, p: nat): TextCoordinate
    requires KindOf(s) == UpSlant ==> p <= s.start.y
  {
    match KindOf(s)
    case Horiz => TextCoordinate(s.start.x + p, s.start.y)
    case Vert => TextCoordinate(s.start.x, s.start.y + p)
    case DownSlant => TextCoordinate(s.start.x + p, s.start.y + p)
    case UpSlant => TextCoordinate(s.start.x + p, s.start.y - p)
  }

  /** How many points `PointsFrom` yields: the forward x-distance, or the
      forward y-distance for a vertical segment; never negative. */
  function StepCount(s: LineSegment): nat {
    if KindOf(s) == Vert then SatSub(s.end.y, s.start.y) else SatSub(s.end.x, s.start.x)
  }

  /** The points of a segment from its start up to but not including its
      end.  Walking an up slant further than its start's row would go below
      row 0. */
  function PointsFrom(s: LineSegment): (ps: seq<TextCoordinate>)
    requires KindOf(s) == UpSlant ==> StepCount(s) <= s.start.y
    ensures |ps| == StepCount(s)
    ensures forall p :: 0 <= p < |ps| ==> ps[p] == PointAt(s, p)
  {
    seq(StepCount(s), p requires 0 <= p < StepCount(s) => PointAt(s, p))
  }

  /** The points of a segment from start to end inclusive, along x when it
      lies in one row and along y otherwise. */
  function PointsThrough(s: LineSegment): (ps: seq<TextCoordinate>)
    ensures s.start.y == s.end.y ==> |ps| == SatSub(s.end.x + 1, s.start.x)
    ensures s.start.y != s.end.y ==> |ps| == SatSub(s.end.y + 1, s.start.y)
  {
    if s.start.y == s.end.y then
      seq(SatSub(s.end.x + 1, s.start.x), i requires 0 <= i => TextCoordinate(s.start.x + i, s.start.y))
    else
      seq(SatSub(s.end.y + 1, s.start.y), i requires 0 <= i => TextCoordinate(s.start.x, s.start.y + i))
  }

  /** A segment that runs along a row or a column, start first. */
  predicate Forward(s: LineSegment) {
    (s.start.y == s.end.y && s.start.x <= s.end.x) || (s.start.x == s.end.x && s.start.y <= s.end.y)
  }

  /** For a forward row or column segment the two ways of walking it agree:
      the inclusive walk is the half-open walk followed by the end, and it
      has one point more than the segment's length. */
  lemma PointsAgree(s: LineSegment)
    requires Forward(s)
    ensures PointsThrough(s) == PointsFrom(s) + [s.end]
    ensures |PointsThrough(s)| == Len(s) + 1
  {
    var a, b := PointsThrough(s), PointsFrom(s) + [s.end];
    assert |a| == |b|;
    forall i | 0 <= i < |a|
      ensures a[i] == b[i]
    {
    }
  }

  // ---- Colinearity and extension.

  /** The bounding box of a segment's two endpoints. */
  function Box(s: LineSegment): Rect.Rectangle {
    Rect.Rectangle(s.start, s.end)
  }

  /** `s` lies within the bounding box of `o`. */
  predicate Within(s: LineSegment, o: LineSegment) {
    Rect.Contains(Box(o), s.start) && Rect.Contains(Box(o), s.end)
  }

  predicate ShareEndpoint(a: LineSegment, b: LineSegment) {
    a.start == b.start || a.end == b.start || a.end == b.end || a.start == b.end
  }

  /** Colinear for the four-direction analyzer: same kind and a shared
      endpoint. */
  predicate ColinearByKind(a: LineSegment, b: LineSegment) {
    KindOf(a) == KindOf(b) && ShareEndpoint(a, b)
  }

  lemma ColinearByKindSymmetric(a: LineSegment, b: LineSegment)
    ensures ColinearByKind(a, b) <==> ColinearByKind(b, a)
  {
  }

  /** Colinear for the two-axis analyzers: two segments lying in rows must
      share the row and an x-endpoint; two that do not must share the start
      column and a y-endpoint; one of each never is. */
  predicate ColinearByAxis(a: LineSegment, b: LineSegment) {
    var aH, bH := a.start.y == a.end.y, b.start.y == b.end.y;
    if aH && bH then
      a.start.y == b.start.y
      && (a.start.x == b.end.x || a.start.x == b.start.x || a.end.x == b.start.x || a.end.x == b.end.x)
    else if !aH && !bH then
      a.start.x == b.start.x
      && (a.start.y == b.end.y || a.start.y == b.start.y || a.end.y == b.start.y || a.end.y == b.end.y)
    else false
  }

  lemma ColinearByAxisSymmetric(a: LineSegment, b: LineSegment)
    ensures ColinearByAxis(a, b) <==> ColinearByAxis(b, a)
  {
  }

  /** On column segments the axis rule is the kind rule. */
  lemma ColinearRulesAgreeOnColumns(a: LineSegment, b: LineSegment)
    requires a.start.x == a.end.x && b.start.x == b.end.x && a.start.y < a.end.y && b.start.y < b.end.y
    ensures ColinearByAxis(a, b) ==> ColinearByKind(a, b)
  {
  }

  function Min4(a: nat, b: nat, c: nat, d: nat): nat { Rect.Min(Rect.Min(a, b), Rect.Min(c, d)) }
  function Max4(a: nat, b: nat, c: nat, d: nat): nat { Rect.Max(Rect.Max(a, b), Rect.Max(c, d)) }

  /** The smallest box holding all four endpoints, as a segment from its
      top-left to its bottom-right. */
  function Span(a: LineSegment, b: LineSegment): LineSegment {
    LineSegment(TextCoordinate(Min4(a.start.x, a.end.x, b.start.x, b.end.x), Min4(a.start.y, a.end.y, b.start.y, b.end.y)),
                TextCoordinate(Max4(a.start.x, a.end.x, b.start.x, b.end.x), Max4(a.start.y, a.end.y, b.start.y, b.end.y)))
  }

  /** Extension in the four-direction analyzer: the span of both segments,
      except that an up slant runs from the bottom-left to the top-right. */
  function ExtendByKind(a: LineSegment, b: LineSegment): (r: LineSegment)
    requires ColinearByKind(a, b)
    ensures KindOf(r) == KindOf(a)
    ensures Within(a, r) && Within(b, r)
    ensures Rect.Normalize(Box(r)) == Rect.Normalize(Box(Span(a, b)))
  {
    var m := Span(a, b);
    SpanCovers(a, b);
    SpanKind(a, b);
    if KindOf(a) == UpSlant then
      FlipSameBox(m);
      Flip(m)
    else m
  }

  /** A box's other diagonal: from its bottom-left to its top-right corner. */
  function Flip(m: LineSegment): LineSegment {
    LineSegment(TextCoordinate(m.start.x, m.end.y), TextCoordinate(m.end.x, m.start.y))
  }

  /** The span runs from the top-left to the bottom-right and holds both
      segments. */
  lemma SpanCovers(a: LineSegment, b: LineSegment)
    ensures Within(a, Span(a, b)) && Within(b, Span(a, b))
    ensures Span(a, b).start.x <= Span(a, b).end.x && Span(a, b).start.y <= Span(a, b).end.y
  {
  }

  /** Both diagonals of a box span the same box. */
  lemma FlipSameBox(m: LineSegment)
    requires m.start.x <= m.end.x && m.start.y <= m.end.y
    ensures Rect.Normalize(Box(Flip(m))) == Rect.Normalize(Box(m))
    ensures forall s :: Within(s, m) ==> Within(s, Flip(m))
  {
  }

  /** Two segments of one kind sharing an endpoint span a box whose
      diagonal has that kind: the top-left to bottom-right one for all
      kinds but the up slant, the other one for it. */
  lemma SpanKind(a: LineSegment, b: LineSegment)
    requires ColinearByKind(a, b)
    ensures KindOf(a) != UpSlant ==> KindOf(Span(a, b)) == KindOf(a)
    ensures KindOf(a) == UpSlant ==> KindOf(Flip(Span(a, b))) == UpSlant
  {
  }

  /** Extension in the two-axis analyzers: always the span, top-left first. */
  function ExtendByAxis(a: LineSegment, b: LineSegment): (r: LineSegment)
    requires ColinearByAxis(a, b)
    ensures Within(a, r) && Within(b, r)
    ensures r.start.x <= r.end.x && r.start.y <= r.end.y
    ensures a.start.y == a.end.y ==> r.start.y == r.end.y == a.start.y
    ensures a.start.x == a.end.x && b.start.x == b.end.x ==> r.start.x == r.end.x == a.start.x
  {
    Span(a, b)
  }

  /** Any box holding all four endpoints holds the span. */
  lemma SpanIsSmallest(a: LineSegment, b: LineSegment, o: LineSegment)
    requires Within(a, o) && Within(b, o)
    ensures Within(Span(a, b), o)
  {
  }

  lemma WithinTransitive(s: LineSegment, m: LineSegment, o: LineSegment)
    requires Within(s, m) && Within(m, o)
    ensures Within(s, o)
  {
  }

  lemma WithinReflexive(s: LineSegment)
    ensures Within(s, s)
  {
  }
}

=== FILE: sorting.dfy ===
/** Sorting a sequence by a numeric key, as `sort_by_key` does with segment
    and wire identifiers. */
module Sorting {

  predicate SortedBy<T>(s: seq<T>, key: T -> nat) {
    forall i, j :: 0 <= i < j < |s| ==> key(s[i]) <= key(s[j])
  }

  /** A sorted sequence stays sorted when an element no larger than its head
      is put in front. */
  lemma ConsSorted<T>(y: T, s: seq<T>, key: T -> nat)
    requires SortedBy(s, key)
    requires |s| > 0 ==> key(y) <= key(s[0])
    ensures SortedBy([y] + s, key)
  {
    var r := [y] + s;
    forall i, j | 0 <= i < j < |r|
      ensures key(r[i]) <= key(r[j])
    {
      if i == 0 && j > 1 {
        assert key(s[0]) <= key(s[j - 1]);
      }
    }
  }

  /** Inserts `x` after every element whose key is not larger. */
  function Insert<T>(x: T, s: seq<T>, key: T -> nat): (r: seq<T>)
    requires SortedBy(s, key)
    ensures SortedBy(r, key)
    ensures multiset(r) == multiset(s) + multiset{x}
    ensures |r| == |s| + 1
    ensures r[0] == x || (|s| > 0 && r[0] == s[0])
  {
    if |s| == 0 then [x]
    else if key(x) < key(s[0]) then
      ConsSorted(x, s, key);
      [x] + s
    else
      assert s == [s[0]] + s[1..];
      var rest := Insert(x, s[1..], key);
      ConsSorted(s[0], rest, key);
      [s[0]] + rest
  }

  /** Insertion sort: the same elements, ordered by key. */
  function SortBy<T>(s: seq<T>, key: T -> nat): (r: seq<T>)
    ensures SortedBy(r, key)
    ensures multiset(r) == multiset(s)
    ensures |r| == |s|
  {
    if |s| == 0 then []
    else
      assert s == s[..|s| - 1] + [s[|s| - 1]];
      Insert(s[|s| - 1], SortBy(s[..|s| - 1], key), key)
  }

  // ---- Facts about permutations.

  /** The same element at two positions counts twice. */
  lemma TwoPositions<T>(r: seq<T>, i: int, j: int)
    requires 0 <= i < j < |r| && r[i] == r[j]
    ensures multiset(r)[r[i]] >= 2
  {
    assert r == r[..j] + [r[j]] + r[j + 1..];
    assert r[i] in r[..j];
  }

  /** An element counted twice sits at two positions. */
  lemma {:induction false} CountedTwice<T>(s: seq<T>, x: T)
    requires multiset(s)[x] >= 2
    ensures exists k, k' :: 0 <= k < k' < |s| && s[k] == x && s[k'] == x
  {
    assert s == [s[0]] + s[1..];
    if s[0] == x {
      assert x in multiset(s[1..]);
      var m :| 0 <= m < |s[1..]| && s[1..][m] == x;
      assert s[m + 1] == x;
    } else {
      CountedTwice(s[1..], x);
      var k, k' :| 0 <= k < k' < |s[1..]| && s[1..][k] == x && s[1..][k'] == x;
      assert s[k + 1] == x && s[k' + 1] == x;
    }
  }

  /** A relation holding between the elements at any two different
      positions, and never of an element with itself, still holds after
      the elements are permuted. */
  lemma PermutationKeepsPairs<T>(s: seq<T>, r: seq<T>, rel: (T, T) -> bool)
    requires multiset(r) == multiset(s)
    requires forall i, j :: 0 <= i < |s| && 0 <= j < |s| && i != j ==> rel(s[i], s[j])
    requires forall i :: 0 <= i < |s| ==> !rel(s[i], s[i])
    ensures forall i, j :: 0 <= i < |r| && 0 <= j < |r| && i != j ==> rel(r[i], r[j])
  {
    forall i, j | 0 <= i < |r| && 0 <= j < |r| && i != j
      ensures rel(r[i], r[j])
    {
      assert r[i] in multiset(s) && r[j] in multiset(s);
      var i' :| 0 <= i' < |s| && s[i'] == r[i];
      var j' :| 0 <= j' < |s| && s[j'] == r[j];
      if i' == j' {
        if i < j { TwoPositions(r, i, j); } else { TwoPositions(r, j, i); }
        CountedTwice(s, r[i]);
        assert false;
      }
    }
  }

  /** A sequence without repeated elements has as many distinct elements as
      positions. */
  lemma {:induction false} DistinctCount<T>(s: seq<T>)
    requires forall a, b :: 0 <= a < b < |s| ==> s[a] != s[b]
    ensures |set x | x in s| == |s|
  {
    if |s| > 0 {
      var init := s[..|s| - 1];
      DistinctCount(init);
      assert (set x | x in s) == (set x | x in init) + {s[|s| - 1]};
      assert s[|s| - 1] !in init;
    }
  }
}

=== FILE: tc.dfy ===
/** Grid cell coordinates and their one-cell moves.

    A coordinate names one cell of the character grid: `x` is the column and
    `y` the row, both counted from zero at the top-left.  Moves towards the
    origin saturate at zero instead of wrapping, and `Shifted` drags a point
    by the offset between two other points, again saturating at zero. */
module Tc {

  datatype TextCoordinate = TextCoordinate(x: nat, y: nat)

  /** Subtraction that stops at zero, as unsigned `saturating_sub`. */
  function SatSub(a: nat, b: nat): (r: nat)
    ensures r + b >= a
    ensures a >= b ==> r + b == a
    ensures a < b ==> r == 0
  {
    if a >= b then a - b else 0
  }

  /** Adds a signed offset to an unsigned value, saturating at zero. */
  function SatAddSigned(a: nat, delta: int): (r: nat)
    ensures a + delta >= 0 ==> r == a + delta
    ensures a + delta < 0 ==> r == 0
  {
    if a + delta >= 0 then a + delta else 0
  }

  function Right(p: TextCoordinate): TextCoordinate {
    TextCoordinate(p.x + 1, p.y)
  }

  function Left(p: TextCoordinate): TextCoordinate {
    TextCoordinate(SatSub(p.x, 1), p.y)
  }

  function Up(p: TextCoordinate): TextCoordinate {
    TextCoordinate(p.x, SatSub(p.y, 1))
  }

  function Down(p: TextCoordinate): TextCoordinate {
    TextCoordinate(p.x, p.y + 1)
  }

  /** `p` moved by the displacement that takes `origin` to `movePos`. */
  function Shifted(p: TextCoordinate, origin: TextCoordinate, movePos: TextCoordinate): TextCoordinate {
    TextCoordinate(SatAddSigned(p.x, movePos.x - origin.x), SatAddSigned(p.y, movePos.y - origin.y))
  }

  /** One step right or down moves exactly one cell along one axis. */
  lemma RightDownStep(p: TextCoordinate)
    ensures Right(p).x == p.x + 1 && Right(p).y == p.y
    ensures Down(p).y == p.y + 1 && Down(p).x == p.x
  {
  }

  /** Moving left or up stays put on the first column or row and otherwise
      undoes a move right or down. */
  lemma LeftUpSaturate(p: TextCoordinate)
    ensures p.x == 0 ==> Left(p) == p
    ensures p.y == 0 ==> Up(p) == p
    ensures p.x > 0 ==> Right(Left(p)) == p
    ensures p.y > 0 ==> Down(Up(p)) == p
  {
  }

  /** Left undoes right and up undoes down, for every coordinate. */
  lemma MovesRoundTrip(p: TextCoordinate)
    ensures Left(Right(p)) == p
    ensures Up(Down(p)) == p
  {
  }

  /** Shifting by the empty displacement is the identity. */
  lemma ShiftedByNothing(p: TextCoordinate, o: TextCoordinate)
    ensures Shifted(p, o, o) == p
  {
  }

  /** A shift that did not saturate is undone by the opposite shift. */
  lemma ShiftedRoundTrip(p: TextCoordinate, origin: TextCoordinate, movePos: TextCoordinate)
    requires p.x + movePos.x >= origin.x && p.y + movePos.y >= origin.y
    ensures Shifted(Shifted(p, origin, movePos), movePos, origin) == p
  {
  }

  /** A shift that would cross the first row or column stops on it. */
  lemma ShiftedSaturates(p: TextCoordinate, origin: TextCoordinate, movePos: TextCoordinate)
    ensures p.x + movePos.x < origin.x ==> Shifted(p, origin, movePos).x == 0
    ensures p.y + movePos.y < origin.y ==> Shifted(p, origin, movePos).y == 0
    ensures p.x + movePos.x >= origin.x ==> Shifted(p, origin, movePos).x == p.x + movePos.x - origin.x
    ensures p.y + movePos.y >= origin.y ==> Shifted(p, origin, movePos).y == p.y + movePos.y - origin.y
  {
  }
}

=== FILE: textbuffer.dfy ===
/** The character grid the analysis reads: a fixed number of rows, each
    `cols` cells long, every cell either empty or holding one character.

    The grid is kept as a sequence of rows rather than one flat row-major
    array; cell (x, y) is `grid[y][x]`, which is the flat index
    `x + y * cols` of a row-major buffer.  Writing a space stores an empty
    cell, so no cell ever holds a space. */
module TextBuffers {
  import opened Tc
  import opened Rect
  import opened Wrappers

  datatype TextBuffer = TextBuffer(grid: seq<seq<Option<char>>>, cols: nat)

  predicate Valid(tb: TextBuffer) {
    && (forall y :: 0 <= y < |tb.grid| ==> |tb.grid[y]| == tb.cols)
    && (forall y, x :: 0 <= y < |tb.grid| && 0 <= x < |tb.grid[y]| ==> tb.grid[y][x] != Some(' '))
  }

  type Buffer = tb: TextBuffer | Valid(tb) witness TextBuffer([], 0)

  function Rows(tb: TextBuffer): nat { |tb.grid| }

  predicate InRange(tb: TextBuffer, p: TextCoordinate) {
    p.x < tb.cols && p.y < Rows(tb)
  }

  /** What a write stores: a space is stored as an empty cell. */
  function NoSpace(ch: Option<char>): (r: Option<char>)
    ensures r != Some(' ')
    ensures ch != Some(' ') ==> r == ch
  {
    if ch == Some(' ') then None else ch
  }

  /** Bounds-checked lookup: outside the grid every cell reads as empty. */
  function Get(tb: Buffer, p: TextCoordinate): (r: Option<char>)
    ensures !InRange(tb, p) ==> r == None
    ensures r != Some(' ')
  {
    if InRange(tb, p) then tb.grid[p.y][p.x] else None
  }

  /** Two buffers of the same size that read the same everywhere are equal. */
  lemma Extensionality(a: Buffer, b: Buffer)
    requires Rows(a) == Rows(b) && a.cols == b.cols
    requires forall p :: Get(a, p) == Get(b, p)
    ensures a == b
  {
    forall y | 0 <= y < Rows(a)
      ensures a.grid[y] == b.grid[y]
    {
      forall x | 0 <= x < a.cols
        ensures a.grid[y][x] == b.grid[y][x]
      {
        assert Get(a, TextCoordinate(x, y)) == Get(b, TextCoordinate(x, y));
      }
    }
  }

  /** A `rows` by `cols` grid of empty cells. */
  function New(rows: nat, cols: nat): (r: Buffer)
    ensures Rows(r) == rows && r.cols == cols
    ensures forall p :: Get(r, p) == None
  {
    TextBuffer(seq(rows, _ => seq(cols, _ => None)), cols)
  }

  /** Empties every cell and keeps the size. */
  function ClearAll(tb: Buffer): (r: Buffer)
    ensures Rows(r) == Rows(tb) && r.cols == tb.cols
    ensures forall p :: Get(r, p) == None
  {
    New(Rows(tb), tb.cols)
  }

  /** Writes one cell; a write outside the grid does nothing. */
  function SetText(tb: Buffer, pos: TextCoordinate, ch: Option<char>): (r: Buffer)
    ensures Rows(r) == Rows(tb) && r.cols == tb.cols
    ensures forall p :: Get(r, p) == if p == pos && InRange(tb, pos) then NoSpace(ch) else Get(tb, p)
    ensures !InRange(tb, pos) ==> r == tb
  {
    if InRange(tb, pos) then
      var r := TextBuffer(tb.grid[pos.y := tb.grid[pos.y][pos.x := NoSpace(ch)]], tb.cols);
      assert Valid(r) by {
        forall y, x | 0 <= y < |r.grid| && 0 <= x < |r.grid[y]|
          ensures r.grid[y][x] != Some(' ')
        {
          if y != pos.y || x != pos.x {
            assert r.grid[y][x] == tb.grid[y][x];
          }
        }
      }
      r
    else tb
  }

  /** Writes only when there is something to write. */
  function MergeText(tb: Buffer, pos: TextCoordinate, ch: Option<char>): (r: Buffer)
    ensures ch.None? ==> r == tb
    ensures ch.Some? ==> r == SetText(tb, pos, ch)
  {
    match ch
    case None => tb
    case Some(c) => SetText(tb, pos, Some(c))
  }

  /** Reading back a write: the written cell holds the stored value and
      every other cell is unchanged. */
  lemma GetAfterSet(tb: Buffer, pos: TextCoordinate, ch: Option<char>, p: TextCoordinate)
    ensures InRange(tb, pos) ==> Get(SetText(tb, pos, ch), pos) == NoSpace(ch)
    ensures p != pos ==> Get(SetText(tb, pos, ch), p) == Get(tb, p)
  {
  }

  /** Cell `p` moved by `origin`: where a copy made from `origin` onwards
      reads its cell `p` from. */
  function Shifted(origin: TextCoordinate, p: TextCoordinate): TextCoordinate {
    TextCoordinate(origin.x + p.x, origin.y + p.y)
  }

  /** The cell of `rect`'s window at (x, y) is the cell of the buffer at the
      same offset from the window's top-left corner. */
  function WindowSource(rect: Rectangle, p: TextCoordinate): TextCoordinate {
    Shifted(TextCoordinate(Rect.Left(rect), Rect.Top(rect)), p)
  }

  /** A copy in progress: every cell of `out` before (col, row) in row-major
      order holds the cell of `tb` it is copied from, every later one is
      still empty. */
  ghost predicate CopiedBefore(tb: Buffer, origin: TextCoordinate, out: Buffer, row: nat, col: nat) {
    forall p :: InRange(out, p) ==>
      Get(out, p) == if p.y < row || (p.y == row && p.x < col) then Get(tb, Shifted(origin, p)) else None
  }

  /** Copying cell (col, row) moves the copy on by one cell. */
  lemma CopyStep(tb: Buffer, origin: TextCoordinate, out: Buffer, row: nat, col: nat)
    requires row < Rows(out) && col < out.cols
    requires CopiedBefore(tb, origin, out, row, col)
    ensures var here := TextCoordinate(col, row);
      CopiedBefore(tb, origin, SetText(out, here, Get(tb, Shifted(origin, here))), row, col + 1)
  {
    var here := TextCoordinate(col, row);
    var next := SetText(out, here, Get(tb, Shifted(origin, here)));
    forall p | InRange(next, p)
      ensures Get(next, p) == if p.y < row || (p.y == row && p.x < col + 1) then Get(tb, Shifted(origin, p)) else None
    {
      if p != here {
        assert Get(next, p) == Get(out, p);
      }
    }
  }

  /** A copied row moves the copy on to the start of the next row. */
  lemma CopyRowDone(tb: Buffer, origin: TextCoordinate, out: Buffer, row: nat)
    requires CopiedBefore(tb, origin, out, row, out.cols)
    ensures CopiedBefore(tb, origin, out, row + 1, 0)
  {
  }

  /** Copies a `rows` by `cols` block of `tb` starting at `origin` into a
      fresh buffer, row by row. */
  method CopyBlock(tb: Buffer, origin: TextCoordinate, rows: nat, cols: nat) returns (out: Buffer)
    ensures Rows(out) == rows && out.cols == cols
    ensures CopiedBefore(tb, origin, out, rows, 0)
  {
    out := New(rows, cols);
    var row := 0;
    while row < rows
      invariant row <= rows
      invariant Rows(out) == rows && out.cols == cols
      invariant CopiedBefore(tb, origin, out, row, 0)
    {
      var col := 0;
      while col < cols
        invariant col <= cols
        invariant Rows(out) == rows && out.cols == cols
        invariant CopiedBefore(tb, origin, out, row, col)
      {
        var here := TextCoordinate(col, row);
        CopyStep(tb, origin, out, row, col);
        out := SetText(out, here, Get(tb, Shifted(origin, here)));
        col := col + 1;
      }
      CopyRowDone(tb, origin, out, row);
      row := row + 1;
    }
  }

  /** A fresh buffer the size of `rect` holding a copy of the cells under it. */
  method Window(tb: Buffer, rect: Rectangle) returns (out: Buffer)
    ensures Rows(out) == Height(rect) && out.cols == Width(rect)
    ensures forall p :: InRange(out, p) ==> Get(out, p) == Get(tb, WindowSource(rect, p))
  {
    out := CopyBlock(tb, TextCoordinate(Rect.Left(rect), Rect.Top(rect)), Height(rect), Width(rect));
  }

  /** A fresh `rows` by `cols` buffer keeping every cell that lies in both
      the old and the new bounds. */
  method Resize(tb: Buffer, rows: nat, cols: nat) returns (out: Buffer)
    ensures Rows(out) == rows && out.cols == cols
    ensures forall p :: Get(out, p) == if InRange(out, p) then Get(tb, p) else None
  {
    out := CopyBlock(tb, TextCoordinate(0, 0), rows, cols);
    forall p
      ensures Get(out, p) == if InRange(out, p) then Get(tb, p) else None
    {
      assert Shifted(TextCoordinate(0, 0), p) == p;
    }
  }

  /** Empties every cell of the inclusive box and nothing else. */
  method ClearRectangle(tb: Buffer, selection: Rectangle) returns (out: Buffer)
    ensures Rows(out) == Rows(tb) && out.cols == tb.cols
    ensures forall p :: Get(out, p) == if Contains(selection, p) then None else Get(tb, p)
  {
    var cells := IterInterior(selection);
    out := tb;
    var i := 0;
    while i < |cells|
      invariant i <= |cells|
      invariant Rows(out) == Rows(tb) && out.cols == tb.cols
      invariant ClearedBefore(tb, out, cells, i)
    {
      ClearStep(tb, out, cells, i);
      out := SetText(out, cells[i], None);
      i := i + 1;
    }
    assert cells[..i] == cells;
  }

  /** A clear in progress: the first `i` of `cells` are empty and every
      other cell is as in `tb`. */
  ghost predicate ClearedBefore(tb: Buffer, out: Buffer, cells: seq<TextCoordinate>, i: nat)
    requires i <= |cells|
  {
    forall p :: Get(out, p) == if p in cells[..i] then None else Get(tb, p)
  }

  /** Emptying `cells[i]` moves the clear on by one cell. */
  lemma ClearStep(tb: Buffer, out: Buffer, cells: seq<TextCoordinate>, i: nat)
    requires i < |cells|
    requires ClearedBefore(tb, out, cells, i)
    ensures ClearedBefore(tb, SetText(out, cells[i], None), cells, i + 1)
  {
    assert cells[..i + 1] == cells[..i] + [cells[i]];
  }

  /** Whether pasting `lines` with its first character at `pos` puts a
      character on cell `p`. */
  predicate Pasted(lines: seq<string>, pos: TextCoordinate, p: TextCoordinate) {
    pos.y <= p.y < pos.y + |lines| && pos.x <= p.x < pos.x + |lines[p.y - pos.y]|
  }

  /** The character pasting puts on cell `p`. */
  function PastedChar(lines: seq<string>, pos: TextCoordinate, p: TextCoordinate): char
    requires Pasted(lines, pos, p)
  {
    lines[p.y - pos.y][p.x - pos.x]
  }

  predicate PastedBefore(lines: seq<string>, pos: TextCoordinate, p: TextCoordinate, row: nat, col: nat) {
    Pasted(lines, pos, p) && (p.y - pos.y < row || (p.y - pos.y == row && p.x - pos.x < col))
  }

  /** What cell `p` reads once the characters before (col, row) are pasted. */
  function PartlyPasted(tb: Buffer, lines: seq<string>, pos: TextCoordinate, row: nat, col: nat, p: TextCoordinate): Option<char> {
    if InRange(tb, p) && PastedBefore(lines, pos, p, row, col) then NoSpace(Some(PastedChar(lines, pos, p))) else Get(tb, p)
  }

  /** What cell `p` reads once all of `lines` is pasted. */
  function FullyPasted(tb: Buffer, lines: seq<string>, pos: TextCoordinate, p: TextCoordinate): Option<char> {
    if InRange(tb, p) && Pasted(lines, pos, p) then NoSpace(Some(PastedChar(lines, pos, p))) else Get(tb, p)
  }

  /** Writing the next character of line `row` extends the pasted part by
      one cell. */
  lemma {:induction false} PasteStep(tb: Buffer, out: Buffer, next: Buffer, lines: seq<string>, pos: TextCoordinate, row: nat, col: nat)
    requires row < |lines| && col < |lines[row]|
    requires Rows(out) == Rows(tb) && out.cols == tb.cols
    requires forall p :: Get(out, p) == PartlyPasted(tb, lines, pos, row, col, p)
    requires next == SetText(out, TextCoordinate(pos.x + col, pos.y + row), Some(lines[row][col]))
    ensures forall p :: Get(next, p) == PartlyPasted(tb, lines, pos, row, col + 1, p)
  {
    var here := TextCoordinate(pos.x + col, pos.y + row);
    assert Pasted(lines, pos, here) && PastedChar(lines, pos, here) == lines[row][col];
    forall p
      ensures Get(SetText(out, here, Some(lines[row][col])), p) == PartlyPasted(tb, lines, pos, row, col + 1, p)
    {
      if p != here {
        assert PastedBefore(lines, pos, p, row, col + 1) == PastedBefore(lines, pos, p, row, col);
      }
    }
  }

  /** The bottom-right corner of the area pasted so far: the smallest corner
      at or beyond `pos` that covers every cell written before (col, row). */
  ghost predicate TightCorner(lines: seq<string>, pos: TextCoordinate, row: nat, col: nat, corner2: TextCoordinate) {
    && pos.x <= corner2.x && pos.y <= corner2.y
    && (forall p :: PastedBefore(lines, pos, p, row, col) ==> p.x <= corner2.x && p.y <= corner2.y)
    && (corner2.x == pos.x || exists p :: PastedBefore(lines, pos, p, row, col) && p.x == corner2.x)
    && (corner2.y == pos.y || exists p :: PastedBefore(lines, pos, p, row, col) && p.y == corner2.y)
  }

  /** Pastes line `row` into a buffer that already holds the lines above it. */
  method PasteLine(tb: Buffer, start: Buffer, lines: seq<string>, pos: TextCoordinate, row: nat, corner: TextCoordinate)
    returns (out: Buffer, corner2: TextCoordinate)
    requires row < |lines|
    requires Rows(start) == Rows(tb) && start.cols == tb.cols
    requires forall p :: Get(start, p) == PartlyPasted(tb, lines, pos, row, 0, p)
    requires TightCorner(lines, pos, row, 0, corner)
    ensures Rows(out) == Rows(tb) && out.cols == tb.cols
    ensures forall p :: Get(out, p) == PartlyPasted(tb, lines, pos, row + 1, 0, p)
    ensures TightCorner(lines, pos, row + 1, 0, corner2)
  {
    var line := lines[row];
    out, corner2 := start, corner;
    var col := 0;
    while col < |line|
      invariant col <= |line|
      invariant Rows(out) == Rows(tb) && out.cols == tb.cols
      invariant forall p :: Get(out, p) == PartlyPasted(tb, lines, pos, row, col, p)
      invariant TightCorner(lines, pos, row, col, corner2)
    {
      out, corner2 := PasteCell(tb, out, lines, pos, row, col, corner2);
      col := col + 1;
    }
    TightNextRow(lines, pos, row, corner2);
    LineDone(tb, out, lines, pos, row);
  }

  /** Once line `row` is written in full, the buffer holds every line
      before `row + 1`. */
  lemma LineDone(tb: Buffer, out: Buffer, lines: seq<string>, pos: TextCoordinate, row: nat)
    requires row < |lines|
    requires forall p :: Get(out, p) == PartlyPasted(tb, lines, pos, row, |lines[row]|, p)
    ensures forall p :: Get(out, p) == PartlyPasted(tb, lines, pos, row + 1, 0, p)
  {
    forall p
      ensures Get(out, p) == PartlyPasted(tb, lines, pos, row + 1, 0, p)
    {
      assert PastedBefore(lines, pos, p, row, |lines[row]|) == PastedBefore(lines, pos, p, row + 1, 0);
    }
  }

  /** Writes character `col` of line `row` and widens the corner to it. */
  method PasteCell(tb: Buffer, out: Buffer, lines: seq<string>, pos: TextCoordinate, row: nat, col: nat, corner2: TextCoordinate)
    returns (next: Buffer, corner3: TextCoordinate)
    requires row < |lines| && col < |lines[row]|
    requires Rows(out) == Rows(tb) && out.cols == tb.cols
    requires forall p :: Get(out, p) == PartlyPasted(tb, lines, pos, row, col, p)
    requires TightCorner(lines, pos, row, col, corner2)
    ensures Rows(next) == Rows(tb) && next.cols == tb.cols
    ensures forall p :: Get(next, p) == PartlyPasted(tb, lines, pos, row, col + 1, p)
    ensures TightCorner(lines, pos, row, col + 1, corner3)
  {
    var here := TextCoordinate(pos.x + col, pos.y + row);
    TightStep(lines, pos, row, col, corner2);
    corner3 := TextCoordinate(Max(corner2.x, here.x), Max(corner2.y, here.y));
    next := SetText(out, here, Some(lines[row][col]));
    PasteStep(tb, out, next, lines, pos, row, col);
  }

  /** Pasting one more character moves the corner out to cover it. */
  lemma TightStep(lines: seq<string>, pos: TextCoordinate, row: nat, col: nat, corner2: TextCoordinate)
    requires row < |lines| && col < |lines[row]|
    requires TightCorner(lines, pos, row, col, corner2)
    ensures var here := TextCoordinate(pos.x + col, pos.y + row);
      TightCorner(lines, pos, row, col + 1, TextCoordinate(Max(corner2.x, here.x), Max(corner2.y, here.y)))
  {
    var here := TextCoordinate(pos.x + col, pos.y + row);
    var c := TextCoordinate(Max(corner2.x, here.x), Max(corner2.y, here.y));
    assert PastedBefore(lines, pos, here, row, col + 1);
    forall p | PastedBefore(lines, pos, p, row, col)
      ensures PastedBefore(lines, pos, p, row, col + 1)
    {
    }
    forall p | PastedBefore(lines, pos, p, row, col + 1)
      ensures p.x <= c.x && p.y <= c.y
    {
      if p != here {
        assert PastedBefore(lines, pos, p, row, col);
      }
    }
  }

  /** A finished line leaves the corner tight for the start of the next. */
  lemma TightNextRow(lines: seq<string>, pos: TextCoordinate, row: nat, corner2: TextCoordinate)
    requires row < |lines|
    requires TightCorner(lines, pos, row, |lines[row]|, corner2)
    ensures TightCorner(lines, pos, row + 1, 0, corner2)
  {
    assert forall p :: PastedBefore(lines, pos, p, row, |lines[row]|) <==> PastedBefore(lines, pos, p, row + 1, 0);
  }

  /** Writes character `col` of line `row` at (pos.x + col, pos.y + row),
      through `SetText`, and returns the smallest rectangle from `pos` that
      covers every written position (written or clipped off the grid). */
  method Paste(tb: Buffer, lines: seq<string>, pos: TextCoordinate) returns (out: Buffer, area: Rectangle)
    ensures Rows(out) == Rows(tb) && out.cols == tb.cols
    ensures forall p :: Get(out, p) == FullyPasted(tb, lines, pos, p)
    ensures area.corner1 == pos && IsNormal(area)
    ensures forall p :: Pasted(lines, pos, p) ==> Contains(area, p)
    ensures area.corner2.x == pos.x || exists p :: Pasted(lines, pos, p) && p.x == area.corner2.x
    ensures area.corner2.y == pos.y || exists p :: Pasted(lines, pos, p) && p.y == area.corner2.y
  {
    out := tb;
    var corner2 := pos;
    var row := 0;
    while row < |lines|
      invariant row <= |lines|
      invariant Rows(out) == Rows(tb) && out.cols == tb.cols
      invariant forall p :: Get(out, p) == PartlyPasted(tb, lines, pos, row, 0, p)
      invariant TightCorner(lines, pos, row, 0, corner2)
    {
      out, corner2 := PasteLine(tb, out, lines, pos, row, corner2);
      row := row + 1;
    }
    assert forall p :: PastedBefore(lines, pos, p, row, 0) <==> Pasted(lines, pos, p);
    area := Rectangle(pos, corner2);
  }
}

=== FILE: wires.dfy ===
/** Wire assembly of the two-axis analyzers.  The merged segments form a
    pool; a corner map indexes the raw (unmerged) segments by both
    endpoints.  Each wire is seeded by any pool segment and grows by any raw
    segment touching one of the wire's endpoints, until none is left; every
    segment used is taken out of the pool and the corner map.  The choices
    ("any") follow hash-set order in the source, so the assembler is a
    method whose contract holds for every choice. */
module Wires {
  import opened Tc
  import opened Segments
  import opened Sorting
  import Merge

  datatype Wire = Wire(segments: seq<LineSegment>)

  function Elems(w: seq<LineSegment>): set<LineSegment> {
    set s | s in w
  }

  /** Every endpoint of every segment of `w`. */
  function Ends(w: seq<LineSegment>): set<TextCoordinate> {
    (set s | s in w :: s.start) + (set s | s in w :: s.end)
  }

  predicate Touches(s: LineSegment, e: set<TextCoordinate>) {
    s.start in e || s.end in e
  }

  /** Every segment placed in some wire of `ws`. */
  function Used(ws: seq<seq<LineSegment>>): set<LineSegment> {
    set i, a | 0 <= i < |ws| && 0 <= a < |ws[i]| :: ws[i][a]
  }

  predicate NoRepeats(w: seq<LineSegment>) {
    forall a, b :: 0 <= a < b < |w| ==> w[a] != w[b]
  }

  /** No segment value appears twice in one wire or in two wires. */
  predicate Distinct(ws: seq<seq<LineSegment>>) {
    (forall i :: 0 <= i < |ws| ==> NoRepeats(ws[i]))
    && (forall i, j :: 0 <= i < j < |ws| ==> Elems(ws[i]) !! Elems(ws[j]))
  }

  /** A wire as the assembler grows it: seeded by a merged segment, and each
      later segment a raw one touching an endpoint of those before it. */
  predicate Grown(merged: seq<LineSegment>, raw: seq<LineSegment>, w: seq<LineSegment>) {
    |w| > 0 && w[0] in merged
    && forall a :: 0 < a < |w| ==> w[a] in raw && Touches(w[a], Ends(w[..a]))
  }

  /** Each wire is closed: a raw segment touching its endpoints was placed
      in it or in an earlier wire. */
  predicate Maximal(raw: seq<LineSegment>, ws: seq<seq<LineSegment>>) {
    forall i, r :: 0 <= i < |ws| && r in raw && Touches(r, Ends(ws[i])) ==> r in Used(ws[..i + 1])
  }

  lemma UsedSnoc(ws: seq<seq<LineSegment>>, w: seq<LineSegment>)
    ensures Used(ws + [w]) == Used(ws) + Elems(w)
  {
    var ws' := ws + [w];
    forall x | x in Used(ws')
      ensures x in Used(ws) + Elems(w)
    {
      var i, a :| 0 <= i < |ws'| && 0 <= a < |ws'[i]| && ws'[i][a] == x;
      if i < |ws| {
        assert ws[i][a] == x;
      }
    }
    forall x | x in Used(ws) + Elems(w)
      ensures x in Used(ws')
    {
      if x in Used(ws) {
        var i, a :| 0 <= i < |ws| && 0 <= a < |ws[i]| && ws[i][a] == x;
        assert ws'[i][a] == x;
      } else {
        var a :| 0 <= a < |w| && w[a] == x;
        assert ws'[|ws|][a] == x;
      }
    }
  }

  lemma UsedHolds(ws: seq<seq<LineSegment>>, i: nat)
    requires i < |ws|
    ensures Elems(ws[i]) <= Used(ws)
  {
    forall x | x in Elems(ws[i])
      ensures x in Used(ws)
    {
      var a :| 0 <= a < |ws[i]| && ws[i][a] == x;
    }
  }

  lemma EndsSnoc(w: seq<LineSegment>, s: LineSegment)
    ensures Ends(w + [s]) == Ends(w) + {s.start, s.end}
  {
    assert forall t :: t in w + [s] <==> t in w || t == s;
  }

  lemma GrownSnoc(merged: seq<LineSegment>, raw: seq<LineSegment>, w: seq<LineSegment>, s: LineSegment)
    requires Grown(merged, raw, w) && s in raw && Touches(s, Ends(w))
    ensures Grown(merged, raw, w + [s])
  {
    var w' := w + [s];
    forall a | 0 < a < |w'|
      ensures w'[a] in raw && Touches(w'[a], Ends(w'[..a]))
    {
      if a < |w| {
        assert w'[..a] == w[..a];
      } else {
        assert w'[..a] == w;
      }
    }
  }

  /** The state of a wire being grown: its endpoints, its shape, and the
      pool and corner map holding exactly what no wire has taken. */
  ghost predicate Growing(merged: seq<LineSegment>, raw: seq<LineSegment>, used: set<LineSegment>,
                          seed: LineSegment, wire: seq<LineSegment>, ends: set<TextCoordinate>,
                          pool: set<LineSegment>, corners: set<LineSegment>) {
    ends == Ends(wire)
    && Grown(merged, raw, wire) && wire[0] == seed
    && NoRepeats(wire)
    && Elems(wire) !! used
    && pool == Elems(merged) - used - Elems(wire)
    && corners == Elems(raw) - used - Elems(wire)
  }

  lemma GrowStart(merged: seq<LineSegment>, raw: seq<LineSegment>, used: set<LineSegment>, seed: LineSegment)
    requires seed in merged && seed !in used
    ensures Growing(merged, raw, used, seed, [seed], {seed.start, seed.end},
                    Elems(merged) - used - {seed}, Elems(raw) - used - {seed})
  {
    assert forall t :: t in [seed] <==> t == seed;
    assert Elems([seed]) == {seed};
  }

  lemma GrowStep(merged: seq<LineSegment>, raw: seq<LineSegment>, used: set<LineSegment>,
                 seed: LineSegment, wire: seq<LineSegment>, ends: set<TextCoordinate>,
                 pool: set<LineSegment>, corners: set<LineSegment>, a: LineSegment)
    requires Growing(merged, raw, used, seed, wire, ends, pool, corners)
    requires a in corners && Touches(a, ends)
    ensures Growing(merged, raw, used, seed, wire + [a], ends + {a.start, a.end}, pool - {a}, corners - {a})
    ensures |corners - {a}| < |corners|
  {
    GrownSnoc(merged, raw, wire, a);
    EndsSnoc(wire, a);
    ElemsSnoc(wire, a);
    NoRepeatsSnoc(wire, a);
    TakeOne(Elems(merged), used, Elems(wire), a);
    TakeOne(Elems(raw), used, Elems(wire), a);
  }

  lemma ElemsSnoc(w: seq<LineSegment>, a: LineSegment)
    ensures Elems(w + [a]) == Elems(w) + {a}
  {
    assert forall t :: t in w + [a] <==> t in w || t == a;
  }

  lemma NoRepeatsSnoc(w: seq<LineSegment>, a: LineSegment)
    requires NoRepeats(w) && a !in Elems(w)
    ensures NoRepeats(w + [a])
  {
    var w' := w + [a];
    forall i, j | 0 <= i < j < |w'|
      ensures w'[i] != w'[j]
    {
      if j == |w| {
        assert w'[i] == w[i];
        assert w[i] in Elems(w);
      } else {
        assert w'[i] == w[i] && w'[j] == w[j];
      }
    }
  }

  /** Taking one more element out of what is left. */
  lemma TakeOne(all: set<LineSegment>, used: set<LineSegment>, taken: set<LineSegment>, a: LineSegment)
    ensures (all - used - taken) - {a} == all - used - (taken + {a})
  {
  }

  lemma GrowDone(merged: seq<LineSegment>, raw: seq<LineSegment>, used: set<LineSegment>,
                 seed: LineSegment, wire: seq<LineSegment>, ends: set<TextCoordinate>,
                 pool: set<LineSegment>, corners: set<LineSegment>)
    requires Growing(merged, raw, used, seed, wire, ends, pool, corners)
    requires !exists s :: s in corners && Touches(s, ends)
    ensures forall r :: r in raw && Touches(r, Ends(wire)) ==> r in used + Elems(wire)
  {
  }

  /** Grow one wire from `seed`: take any raw segment left in the corner
      map that touches the wire's endpoints until there is none. */
  method Grow(merged: seq<LineSegment>, raw: seq<LineSegment>, ghost used: set<LineSegment>,
              seed: LineSegment, pool: set<LineSegment>, corners: set<LineSegment>)
    returns (wire: seq<LineSegment>, pool': set<LineSegment>, corners': set<LineSegment>)
    requires seed in merged && seed !in used
    requires pool == Elems(merged) - used - {seed}
    requires corners == Elems(raw) - used - {seed}
    ensures Grown(merged, raw, wire) && wire[0] == seed && NoRepeats(wire)
    ensures Elems(wire) !! used
    ensures pool' == Elems(merged) - used - Elems(wire)
    ensures corners' == Elems(raw) - used - Elems(wire)
    ensures forall r :: r in raw && Touches(r, Ends(wire)) ==> r in used + Elems(wire)
  {
    pool', corners' := pool, corners;
    wire := [seed];
    var ends := {seed.start, seed.end};
    GrowStart(merged, raw, used, seed);
    while exists s :: s in corners' && Touches(s, ends)
      invariant Growing(merged, raw, used, seed, wire, ends, pool', corners')
      decreases |corners'|
    {
      var a :| a in corners' && Touches(a, ends);
      GrowStep(merged, raw, used, seed, wire, ends, pool', corners', a);
      ends := ends + {a.start, a.end};
      wire := wire + [a];
      pool' := pool' - {a};
      corners' := corners' - {a};
    }
    GrowDone(merged, raw, used, seed, wire, ends, pool', corners');
  }

  /** A grown wire appended to the assembled ones keeps them distinct and
      closed. */
  lemma Appended(raw: seq<LineSegment>, ws: seq<seq<LineSegment>>, wire: seq<LineSegment>)
    requires Distinct(ws) && Maximal(raw, ws) && NoRepeats(wire)
    requires Elems(wire) !! Used(ws)
    requires forall r :: r in raw && Touches(r, Ends(wire)) ==> r in Used(ws) + Elems(wire)
    ensures Used(ws + [wire]) == Used(ws) + Elems(wire)
    ensures Distinct(ws + [wire]) && Maximal(raw, ws + [wire])
  {
    UsedSnoc(ws, wire);
    var ws' := ws + [wire];
    forall i | 0 <= i < |ws|
      ensures Elems(ws[i]) !! Elems(wire)
    {
      UsedHolds(ws, i);
    }
    forall i | 0 <= i < |ws'|
      ensures NoRepeats(ws'[i])
    {
    }
    forall i, j | 0 <= i < j < |ws'|
      ensures Elems(ws'[i]) !! Elems(ws'[j])
    {
    }
    forall i, r | 0 <= i < |ws'| && r in raw && Touches(r, Ends(ws'[i]))
      ensures r in Used(ws'[..i + 1])
    {
      if i < |ws| {
        assert ws'[..i + 1] == ws[..i + 1];
      } else {
        assert ws'[..i + 1] == ws';
      }
    }
  }

  /** The assembler's state between wires. */
  ghost predicate Assembling(merged: seq<LineSegment>, raw: seq<LineSegment>, ws: seq<seq<LineSegment>>,
                             pool: set<LineSegment>, corners: set<LineSegment>) {
    pool == Elems(merged) - Used(ws)
    && corners == Elems(raw) - Used(ws)
    && (forall i :: 0 <= i < |ws| ==> Grown(merged, raw, ws[i]))
    && Distinct(ws)
    && Maximal(raw, ws)
  }

  lemma AssembleStep(merged: seq<LineSegment>, raw: seq<LineSegment>, ws: seq<seq<LineSegment>>,
                     pool: set<LineSegment>, corners: set<LineSegment>, seed: LineSegment,
                     wire: seq<LineSegment>, pool': set<LineSegment>, corners': set<LineSegment>)
    requires Assembling(merged, raw, ws, pool, corners) && seed in pool
    requires Grown(merged, raw, wire) && wire[0] == seed && NoRepeats(wire)
    requires Elems(wire) !! Used(ws)
    requires pool' == Elems(merged) - Used(ws) - Elems(wire)
    requires corners' == Elems(raw) - Used(ws) - Elems(wire)
    requires forall r :: r in raw && Touches(r, Ends(wire)) ==> r in Used(ws) + Elems(wire)
    ensures Assembling(merged, raw, ws + [wire], pool', corners')
    ensures |pool'| < |pool|
  {
    Appended(raw, ws, wire);
    var ws' := ws + [wire];
    forall i | 0 <= i < |ws'|
      ensures Grown(merged, raw, ws'[i])
    {
    }
    assert wire[0] in Elems(wire);
    assert pool' <= pool - {seed};
  }

  /** What assembly promises, whatever the hash-set order: every wire is
      grown from a merged seed, no segment is placed twice, every merged
      segment is placed, and every wire is closed. */
  ghost predicate Assembled(merged: seq<LineSegment>, raw: seq<LineSegment>, ws: seq<seq<LineSegment>>) {
    (forall i :: 0 <= i < |ws| ==> Grown(merged, raw, ws[i]))
    && Distinct(ws)
    && Elems(merged) <= Used(ws)
    && Maximal(raw, ws)
  }

  /** Assemble wires from the merged segments and the raw ones. */
  method Assemble(merged: seq<LineSegment>, raw: seq<LineSegment>) returns (ws: seq<seq<LineSegment>>)
    ensures Assembled(merged, raw, ws)
  {
    var pool := Elems(merged);
    var corners := Elems(raw);
    ws := [];
    assert Used(ws) == {};
    while pool != {}
      invariant Assembling(merged, raw, ws, pool, corners)
      decreases |pool|
    {
      var seed :| seed in pool;
      var wire, pool', corners' := Grow(merged, raw, Used(ws), seed, pool - {seed}, corners - {seed});
      AssembleStep(merged, raw, ws, pool, corners, seed, wire, pool', corners');
      ws, pool, corners := ws + [wire], pool', corners';
    }
  }

  // ---- How many wires.

  /** The seed of every assembled wire. */
  function Seeds(ws: seq<seq<LineSegment>>): (r: seq<LineSegment>)
    requires forall i :: 0 <= i < |ws| ==> |ws[i]| > 0
  {
    seq(|ws|, i requires 0 <= i < |ws| => ws[i][0])
  }

  lemma SubsetCount(a: set<LineSegment>, b: set<LineSegment>)
    requires a <= b
    ensures |a| <= |b|
  {
    assert b == a + (b - a);
  }

  lemma SeedsDistinct(merged: seq<LineSegment>, raw: seq<LineSegment>, ws: seq<seq<LineSegment>>)
    requires Assembled(merged, raw, ws)
    ensures |set x | x in Seeds(ws)| == |ws|
    ensures (set x | x in Seeds(ws)) <= Elems(merged)
  {
    var seeds := Seeds(ws);
    forall a, b | 0 <= a < b < |seeds|
      ensures seeds[a] != seeds[b]
    {
      assert seeds[a] in Elems(ws[a]) && seeds[b] in Elems(ws[b]);
    }
    DistinctCount(seeds);
    forall x | x in seeds
      ensures x in Elems(merged)
    {
      var i :| 0 <= i < |seeds| && seeds[i] == x;
      assert Grown(merged, raw, ws[i]);
    }
  }

  lemma SeedsCover(merged: seq<LineSegment>, raw: seq<LineSegment>, ws: seq<seq<LineSegment>>)
    requires Assembled(merged, raw, ws)
    requires forall m :: m in merged ==> m !in raw
    ensures Elems(merged) <= (set x | x in Seeds(ws))
  {
    var seeds := Seeds(ws);
    forall m | m in Elems(merged)
      ensures m in seeds
    {
      assert m in Used(ws);
      var i, a :| 0 <= i < |ws| && 0 <= a < |ws[i]| && ws[i][a] == m;
      assert Grown(merged, raw, ws[i]);
      assert a == 0;
      assert seeds[i] == m;
    }
  }

  /** Each wire has its own merged seed, so there are never more wires than
      distinct merged segments and at least one when there is any; when no
      merged segment is also a raw one, no merged segment can be attached
      to another's wire, and there is exactly one wire per merged segment. */
  lemma WireCount(merged: seq<LineSegment>, raw: seq<LineSegment>, ws: seq<seq<LineSegment>>)
    requires Assembled(merged, raw, ws)
    ensures |ws| <= |Elems(merged)|
    ensures |merged| > 0 ==> |ws| >= 1
    ensures (forall m :: m in merged ==> m !in raw) ==> |ws| == |Elems(merged)|
  {
    var seeds := set x | x in Seeds(ws);
    SeedsDistinct(merged, raw, ws);
    SubsetCount(seeds, Elems(merged));
    if |merged| > 0 {
      assert merged[0] in Used(ws);
    }
    if forall m :: m in merged ==> m !in raw {
      SeedsCover(merged, raw, ws);
      assert seeds == Elems(merged);
    }
  }

  // ---- Which segments share a wire.

  lemma Placement(ws: seq<seq<LineSegment>>, x: LineSegment) returns (i: nat)
    requires x in Used(ws)
    ensures i < |ws| && x in ws[i]
  {
    var i', a :| 0 <= i' < |ws| && 0 <= a < |ws[i']| && ws[i'][a] == x;
    i := i';
  }

  lemma OnlyWire(ws: seq<seq<LineSegment>>, x: LineSegment, i: nat, j: nat)
    requires Distinct(ws) && i < |ws| && j < |ws| && x in ws[i] && x in ws[j]
    ensures i == j
  {
    assert x in Elems(ws[i]) && x in Elems(ws[j]);
  }

  /** A segment sharing an endpoint with a member of `w` touches `w`'s
      endpoints. */
  lemma TouchesShared(x: LineSegment, y: LineSegment, w: seq<LineSegment>)
    requires x in w && ShareEndpoint(x, y)
    ensures Touches(y, Ends(w))
  {
    assert x.start in Ends(w) && x.end in Ends(w);
  }

  /** A raw segment touching wire `i` was placed in wire `i` or earlier. */
  lemma ClosedAt(raw: seq<LineSegment>, ws: seq<seq<LineSegment>>, i: nat, r: LineSegment) returns (j: nat)
    requires Maximal(raw, ws) && i < |ws| && r in raw && Touches(r, Ends(ws[i]))
    ensures j <= i && r in ws[j]
  {
    var pre := ws[..i + 1];
    assert r in Used(pre);
    j := Placement(pre, r);
    assert pre[j] == ws[j];
  }

  /** Two raw segments sharing an endpoint always end up in the same wire:
      whichever wire is grown first takes the other one too. */
  lemma SharedEndpointSameWire(merged: seq<LineSegment>, raw: seq<LineSegment>, ws: seq<seq<LineSegment>>,
                               x: LineSegment, y: LineSegment, i: nat)
    requires Assembled(merged, raw, ws)
    requires i < |ws| && x in ws[i] && x in raw && y in raw && ShareEndpoint(x, y)
    ensures y in ws[i]
  {
    ClosedSameWire(raw, ws, x, y, i);
  }

  lemma ClosedSameWire(raw: seq<LineSegment>, ws: seq<seq<LineSegment>>, x: LineSegment, y: LineSegment, i: nat)
    requires Distinct(ws) && Maximal(raw, ws)
    requires i < |ws| && x in ws[i] && x in raw && y in raw && ShareEndpoint(x, y)
    ensures y in ws[i]
  {
    TouchesShared(x, y, ws[i]);
    var j := ClosedAt(raw, ws, i, y);
    TouchesShared(y, x, ws[j]);
    var k := ClosedAt(raw, ws, j, x);
    OnlyWire(ws, x, i, k);
    assert j == i;
  }

  /** No segment of `s` shares an endpoint with a segment of `u` outside
      `s`. */
  predicate Isolated(s: set<LineSegment>, u: set<LineSegment>) {
    forall x, y :: x in s && y in u && y !in s ==> !ShareEndpoint(x, y)
  }

  lemma TouchesSome(s: LineSegment, w: seq<LineSegment>) returns (p: LineSegment)
    requires Touches(s, Ends(w))
    ensures p in w && ShareEndpoint(p, s)
  {
    var q :| q in w && (s.start == q.start || s.start == q.end || s.end == q.start || s.end == q.end);
    p := q;
  }

  lemma GrownPrefix(merged: seq<LineSegment>, raw: seq<LineSegment>, w: seq<LineSegment>, n: nat)
    requires Grown(merged, raw, w) && 0 < n <= |w|
    ensures Grown(merged, raw, w[..n]) && Elems(w[..n]) <= Elems(w)
  {
    var init := w[..n];
    forall a | 0 < a < |init|
      ensures init[a] in raw && Touches(init[a], Ends(init[..a]))
    {
      assert init[..a] == w[..a];
    }
  }

  /** Adding a segment that shares an endpoint with one already in the
      group keeps an isolated group's members and outsiders apart. */
  lemma IsolatedStep(s: set<LineSegment>, u: set<LineSegment>, p: LineSegment, q: LineSegment)
    requires Isolated(s, u) && p in u && q in u && ShareEndpoint(p, q)
    ensures p in s <==> q in s
  {
  }

  /** A wire never leaves an isolated group of segments it was seeded in,
      and never enters one it was not. */
  lemma {:induction false} GrownWithin(merged: seq<LineSegment>, raw: seq<LineSegment>, w: seq<LineSegment>,
                                       s: set<LineSegment>, u: set<LineSegment>)
    requires Grown(merged, raw, w) && Elems(w) <= u && Isolated(s, u)
    ensures forall x :: x in w ==> (x in s <==> w[0] in s)
    decreases |w|
  {
    if |w| > 1 {
      var n := |w| - 1;
      var init := w[..n];
      GrownPrefix(merged, raw, w, n);
      GrownWithin(merged, raw, init, s, u);
      var p := TouchesSome(w[n], init);
      IsolatedStep(s, u, p, w[n]);
      assert w == init + [w[n]];
    }
  }

  // ---- Sorting the wires.

  /** The wire order key: the identifier of the wire's first segment. */
  function FirstId(w: Wire): nat {
    if |w.segments| > 0 then Id(w.segments[0]) else 0
  }

  /** Each wire with its segments sorted by identifier. */
  function SortEach(ws: seq<seq<LineSegment>>): (r: seq<Wire>)
    ensures |r| == |ws|
    ensures forall i :: 0 <= i < |ws| ==> multiset(r[i].segments) == multiset(ws[i])
    ensures forall i :: 0 <= i < |ws| ==> SortedBy(r[i].segments, Id)
  {
    seq(|ws|, i requires 0 <= i < |ws| => Wire(SortBy(ws[i], Id)))
  }

  /** The assembled wires, each sorted by segment identifier, ordered by the
      identifier of their first segment. */
  function SortWires(ws: seq<seq<LineSegment>>): (r: seq<Wire>)
    ensures |r| == |ws|
    ensures SortedBy(r, FirstId)
    ensures multiset(r) == multiset(SortEach(ws))
  {
    SortBy(SortEach(ws), FirstId)
  }

  /** The segments of `w`, wherever they are, as a set. */
  predicate Placed(s: LineSegment, wires: seq<Wire>) {
    exists w :: w in wires && s in w.segments
  }

  /** No segment sits twice in one wire or in two wires. */
  predicate DistinctWires(wires: seq<Wire>) {
    (forall i :: 0 <= i < |wires| ==> NoRepeats(wires[i].segments))
    && (forall i, j :: 0 <= i < |wires| && 0 <= j < |wires| && i != j ==>
          Elems(wires[i].segments) !! Elems(wires[j].segments))
  }

  lemma SameElems(a: seq<LineSegment>, b: seq<LineSegment>)
    requires multiset(a) == multiset(b)
    ensures Elems(a) == Elems(b)
  {
    assert forall x :: x in a <==> x in multiset(a);
    assert forall x :: x in b <==> x in multiset(b);
  }

  lemma SortEachDistinct(ws: seq<seq<LineSegment>>)
    requires Distinct(ws)
    ensures DistinctWires(SortEach(ws))
  {
    var e := SortEach(ws);
    forall i | 0 <= i < |e|
      ensures NoRepeats(e[i].segments)
    {
      PermutationKeepsPairs(ws[i], e[i].segments, (x: LineSegment, y: LineSegment) => x != y);
    }
    forall i, j | 0 <= i < |e| && 0 <= j < |e| && i != j
      ensures Elems(e[i].segments) !! Elems(e[j].segments)
    {
      SameElems(e[i].segments, ws[i]);
      SameElems(e[j].segments, ws[j]);
    }
  }

  lemma FromSortEach(ws: seq<seq<LineSegment>>, w: Wire) returns (i: nat)
    requires w in SortWires(ws)
    ensures i < |ws| && w == SortEach(ws)[i]
  {
    var e := SortEach(ws);
    assert w in multiset(SortWires(ws));
    assert w in multiset(e);
    i :| 0 <= i < |e| && e[i] == w;
  }

  lemma ToSortWires(ws: seq<seq<LineSegment>>, i: nat)
    requires i < |ws|
    ensures SortEach(ws)[i] in SortWires(ws)
  {
    var e := SortEach(ws);
    assert e[i] in multiset(e);
    assert e[i] in multiset(SortWires(ws));
  }

  lemma PlacedIsUsed(ws: seq<seq<LineSegment>>, s: LineSegment)
    ensures Placed(s, SortWires(ws)) <==> s in Used(ws)
  {
    var e := SortEach(ws);
    var r := SortWires(ws);
    if Placed(s, r) {
      var w :| w in r && s in w.segments;
      var i := FromSortEach(ws, w);
      SameElems(w.segments, ws[i]);
      UsedHolds(ws, i);
      assert s in Elems(ws[i]);
    }
    if s in Used(ws) {
      var i, a :| 0 <= i < |ws| && 0 <= a < |ws[i]| && ws[i][a] == s;
      SameElems(e[i].segments, ws[i]);
      ToSortWires(ws, i);
      assert s in Elems(e[i].segments);
    }
  }

  lemma SortWiresShape(ws: seq<seq<LineSegment>>)
    requires forall i :: 0 <= i < |ws| ==> |ws[i]| > 0
    ensures forall w :: w in SortWires(ws) ==> |w.segments| > 0 && SortedBy(w.segments, Id)
  {
    forall w | w in SortWires(ws)
      ensures |w.segments| > 0 && SortedBy(w.segments, Id)
    {
      var i := FromSortEach(ws, w);
      assert |multiset(w.segments)| == |multiset(ws[i])|;
    }
  }

  lemma SortWiresDistinct(ws: seq<seq<LineSegment>>)
    requires Distinct(ws)
    requires forall i :: 0 <= i < |ws| ==> |ws[i]| > 0
    ensures DistinctWires(SortWires(ws))
  {
    var e := SortEach(ws);
    var r := SortWires(ws);
    SortEachDistinct(ws);
    var rel := (x: Wire, y: Wire) => Elems(x.segments) !! Elems(y.segments);
    forall i | 0 <= i < |e|
      ensures !rel(e[i], e[i])
    {
      assert |multiset(e[i].segments)| == |multiset(ws[i])|;
      assert e[i].segments[0] in Elems(e[i].segments);
    }
    PermutationKeepsPairs(e, r, rel);
    forall i | 0 <= i < |r|
      ensures NoRepeats(r[i].segments)
    {
      var j := FromSortEach(ws, r[i]);
    }
  }

  /** Sorting keeps the wires distinct, keeps every wire non-empty and
      sorted, and places exactly the segments assembly placed. */
  lemma SortWiresKeeps(ws: seq<seq<LineSegment>>)
    requires Distinct(ws)
    requires forall i :: 0 <= i < |ws| ==> |ws[i]| > 0
    ensures DistinctWires(SortWires(ws))
    ensures forall w :: w in SortWires(ws) ==> |w.segments| > 0 && SortedBy(w.segments, Id)
    ensures forall s :: Placed(s, SortWires(ws)) <==> s in Used(ws)
  {
    SortWiresShape(ws);
    SortWiresDistinct(ws);
    forall s
      ensures Placed(s, SortWires(ws)) <==> s in Used(ws)
    {
      PlacedIsUsed(ws, s);
    }
  }

  // ---- The pipelines.

  lemma EndsOfElems(a: seq<LineSegment>, b: seq<LineSegment>)
    requires Elems(a) == Elems(b)
    ensures Ends(a) == Ends(b)
  {
    assert forall t :: t in a <==> t in Elems(a);
    assert forall t :: t in b <==> t in Elems(b);
  }

  /** Only merged and raw segments are placed, and a raw segment touching
      a sorted wire's endpoints is placed too. */
  lemma SortedClosed(merged: seq<LineSegment>, raw: seq<LineSegment>, ws: seq<seq<LineSegment>>)
    requires Assembled(merged, raw, ws)
    ensures forall s :: Placed(s, SortWires(ws)) ==> s in merged || s in raw
    ensures forall w, r :: w in SortWires(ws) && r in raw && Touches(r, Ends(w.segments)) ==> Placed(r, SortWires(ws))
    ensures forall w, x, y :: w in SortWires(ws) && x in w.segments && x in raw && y in raw && ShareEndpoint(x, y) ==> y in w.segments
  {
    forall w, x, y | w in SortWires(ws) && x in w.segments && x in raw && y in raw && ShareEndpoint(x, y)
      ensures y in w.segments
    {
      SortedSharedEndpoint(merged, raw, ws, w, x, y);
    }
    forall s | Placed(s, SortWires(ws))
      ensures s in merged || s in raw
    {
      SortedPlacedFrom(merged, raw, ws, s);
    }
    forall w, r | w in SortWires(ws) && r in raw && Touches(r, Ends(w.segments))
      ensures Placed(r, SortWires(ws))
    {
      SortedTouchingPlaced(merged, raw, ws, w, r);
    }
  }

  lemma SortedSharedEndpoint(merged: seq<LineSegment>, raw: seq<LineSegment>, ws: seq<seq<LineSegment>>,
                             w: Wire, x: LineSegment, y: LineSegment)
    requires Assembled(merged, raw, ws)
    requires w in SortWires(ws) && x in w.segments && x in raw && y in raw && ShareEndpoint(x, y)
    ensures y in w.segments
  {
    var i := FromSortEach(ws, w);
    SameElems(w.segments, ws[i]);
    assert x in Elems(ws[i]);
    SharedEndpointSameWire(merged, raw, ws, x, y, i);
    assert y in Elems(ws[i]);
  }

  lemma SortedPlacedFrom(merged: seq<LineSegment>, raw: seq<LineSegment>, ws: seq<seq<LineSegment>>, s: LineSegment)
    requires Assembled(merged, raw, ws)
    requires Placed(s, SortWires(ws))
    ensures s in merged || s in raw
  {
    PlacedIsUsed(ws, s);
    var i, a :| 0 <= i < |ws| && 0 <= a < |ws[i]| && ws[i][a] == s;
    assert Grown(merged, raw, ws[i]);
  }

  lemma SortedTouchingPlaced(merged: seq<LineSegment>, raw: seq<LineSegment>, ws: seq<seq<LineSegment>>,
                             w: Wire, r: LineSegment)
    requires Assembled(merged, raw, ws)
    requires w in SortWires(ws) && r in raw && Touches(r, Ends(w.segments))
    ensures Placed(r, SortWires(ws))
  {
    var i := FromSortEach(ws, w);
    SameElems(w.segments, ws[i]);
    EndsOfElems(w.segments, ws[i]);
    assert r in Used(ws[..i + 1]);
    var j, a :| 0 <= j < |ws[..i + 1]| && 0 <= a < |ws[..i + 1][j]| && ws[..i + 1][j][a] == r;
    assert ws[j][a] == r;
    PlacedIsUsed(ws, r);
  }

  /** A wire lies wholly inside `s` or wholly outside it. */
  predicate Separated(w: seq<LineSegment>, s: set<LineSegment>) {
    (forall x :: x in w ==> x in s) || (forall x :: x in w ==> x !in s)
  }

  /** No sorted wire straddles a set of segments that shares no endpoint
      with the other merged and raw segments. */
  lemma SortedSeparated(merged: seq<LineSegment>, raw: seq<LineSegment>, ws: seq<seq<LineSegment>>, s: set<LineSegment>)
    requires Assembled(merged, raw, ws)
    requires Isolated(s, Elems(merged) + Elems(raw))
    ensures forall w :: w in SortWires(ws) ==> Separated(w.segments, s)
  {
    forall w | w in SortWires(ws)
      ensures Separated(w.segments, s)
    {
      var i := FromSortEach(ws, w);
      SameElems(w.segments, ws[i]);
      assert Grown(merged, raw, ws[i]);
      assert Elems(ws[i]) <= Elems(merged) + Elems(raw);
      GrownWithin(merged, raw, ws[i], s, Elems(merged) + Elems(raw));
      assert forall x :: x in w.segments ==> x in Elems(ws[i]);
    }
  }

  /** The two-axis analyzers' wires: horizontal then vertical segments
      merged by axis, assembled through the corner map of the unmerged ones,
      then sorted. */
  method GetWires(h: seq<LineSegment>, v: seq<LineSegment>) returns (wires: seq<Wire>)
    ensures forall w :: w in wires ==> |w.segments| > 0 && SortedBy(w.segments, Id)
    ensures SortedBy(wires, FirstId)
    ensures DistinctWires(wires)
    ensures forall m :: m in Merge.MergeColinear(Merge.ByAxis, h + v) ==> Placed(m, wires)
    ensures forall s :: Placed(s, wires) ==> s in Merge.MergeColinear(Merge.ByAxis, h + v) || s in h + v
    ensures forall w, r :: w in wires && r in h + v && Touches(r, Ends(w.segments)) ==> Placed(r, wires)
    ensures forall w, x, y :: w in wires && x in w.segments && x in h + v && y in h + v && ShareEndpoint(x, y) ==> y in w.segments
    ensures |wires| == 0 <==> |h + v| == 0
    ensures |wires| <= |Elems(Merge.MergeColinear(Merge.ByAxis, h + v))|
    ensures (forall m :: m in Merge.MergeColinear(Merge.ByAxis, h + v) ==> m !in h + v) ==>
              |wires| == |Elems(Merge.MergeColinear(Merge.ByAxis, h + v))|
    ensures forall w, s :: w in wires && Isolated(s, Elems(Merge.MergeColinear(Merge.ByAxis, h + v)) + Elems(h + v)) ==>
              Separated(w.segments, s)
  {
    var raw := h + v;
    var merged := Merge.MergeColinear(Merge.ByAxis, raw);
    var ws := Assemble(merged, raw);
    wires := SortWires(ws);
    SortedPlacement(merged, raw, ws);
    SortedClosed(merged, raw, ws);
    SortedCounts(merged, raw, ws);
    forall s | Isolated(s, Elems(merged) + Elems(raw))
      ensures forall w :: w in wires ==> Separated(w.segments, s)
    {
      SortedSeparated(merged, raw, ws, s);
    }
  }

  /** The sorted wires are non-empty, sorted, distinct, and hold every
      merged segment. */
  lemma SortedPlacement(merged: seq<LineSegment>, raw: seq<LineSegment>, ws: seq<seq<LineSegment>>)
    requires Assembled(merged, raw, ws)
    ensures forall w :: w in SortWires(ws) ==> |w.segments| > 0 && SortedBy(w.segments, Id)
    ensures DistinctWires(SortWires(ws))
    ensures forall m :: m in merged ==> Placed(m, SortWires(ws))
  {
    SortWiresKeeps(ws);
    forall m | m in merged
      ensures Placed(m, SortWires(ws))
    {
      PlacedIsUsed(ws, m);
    }
  }

  /** How many wires there are, against the merged segments. */
  lemma SortedCounts(merged: seq<LineSegment>, raw: seq<LineSegment>, ws: seq<seq<LineSegment>>)
    requires merged == Merge.MergeColinear(Merge.ByAxis, raw)
    requires Assembled(merged, raw, ws)
    ensures |SortWires(ws)| == 0 <==> |raw| == 0
    ensures |SortWires(ws)| <= |Elems(merged)|
    ensures (forall m :: m in merged ==> m !in raw) ==> |SortWires(ws)| == |Elems(merged)|
  {
    Merge.MergeColinearFacts(Merge.ByAxis, raw);
    WireCount(merged, raw, ws);
  }

  /** The four-direction analyzer's wires: all four scans merged by kind
      and sorted by identifier. */
  function FourWayWires(h: seq<LineSegment>, v: seq<LineSegment>, ur: seq<LineSegment>, dr: seq<LineSegment>): (r: seq<LineSegment>)
    ensures SortedBy(r, Id)
    ensures |r| <= |h + v + ur + dr|
    ensures |r| == 0 <==> |h + v + ur + dr| == 0
    ensures forall s :: s in h + v + ur + dr ==> exists m :: m in r && Within(s, m)
    ensures forall m :: m in r ==> exists s :: s in h + v + ur + dr && KindOf(s) == KindOf(m)
  {
    var segs := h + v + ur + dr;
    var merged := Merge.MergeColinear(Merge.ByKind, segs);
    Merge.MergeColinearFacts(Merge.ByKind, segs);
    Merge.MergeColinearKinds(segs);
    var r := SortBy(merged, Id);
    ReorderedFacts(segs, merged, r);
    r
  }

  /** Reordering the merge result keeps every segment covered and every
      kind accounted for. */
  lemma ReorderedFacts(segs: seq<LineSegment>, merged: seq<LineSegment>, r: seq<LineSegment>)
    requires multiset(r) == multiset(merged)
    requires forall k :: 0 <= k < |segs| ==> Merge.Covered(segs[k], merged)
    requires forall m :: m in merged ==> exists t :: t in segs && KindOf(t) == KindOf(m)
    ensures forall s :: s in segs ==> exists m :: m in r && Within(s, m)
    ensures forall m :: m in r ==> exists s :: s in segs && KindOf(s) == KindOf(m)
  {
    forall m | m in r
      ensures m in merged
    {
      assert m in multiset(r);
    }
    forall s | s in segs
      ensures exists m :: m in r && Within(s, m)
    {
      var k :| 0 <= k < |segs| && segs[k] == s;
      var j :| 0 <= j < |merged| && Within(s, merged[j]);
      assert merged[j] in multiset(r);
    }
  }

  /** The four-direction analyzer's output is the merge result, reordered. */
  lemma FourWayWiresElems(h: seq<LineSegment>, v: seq<LineSegment>, ur: seq<LineSegment>, dr: seq<LineSegment>)
    ensures multiset(FourWayWires(h, v, ur, dr)) == multiset(Merge.MergeColinear(Merge.ByKind, h + v + ur + dr))
  {
  }

  /** The same, for a concatenation and a merge result already known. */
  lemma FourWayWiresOf(h: seq<LineSegment>, v: seq<LineSegment>, ur: seq<LineSegment>, dr: seq<LineSegment>,
                       segs: seq<LineSegment>, merged: seq<LineSegment>)
    requires segs == h + v + ur + dr && Merge.MergeColinear(Merge.ByKind, segs) == merged
    ensures multiset(FourWayWires(h, v, ur, dr)) == multiset(merged)
  {
    FourWayWiresElems(h, v, ur, dr);
  }
}

=== FILE: wrappers.dfy ===
/** The optional value used wherever the source returns `Option`. */
module Wrappers {
  datatype Option<+T> = None | Some(value: T)
}
